=== FILE: README.md ===
# aether-python platformer core, in Dafny

This project models the per-frame core of a pygame platformer. The repository
holds two independent controllers, and each is modelled as written; the two
share only an integer rectangle with strict overlap (pygame's `colliderect`)
and Python's truncating `int()`.

- **Legacy pipeline** (`player.py`, `level.py`). The player's input handling
  covers acceleration and friction, wall sliding, the jump edge and jump
  buffer, ground/coyote and wall jumps, and variable jump height. Timers count
  integer frames. Also modelled: abilities and cooldowns, crystal fragments,
  and melee and ranged attacks. The level covers tile collisions (horizontal
  pass before vertical pass), the edge probe, lava and energy tiles, enemies,
  the boss, collectibles, the tutorial transition, the camera clamp, and the
  frame order of `Level.update`. `setup_level` parses a text layout into
  tiles and places the spawn.
- **`aether` ECS pipeline** (`aether/`). The entity-component store covers id
  allocation, `add`/`get`, the intersection `query`, and the stable priority
  sort of systems. The component records and their defaults are modelled,
  with the three platformer systems: input, movement, and tile collision.
  Collision runs the vertical pass before the horizontal one and stops at the
  first overlapping tile. Timers are real seconds. Also modelled: the
  `Character` wrapper, key edge detection, the scene tree, and the `appv2.py`
  demo wiring (platform parsing, dt clamp, system registration).
- **Surrounding bookkeeping**:
  - the game shell of `app.py`, with its held/just-pressed key sets and state transitions;
  - the state manager it drives;
  - `game_progression.py`;
  - the elemental puzzles;
  - the one-byte-per-tile layer codec, the default room, the parallax wrap and timed particle spawns of `layered_world_demo.py`;
  - the tutorial level's patrolling sprite and wind puzzle.

Modelling choices:

- Objects with identity are kept in arenas: the scene tree is a map from node
  ids, and puzzle elements are a sequence that gates index into.
- Floats are `real`. Every operation the core uses is `+`, `*`, `min` or
  `max`, so no rounding is reproduced.
- `int(v)` is `Geometry.Trunc`, which truncates toward zero.
- Clocks (`pygame.time.get_ticks`) are a `now` parameter in milliseconds.
- The keyboard and mouse are a `Keys` record or a set of held key codes.
- `random.choice` is a `draws` function: `draws(k)` is the value drawn for
  the k-th ability orb collected in a frame, so every orb draws afresh.
- Exceptions are `None` results. Examples: `KeyError` in progression, a
  missing player in `check_tutorial_progress`, a tile id that does not fit in
  a byte.

Facts of the code that shape the model:

- The variable-jump bound is `max(direction.y, min_jump_speed)` with `min_jump_speed = PLAYER_JUMP_STRENGTH * 0.6`, that is -9.6, in the variable-jump block of `player.py:402-408`. Holding jump in the frame of a ground jump therefore caps the ascent at `min_jump_speed` (-9.6) in that same frame (`Player.GroundJumpFromRest`).
- Neither legacy collision loop breaks. Each still acts as "first hit wins", because the first hit zeroes the velocity component the loop tests. This is proved (`LegacyCollision.HScanIsFirstHit`, `LegacyCollision.VScanIsFirstHit`).
- Both pipelines re-arm the coyote timer right after a ground jump:
  - aether: `AetherSystems.CoyoteRearmedAfterJump`, `AetherSystems.SecondJumpNextFrame`;
  - legacy: `Level.CoyoteRearmedAfterGroundJump`, because `update_coyote_time` runs after collisions.

  This is modelled, not fixed.

Observations about the source, stated as lemmas about the model:

- A body resting exactly on a platform is not grounded in the frames where its fall truncates to zero pixels. The ground flag therefore flickers: `LegacyCollision.RestingContactNotGrounded`, `AetherSystems.SubPixelFallNotGrounded`, `AetherSystems.StillBodyNotGrounded`.
- The difficulty test `region in ELEMENT_WEAKNESSES[...]` is a substring test on a string, so `""` and `"wat"` count as easier (`Progression.SubstringReadsPiecesAsEasier`).
- No code ever sets a gate's `activated` flag, so a puzzle manager that holds a gate never reports completion (`Puzzles.GateBlocksCompletion`).
- Re-parenting a scene node leaves it in the old parent's child list (`SceneNode.StaleChildLink`).
- A node that is its own parent makes `global_position` loop forever (`SceneNode.SelfParentNeverEnds`).

## Model

| member | source | states |
|---|---|---|
| KeyInput.DefaultMapping | aether/core/input.py:7-12 | the default mapping binds exactly left, right, jump and quit, to A, D, SPACE and ESCAPE |
| KeyInput.NewInput | aether/core/input.py:5-14 | an empty mapping falls back to the default one; both snapshots start as the current keys |
| KeyInput.Poll | aether/core/input.py:16-18 | the current snapshot becomes the previous one and the new keys become current; the mapping is kept |
| KeyInput.WasPressedIsDown | aether/core/input.py:20-26 | a press implies the key is held |
| KeyInput.PressIsRisingEdge | aether/core/input.py:20-26 | `was_pressed` holds exactly when `is_down` holds now and did not hold in the previous snapshot |
| KeyInput.UnmappedIsIdle | aether/core/input.py:20-26 | an unmapped action is never down and never pressed |
| KeyInput.FreshInputHasNoPress | aether/core/input.py:13-26 | nothing counts as pressed before the first poll |
| KeyInput.PressAfterPoll | aether/core/input.py:16-26 | after a poll, a press is exactly a mapped key that is in the new snapshot and was not in the one before |
| KeyInput.HeldKeysPressOnce | aether/core/input.py:16-26 | polling the same keys twice reports no press the second time, and the keys stay down |
| AetherComponents.NewController | aether/platformer/components.py:4-8 | a new controller has no left, right or jump intent |
| AetherComponents.NewJumpState | aether/platformer/components.py:27-32 | a new jump state is airborne, was airborne, and has both timers at 0 |
| AetherComponents.DefaultParams | aether/platformer/components.py:11-24 | the default tuning: speed 360, accel 18, max speed 260, gravity 1500, jump -600, friction 12/2, coyote 0.12 s, buffer 0.10 s |
| AetherComponents.DefaultParamsSensible | aether/platformer/components.py:11-24 | the default tuning is physically sensible: non-negative rates and durations, and an upward jump speed |
| AetherPhysics.NewTransform | aether/physics/physics.py:5-8 | a transform stores the given coordinates |
| AetherPhysics.NewKinematics | aether/physics/physics.py:11-17 | new kinematics have zero velocity and acceleration and are not grounded |
| AetherPhysics.NewCollider | aether/physics/physics.py:20-24 | sizes are truncated to integers, never above a non-negative input; `solid` defaults to true |
| AetherPhysics.IntegrateAdditive | aether/physics/physics.py:30-34 | two steps at one velocity equal one step over the summed time |
| AetherPhysics.IntegrateAtRest | aether/physics/physics.py:30-34 | a body at rest stays put for any dt |
| AetherStore.KindOf | aether/ecs/world.py:18 | each component is filed under exactly its own class |
| AetherStore.Priority | aether/platformer/systems.py:8-60 | input 10, movement 20, collision 30; the physics integrator has 20 |
| AetherStore.AddComp | aether/ecs/world.py:17-18 | the component becomes readable under its own kind; every other (entity, kind) pair reads as before |
| AetherStore.AddCompWellTyped | aether/ecs/world.py:17-18 | adding keeps every store holding only components of its own kind |
| AetherStore.AddSys | aether/ecs/world.py:33-35 | registration keeps the schedule sorted by priority and adds exactly the new entry |
| Ecs.NewWorld | aether/ecs/world.py:7-10 | a fresh store has next id 1, no components and no systems |
| Ecs.Create | aether/ecs/world.py:12-15 | returns the current counter and advances it by one; nothing else changes |
| Ecs.CreateMany | aether/ecs/world.py:12-15 | n creations return the n consecutive ids from the counter |
| Ecs.FreshIdsCountFromOne | aether/ecs/world.py:8-15 | from a fresh store, ids are 1, 2, 3, ...: strictly increasing and never reused |
| Ecs.Get | aether/ecs/world.py:20-21 | returns the stored component exactly when the kind's store holds the entity, otherwise None |
| Ecs.Add | aether/ecs/world.py:17-18 | ids and systems are untouched |
| Ecs.GetAfterAdd | aether/ecs/world.py:17-21 | reading back after `add` gives the added component at that (entity, kind) and the old value elsewhere |
| Ecs.AddReplaces | aether/ecs/world.py:17-18 | a second `add` under the same kind replaces the first |
| Ecs.Keys | aether/ecs/world.py:24-27 | the entity set of a kind is exactly the entities holding that kind; an absent store is empty |
| Ecs.Common | aether/ecs/world.py:27-29 | the intersection holds exactly the entities that have every requested kind |
| Ecs.Row | aether/ecs/world.py:31 | the yielded tuple holds each requested kind's component, in request order |
| Ecs.Query | aether/ecs/world.py:23-31 | no kinds yield nothing; otherwise every entity with all kinds is yielded, with its components in request order, and nothing else is |
| Ecs.QueryOncePerEntity | aether/ecs/world.py:30-31 | each entity is yielded with a single tuple |
| Ecs.Insert | aether/ecs/world.py:33-35 | inserting into a sorted schedule keeps it sorted and adds exactly one entry |
| Ecs.InsertStable | aether/ecs/world.py:33-35 | insertion keeps equal-priority entries in registration order, with the new one last |
| Ecs.InsertAfterLast | aether/ecs/world.py:33-35 | an entry of priority at least the last one's is appended |
| Ecs.InsertBelowAll | aether/ecs/world.py:33-35 | an entry of lower priority than every scheduled one goes first |
| Ecs.SortedThree | aether/ecs/world.py:35 | three entries of distinct priorities have exactly one sorted arrangement |
| Ecs.StableSort | aether/ecs/world.py:35 | the sort yields a sorted permutation |
| Ecs.StableSortStable | aether/ecs/world.py:35 | at every priority, the sorted list keeps the input's relative order |
| Ecs.StableSortSorted | aether/ecs/world.py:35 | sorting an already sorted schedule changes nothing |
| Ecs.AddSystem | aether/ecs/world.py:33-35 | appending then sorting gives a sorted permutation of the old schedule plus the new entry |
| Ecs.AddSystemInserts | aether/ecs/world.py:33-35 | on a sorted schedule, `add_system` is a stable insertion: equal priorities keep registration order |
| Ecs.Schedule | aether/ecs/world.py:37-39 | the calling order is the schedule's systems, position by position |
| Ecs.UpdateRunsScheduleOnce | aether/ecs/world.py:37-39 | `update` calls each registered system exactly once, in schedule order |
| Ecs.RunAllAppend | aether/ecs/world.py:37-39 | running a concatenated schedule runs the first part, then the second |
| Character.NewCharacter | aether/platformer/character.py:8-18 | allocates exactly one new entity and attaches transform, kinematics, collider (default 32x48), controller, jump state, params (the defaults when none are given) and the player tag; other entities are untouched |
| Character.NewCharacterIsQueried | aether/platformer/character.py:11-18 | the new entity is visited by the movement and collision queries |
| Character.PlatformerQueries | aether/platformer/systems.py:23-96 | an entity holding the six platformer components is in both the movement query and the collision query |
| Character.NewCharacterWellTyped | aether/platformer/character.py:11-18 | construction keeps every store well typed |
| Character.AddTo | aether/platformer/character.py:20-22 | attaches to the character's own entity and hands back the same character |
| Character.GetFrom | aether/platformer/character.py:24-25 | equals the store's lookup for the character's entity |
| Character.FirstCharacterIsEntityOne | aether/platformer/character.py:8-11 | in a fresh store the character is entity 1 |
| AetherFrame.ReadController | aether/platformer/systems.py:14-20 | left and right are the held state of their actions; jump is the press edge |
| AetherFrame.InputUpdate | aether/platformer/systems.py:14-20 | every controller gets the current intent; no other component changes |
| AetherFrame.InputJumpEdgeIsHeld | aether/platformer/systems.py:14-20 | a jump edge in a controller implies the jump key is held |
| AetherFrame.MovementUpdate | aether/platformer/systems.py:23-56 | every queried entity gets the movement step's kinematics and jump state; nothing else changes |
| AetherFrame.CollideBodies | aether/platformer/systems.py:65-96 | every queried entity's transform and kinematics become the collision step's; other components and the store's key sets are unchanged |
| AetherFrame.CollisionUpdate | aether/platformer/systems.py:65-96 | the collision step's transform, kinematics and jump state are written back for every queried entity; nothing else changes |
| AetherFrame.IntegrateUpdate | aether/physics/physics.py:30-34 | every entity with a transform and kinematics moves by v*dt; nothing else changes |
| AetherFrame.RunSystem | aether/ecs/world.py:37-39 | running one system never changes the id counter or the schedule |
| AetherSystems.Target | aether/platformer/systems.py:27 | the steering direction is 0 when both or neither key is held, otherwise +1 for right and -1 for left |
| AetherSystems.Approach | aether/platformer/systems.py:29-32 | the exponential approach lands between the old value and the goal, and a value at its goal stays |
| AetherSystems.SteerVx | aether/platformer/systems.py:27-34 | the new horizontal speed never exceeds max speed in magnitude; with non-negative rates and dt its magnitude is at most the larger of the old speed's and the target speed's |
| AetherSystems.SteerAtRest | aether/platformer/systems.py:27-34 | no intent and no motion leave the speed at 0 |
| AetherSystems.MoveStep | aether/platformer/systems.py:23-56 | the new vx is `SteerVx` of the old one under the previous contact flag, within the speed cap; a jump fires exactly when the buffer and a ground or coyote contact allow it, setting the jump speed and leaving the ground; otherwise gravity adds g*dt with no cap; timers stay non-negative; a grounded body has no coyote time |
| AetherSystems.JumpEdgeOverwritesBuffer | aether/platformer/systems.py:37-55 | a jump edge resets the buffer to its full length, which then decays by dt |
| AetherSystems.BufferDecays | aether/platformer/systems.py:37-55 | without an edge or a jump the buffer only decays, floored at 0 |
| AetherSystems.CoyoteArmedOnLeavingGround | aether/platformer/systems.py:49-54 | leaving the ground with no running timer arms the coyote window |
| AetherSystems.CoyoteDecaysInAir | aether/platformer/systems.py:49-54 | a running coyote timer is not re-armed; it decays by dt, floored at 0 |
| AetherSystems.CoyoteRearmedAfterJump | aether/platformer/systems.py:40-56 | a ground jump re-arms the coyote timer in the same frame |
| AetherSystems.SecondJumpNextFrame | aether/platformer/systems.py:37-56 | because of that re-arming, a press on the very next frame fires a second full jump in mid-air |
| AetherSystems.FirstOverlapFrom | aether/platformer/systems.py:71-81 | the scan finds the lowest index from i whose tile overlaps, or none exactly when no later tile overlaps |
| AetherSystems.FirstOverlap | aether/platformer/systems.py:71-81 | the first overlapping tile in list order, or none exactly when nothing overlaps |
| AetherSystems.VerticalPass | aether/platformer/systems.py:69-83 | moves by dy; on the first overlap a fall snaps the bottom to the tile's top and a rise snaps the top to its bottom, zeroing vy; the width and x are kept |
| AetherSystems.LandsIff | aether/platformer/systems.py:69-83 | the pass lands exactly when the body falls and its moved rectangle overlaps some tile |
| AetherSystems.HorizontalPass | aether/platformer/systems.py:86-94 | moves by dx; on the first overlap the side is snapped by the sign of vx and vx is zeroed even when already 0; never lands |
| AetherSystems.BodyRect | aether/platformer/systems.py:67 | the collision rectangle is the truncated position with the collider's size |
| AetherSystems.Resolve | aether/platformer/systems.py:67-96 | vertical then horizontal: the resolved rectangle is the horizontal pass applied to the vertically resolved one, vy comes from the vertical pass and vx from the horizontal one; grounded exactly when falling into some tile; a grounded body has vy 0; only the ground flag of the jump state changes |
| AetherSystems.CollideStep | aether/platformer/systems.py:65-96 | the written-back position, kinematics and jump state are `Resolve`'s result for the truncated body rectangle and displacements `int(vx*dt)`, `int(vy*dt)`, so the position is integral; grounded exactly when falling into a tile at the moved rectangle; only the ground flag of the jump state changes |
| AetherSystems.RisingNeverGrounded | aether/platformer/systems.py:69-83 | a body that is not falling is never grounded |
| AetherSystems.LandingTouchesTile | aether/platformer/systems.py:71-77 | after landing, the body's bottom equals the first hit tile's top |
| AetherSystems.SideHitTouchesTile | aether/platformer/systems.py:86-94 | after a side hit the body's edge equals the tile's facing edge |
| AetherSystems.FreeFlight | aether/platformer/systems.py:67-96 | with no tiles the body moves by the full displacement and is airborne |
| AetherSystems.SubPixelFallNotGrounded | aether/platformer/systems.py:67-83 | a body resting on a tile whose fall this frame is under one pixel is not grounded |
| AetherSystems.StillBodyNotGrounded | aether/platformer/systems.py:67-83 | a frame whose vertical displacement truncates to 0, from a non-overlapping spot, never grounds the body |
| AppV2.PlatformOf | appv2.py:21-24 | an `X` cell gives the 64-pixel square at (col*64, row*64); any other character gives nothing |
| AppV2.BuildPlatforms | appv2.py:17-25 | exactly one square per `X` cell and nothing else, in row-major order |
| AppV2.ClampDt | appv2.py:51-54 | dt is never above 1/30 and is passed through unchanged below that |
| AppV2.AppParams | appv2.py:39 | the demo's tuning is the default with speed 460 and jump speed -800 |
| AppV2.Setup | appv2.py:35-45 | the player is entity 1 with the demo tuning; the platforms are the parsed layout; the schedule is input 10, movement 20, collision 30 |
| AppV2.ForwardRegistration | appv2.py:43-45 | registering input, movement and collision in that order gives the demo schedule |
| AppV2.ReverseRegistration | appv2.py:43-45 | registering them in reverse order gives the same schedule |
| AppV2.RegistrationOrderIrrelevant | appv2.py:43-45 | priorities, not registration order, decide the schedule |
| AppV2.RegisteredThree | appv2.py:43-45 | three registrations on an empty schedule leave it sorted, of length three, holding each of the three entries |
| AppV2.RegisterFirst | aether/ecs/world.py:33-35 | the first registered system is the whole schedule |
| AppV2.RegisterLast | aether/ecs/world.py:33-35 | a system of priority at least the last one's goes last |
| AppV2.RegisterFront | aether/ecs/world.py:33-35 | a system of lower priority than every scheduled one goes first |
| AppV2.AddSysInserts | aether/ecs/world.py:33-35 | on a sorted schedule, registering a system is a stable insertion by its priority |
| AppV2.FrameOrder | appv2.py:43-62 | one `world.update` is collision after movement after input |
| AppV2.Tick | appv2.py:49-62 | a tick polls the keyboard and keeps the player, platforms and schedule |
| AppV2.FrameKeepsSystems | aether/ecs/world.py:37-39 | running a frame never changes the registered systems |
| AppV2.TickIsInputMoveCollide | appv2.py:49-62 | every tick of the demo runs input, movement and collision with the clamped dt |
| SceneNode.NewNode | aether/scene/node.py:2-10 | a new node is detached, childless, enabled and visible, at the origin with z 0 |
| SceneNode.AddChild | aether/scene/node.py:12-14 | the child's parent becomes the node and the child is appended to its list; all other nodes are unchanged |
| SceneNode.RemoveChild | aether/scene/node.py:16-19 | an absent child changes nothing; a present one loses its first occurrence from the parent's children and its parent link, and nothing else in either node changes |
| SceneNode.RemoveUndoesAdd | aether/scene/node.py:12-19 | removing a freshly added detached child restores the scene exactly |
| SceneNode.StaleChildLink | aether/scene/node.py:12-14 | re-parenting leaves the child listed under its old parent too |
| SceneNode.WalkShift | aether/scene/node.py:24-27 | the ancestor walk only adds to its starting sum |
| SceneNode.WalkFuel | aether/scene/node.py:21-28 | extra fuel does not change a walk that already reached a root |
| SceneNode.RootAtOwnOffset | aether/scene/node.py:21-28 | a root sits at its own offset |
| SceneNode.ChildGlobalPosition | aether/scene/node.py:21-28 | a child's global position is its offset plus its parent's global position |
| SceneNode.SelfParentNeverEnds | aether/scene/node.py:21-28 | a node that is its own parent has no global position: the walk never ends |
| Geometry.Blend | player.py:371-377 | moving a fraction in [0, 1] across a gap stays between the start and the goal |
| Geometry.BlendNoGap | aether/platformer/systems.py:29-32 | a blend across no gap leaves the velocity where it is |
| Geometry.SetBottom | aether/platformer/systems.py:74 | assigning `bottom` moves the rectangle vertically and keeps x and the size |
| Geometry.SetTop | aether/platformer/systems.py:79 | assigning `top` moves the rectangle vertically and keeps x and the size |
| Geometry.SetRight | aether/platformer/systems.py:90 | assigning `right` moves the rectangle horizontally and keeps y and the size |
| Geometry.SetLeft | aether/platformer/systems.py:92 | assigning `left` moves the rectangle horizontally and keeps y and the size |
| Geometry.Trunc | aether/platformer/systems.py:67-69 | `int()` lies within one below a non-negative value and within one above a negative one |
| Geometry.TruncTowardZero | aether/platformer/systems.py:69 | truncation keeps the sign, never grows the magnitude, and sends (-1, 1) to 0 |
| Geometry.CollideSymmetric | aether/platformer/systems.py:72 | overlap is symmetric |
| Geometry.EdgeContactIsNotCollision | aether/platformer/systems.py:72-74 | rectangles that only share an edge do not collide |
| Grid.RowCells | appv2.py:19-20 | a row yields one cell per character, carrying its row, column and character |
| Grid.GridCells | appv2.py:19-20 | every cell of the layout exactly once, in row-major order |
| Grid.Collect | appv2.py:18-25 | the comprehension keeps exactly the results of the elements that produce one |
| Grid.CollectSorted | appv2.py:19-24 | an order-preserving producer applied to row-major cells yields row-major results |
| Grid.LastOf | level.py:159-174 | the loop's last assignment wins: a result exists exactly when some element produces one, and it is one of theirs |
| Lists.AddUnique | player.py:154-158 | `if a not in s: s.append(a)` puts a in the list at most once, keeps the prefix and adds nothing else |
| Lists.IndexOf | aether/scene/node.py:18 | the position of the first occurrence |
| Lists.IndexOfNoDup | aether/scene/node.py:17-18 | without repeats, an element's index is its position |
| Lists.RemoveFirst | aether/scene/node.py:17-18 | `list.remove` drops exactly the first occurrence and keeps everything around it |
| Settings.ElementWeakness | settings.py:43-49 | the weakness table has an entry exactly for the five elements, each a single region name stored as a string |
| Player.NewPlayer | player.py:50-144 | a fresh player: 32x48 at the spawn, at rest, airborne, facing right, full health and energy, no region, abilities or crystals, timers at 0 |
| Player.SetRegion | player.py:146-149 | entering a region clears the regional abilities and keeps the permanent ones |
| Player.UnlockAbility | player.py:151-158 | the ability lands in the permanent or regional list, never twice; nothing else changes |
| Player.FilterPrefix | player.py:185-186 | keeps exactly the names that start with the prefix |
| Player.RegionalAbilities | player.py:184-187 | the unlocked abilities prefixed by the current region, and none when the region is falsy |
| Player.GetAvailableAbilities | player.py:176-189 | permanent abilities first, then the regional ones, at most three |
| Player.AvailableAbilitiesAreUsable | player.py:160-189 | everything offered passes `can_use_ability` |
| Player.UnlockThenUsable | player.py:151-166 | a permanent unlock makes the ability usable; a regional one makes it usable exactly when it was permanent already or its name starts with the active region |
| Player.SetRegionOffersOnlyPermanent | player.py:146-189 | after entering a region only permanent abilities are offered |
| Player.CompleteCrystal | player.py:337-341 | the region is added to the completed crystals once; nothing else changes |
| Player.CompleteCrystalIdempotent | player.py:337-341 | completing a crystal twice equals completing it once |
| Player.CollectFragment | player.py:327-335 | the region's count goes up by one and no other count changes; the crystal is completed exactly when the count reaches five; body, jump, combat and the rest of the kit are unchanged |
| Player.FiveFragmentsCompleteCrystal | player.py:327-341 | four fragments of a new region do not complete its crystal; the fifth does |
| Player.FireDash | player.py:257-265 | a dash at 20 pixels per frame in the facing direction, at triple speed, for the dash duration |
| Player.WaterHeal | player.py:277-280 | heals by 20, never above the maximum health |
| Player.AirJump | player.py:292-296 | only in the air: vertical speed becomes 0.8 of a jump |
| Player.AirDash | player.py:298-302 | only in the air: a horizontal burst of 8 in the facing direction |
| Player.AirGlide | player.py:304-308 | a downward speed becomes exactly half of itself, still downward; upward motion is untouched |
| Player.SpaceTeleport | player.py:310-315 | jumps 100 pixels in the facing direction, clamped so the sprite stays on screen |
| Player.ApplyAbility | player.py:202-240 | each of fire_dash, water_heal, air_jump, air_dash, air_glide and space_teleport runs its own handler; every other name leaves the player unchanged; no effect touches jump state, energy, attacks or the kit |
| Player.ActivateAbility | player.py:191-240 | refused within one second of the same ability's last use; otherwise applied, with now recorded as the last use |
| Player.ActivateTwiceWithinCooldown | player.py:193-200 | a second activation within the cooldown is refused |
| Player.UseAbility | player.py:168-174 | key n fires the n-th offered ability, if there is one; otherwise nothing changes |
| Player.MeleeAttack | player.py:426-441 | refused during the cooldown; otherwise the attack box is placed on the facing side, the attack flag and visual timer are set and now is recorded; no other combat field, nor body, jump or kit, changes |
| Player.RangedAttack | player.py:443-476 | refused while cooling down or short of energy; otherwise the energy cost is spent, now is recorded and the ranged-attack flag is raised; energy never goes negative; no other combat field, nor body, jump or kit, changes |
| Player.MeleeTwiceWithinCooldown | player.py:426-432 | an attack that lands records now; a second one within the cooldown is refused and changes nothing; one a full cooldown later lands and records the later time |
| Player.RangedTwiceWithinCooldown | player.py:443-455 | a shot that fires raises the flag; a second one within the cooldown is refused and changes nothing |
| Player.TargetSpeed | player.py:348-355 | left wins over right; the target speed's sign follows the pressed key and its magnitude is at most max speed |
| Player.WallSlide | player.py:357-365 | sliding exactly when airborne, touching a wall and pushing into it; a slide caps the fall and records the wall side |
| Player.Accelerate | player.py:367-379 | the blended speed never exceeds the larger of the old and target magnitudes; with no target, a moving body slows down |
| Player.AccelerateWithinMaxSpeed | player.py:348-379 | walking never pushes the horizontal speed past max speed |
| Player.ReadJumpKey | player.py:381-391 | the buffer is armed (overwritten) exactly on the key's rising edge; the held state is stored |
| Player.HeldJumpKeyArmsOnce | player.py:385-391 | holding the key does not re-arm the buffer on the next frame |
| Player.Jump | player.py:517-529 | acts only when grounded or within coyote time, setting the jump speed, clearing coyote time and marking a jump; otherwise nothing changes |
| Player.AirJumpNotRepeatable | player.py:517-529 | in the air a jump uses up the coyote window: a second one does nothing |
| Player.WallJump | player.py:500-515 | only while wall sliding: up and away from the wall, the cooldown armed and the slide cleared |
| Player.WallJumpNotRepeatable | player.py:500-515 | a wall jump cannot be chained without sliding again |
| Player.JumpDispatch | player.py:393-400 | a requested jump tries the ground/coyote jump first, then the wall jump; they are exclusive, and whichever fires clears the buffer |
| Player.VariableJump | player.py:402-408 | while held during a rising jump, the ascent is capped at -9.6; release or descent ends the jump |
| Player.VariableJumpBoundsAscent | player.py:402-408 | while a jump is in progress the ascent is never faster than 9.6 |
| Player.Steer | player.py:348-379 | facing, wall slide and the acceleration toward the target speed |
| Player.Move | player.py:348-408 | the movement half of input keeps timers valid and records the jump key |
| Player.Act | player.py:410-424 | the action half of input never touches the jump state, keeps energy non-negative, and does nothing without action keys |
| Player.GetInput | player.py:343-424 | input handling keeps every timer non-negative and records the jump key |
| Player.GroundJumpFromRest | player.py:381-408 | pressing jump while grounded jumps in that frame, and the held key caps the ascent at 9.6 |
| Player.HeldKeyNeverArmsBuffer | player.py:381-400 | a key already down last frame never raises the buffer |
| Player.Countdown | player.py:547-552 | a timer drops by at most one per frame and never from 0 or above to below 0; it stays put exactly when it is not positive |
| Player.UpdateEnergy | player.py:478-486 | energy refills by one on an energy tile, never above the maximum, and stays put elsewhere |
| Player.DashTick | player.py:557-561 | the dash counter ticks down and the tick that reaches 0 restores the normal speed |
| Player.Update | player.py:542-565 | after input, the buffer, wall-jump, dash and melee-visual counters tick down; energy follows `update_energy`; speed is restored on the dash's last tick and kept on every other; the kit is kept; every counter stays non-negative |
| Player.Tick | player.py:546-564 | the same counter step on an already-read player: each counter ticks down, energy follows `update_energy`, and nothing else in the combat state changes |
| Player.UpdateCoyoteTime | player.py:488-498 | armed to 8 on leaving the ground, 0 while grounded, otherwise counting down; the ground flag is remembered |
| Player.CoyoteCountdown | player.py:488-498 | n airborne frames lower the timer by n, never below 0 |
| Player.CoyoteWindow | player.py:488-498 | leaving the ground opens an 8-frame window that closes after 8 airborne frames |
| Level.LevelGrid | level.py:111 | an empty layout means the tutorial level |
| Level.NewLevel | level.py:109-136 | the level parses its layout, starts in the fire section of the fire region with the camera at 0, and the player's region is fire |
| Level.EnemyContacts | level.py:296-298 | health drops by 0.1 per overlapping enemy |
| Level.ResolveMelee | level.py:300-306 | enemies outside the live melee box are kept; hit ones lose melee damage and are removed at 0 health |
| Level.MeleeOutcomeKills | level.py:300-306 | a live hit removes exactly the enemies at or below the melee damage and lowers the others' health by it; a miss keeps the enemy |
| Level.OrbAbilities | level.py:366-371 | every region's orb grants some ability |
| Level.CollectItem | level.py:359-378 | a fragment counts for its region; an orb unlocks one of the region's abilities, chosen by the value drawn; the body, jump and combat state stay |
| Level.CollectItems | level.py:309-311 | exactly the items the player overlaps are removed, and the player is the one that collects them one by one in list order; body, jump and combat state stay |
| Level.CollectAll | level.py:309-311 | collecting a run of items leaves the body, jump and combat state alone |
| Level.CollectAllSnoc | level.py:309-311 | collecting one more item applies it after the others, with the next draw if it is an orb |
| Level.CollectedFragmentsCount | level.py:359-362 | a region's fragment count grows by exactly the number of that region's fragments collected |
| Level.CollectOneMoreFragment | level.py:309-311 | the last item collected adds one to a region's count exactly when it is a fragment of that region |
| Level.CollectItemFragmentCount | level.py:359-378 | one collected item adds one to a region's count exactly when it is a fragment of that region |
| Level.FirstOrbFirstDraw | level.py:368-376 | the first orb of a frame unlocks the ability of the first draw |
| Level.TwoOrbsTwoDraws | level.py:368-376 | two orbs collected in one frame take the first and second draws, so two different draws unlock two different abilities, in order |
| Level.BossCollisions | level.py:313-324 | touching the boss costs 0.2 health, and dashing into it also damages the boss; no boss, no change; only the boss's health changes |
| Level.HandleCollisions | level.py:197-331 | without a player nothing happens; otherwise the tiles settle the body; health drops 0.1 per touched enemy and 0.2 more on touching the boss; the enemies are `ResolveMelee`'s survivors; the kit is the fold of the overlapped items; the boss is `BossCollisions`' boss; the attack flags end cleared; every other combat field is the tile-resolved player's; the layout is kept |
| Level.ItemsAndBoss | level.py:308-331 | the overlapped items are collected and removed, then the boss step applies to the same body and combat state, then both attack flags are cleared |
| Level.CheckTransitions | level.py:380-394 | touching the transition zone in the fire section moves to the wind section of the air region, which clears the player's regional abilities; otherwise nothing changes |
| Level.TransitionOnce | level.py:380-394 | the transition happens once |
| Level.CheckTutorialProgress | level.py:396-407 | fails exactly in the fire section without a player; otherwise only the boss flag may change |
| Level.ClampCamera | level.py:423-424 | the camera is clamped into [lo, 0], unchanged when already in range |
| Level.UpdateCamera | level.py:409-424 | when the level is at least screen-sized, the camera lies in [screen - level, 0]; an in-range target is used as is |
| Level.MapEnemies | level.py:592 | every enemy takes one patrol step |
| Level.UpdateActors | level.py:589-594 | the player becomes `Player.Update` of itself, every enemy takes its patrol step and the boss its sweep step; nothing else in the level changes |
| Level.UpdateActorsKeepsPatrols | level.py:589-594 | the actor step keeps every enemy on its patrol and the boss within its sweep |
| Level.CollideAndCoyote | level.py:596-600 | after collisions and coyote time the player is settled: the ground flag is remembered, grounded means no coyote time, and never floor and ceiling at once |
| Level.Update | level.py:587-604 | fails exactly when the fire section has no player; otherwise the frame leaves the player settled |
| Level.CoyoteRearmedAfterGroundJump | level.py:587-600 | a ground jump leaves the player airborne with a full 8-frame coyote window |
| LegacyCollision.FirstBlocking | level.py:220-229 | the first platform in list order overlapping the rectangle, or none exactly when no platform does |
| LegacyCollision.ResetContacts | level.py:204-209 | all contact flags, the energy flag and the edge flag are cleared; nothing else changes |
| LegacyCollision.HStep | level.py:221-229 | a blocking platform while moving right snaps the right edge to its left and sets the right contact, and the mirror case for left; vx is zeroed |
| LegacyCollision.HScan | level.py:220-229 | after the loop either nothing changed or vx is 0; only x, vx and the side contacts can change |
| LegacyCollision.HScanIdle | level.py:220-229 | once vx is 0 the loop changes nothing |
| LegacyCollision.HScanIsFirstHit | level.py:220-229 | the loop resolves exactly the first blocking platform |
| LegacyCollision.HorizontalPass | level.py:217-229 | the player is moved by `int(direction.x)` (`MoveX`, truncation toward zero) and then stopped by the first platform in list order that blocks it (`HClamp`); only the x position, vx and the side contacts change |
| LegacyCollision.ApplyGravity | level.py:233-235 | gravity is added and capped at the maximum fall speed |
| LegacyCollision.VStep | level.py:241-249 | a blocking platform lands a falling body (bottom to its top) or bumps a rising one (top to its bottom); vy is zeroed |
| LegacyCollision.VScan | level.py:240-249 | after the loop either nothing changed or vy is 0; only y, vy and the floor and ceiling contacts can change |
| LegacyCollision.VScanIdle | level.py:240-249 | once vy is 0 the loop changes nothing |
| LegacyCollision.VScanIsFirstHit | level.py:240-249 | the vertical loop resolves exactly the first blocking platform |
| LegacyCollision.VerticalPass | level.py:233-249 | gravity is applied, the player is moved by `int(direction.y)` (`MoveY`) and then stopped by the first platform in list order that blocks it (`VClamp`); never floor and ceiling at once; landing zeroes vy; x, vx and facing are kept |
| LegacyCollision.EdgeProbe | level.py:255-271 | an 8x4 box at the feet, just beyond the facing side |
| LegacyCollision.DetectEdge | level.py:252-285 | only when grounded: at an edge exactly when no platform overlaps the probe |
| LegacyCollision.TileEffects | level.py:288-293 | 0.1 damage per overlapped lava tile; the energy flag is set exactly when an energy tile overlaps |
| LegacyCollision.Settle | level.py:203-249 | after the contact reset and both passes the player is never on floor and ceiling at once, a grounded player has vy 0, and abilities, jump bookkeeping and combat state are kept apart from the cleared edge and energy flags |
| LegacyCollision.EdgeAndEffects | level.py:251-293 | the body is kept; a grounded player is at an edge exactly when no platform overlaps the probe; only health and the energy flag change in combat, and only the edge flag in jump |
| LegacyCollision.ResolveTiles | level.py:203-293 | never floor and ceiling at once; an edge only when grounded, and then exactly when the probe is clear; grounded means vy 0 |
| LegacyCollision.RisingNeverLands | level.py:233-249 | a body still moving up after gravity never lands |
| LegacyCollision.RestingContactNotGrounded | level.py:203-249 | a player at rest exactly on top of a platform is not grounded in that frame |
| LevelSetup.CellRectCoversCell | level.py:144-145 | a point lies in a cell's 64-pixel square exactly when its coordinates divided by 64 (rounded down) are the cell's column and row |
| LevelSetup.KindOf | level.py:147-158 | exactly X, L, W and N make tiles |
| LevelSetup.Tiles | level.py:142-158 | one tile per X/L/W/N cell and nothing else, in row-major order |
| LevelSetup.ItemRect | level.py:165-169 | an item is a 24x24 box centred in its cell |
| LevelSetup.PlatformAt | level.py:180-184 | the first platform containing the point, or none exactly when no platform does |
| LevelSetup.SpawnPosition | level.py:177-191 | standing centred on the platform below, if there is one; otherwise at the cell |
| LevelSetup.SetupLevel | level.py:138-195 | tiles come from their cells; the enemies are those of the E cells in row-major order (`Collect` over `GridCells`); a boss and a player exist exactly when their markers do; the player is in the level's region; the collectibles and transition point are those of `Collectibles` and `TransitionPoint`; the player stands where `SpawnPosition` puts it for the last P cell |
| LevelSetup.PlayerAtSpawn | level.py:177-195 | a player exactly when the layout has a P cell, in the level's region and placed for the last P cell |
| LevelSetup.SpawnAtLastMarker | level.py:159-195 | the player made at the last P marker stands where `SpawnPosition` puts it for that cell |
| LevelSetup.LastMarkerCell | level.py:142-160 | a found marker is the top-left corner of the last cell holding that character |
| LevelSetup.Collectibles | level.py:164-169 | an item is in the level exactly when an F cell gives it as a fragment of the level's region, or an A cell as an ability orb, centred in the cell; the items come in row-major cell order |
| LevelSetup.TransitionPoint | level.py:173-174 | a transition point exists exactly when the grid holds a T, and it is the top-left corner of a T cell |
| LevelSetup.SpawnPlayer | level.py:177-195 | a player exists exactly when a spawn marker does, is in the level's region, and has the 32x48 rectangle at `SpawnPosition` of the marker |
| LevelSetup.LastOfCharIff | level.py:159-174 | a marker is found exactly when the layout has a cell with that character |
| LevelSetup.PlatformBelowIsCellBelow | level.py:180-184 | the only tile square containing the point below a cell is the cell below |
| LevelSetup.SpawnOnPlatformBelow | level.py:177-191 | with an X directly below the P cell, the player stands centred on it |
| LevelSetup.SpawnAtCell | level.py:177-191 | a platform tile below the cell puts the player on it, for any tile list from the layout |
| LevelSetup.SpawnInAirWithoutPlatform | level.py:186-191 | without an X below, the player starts at the P cell |
| LevelSetup.NoPlatformBelow | level.py:186-191 | without an X below, no tile from the layout lifts the spawn |
| LevelActors.NewSimpleEnemy | level.py:58-69 | a 32-pixel enemy at the given corner, walking right at full health |
| LevelActors.UpdateEnemy | level.py:71-79 | steps by speed times direction and turns at either end of the patrol |
| LevelActors.NewEnemyPatrolling | level.py:58-79 | a new enemy satisfies the patrol invariant |
| LevelActors.UpdateKeepsPatrolling | level.py:71-79 | every step keeps the enemy within its patrol range, heading by +1 or -1 |
| LevelActors.NewBoss | level.py:83-94 | a 64-pixel boss centred on the marker, at full health, heading right |
| LevelActors.UpdateBoss | level.py:96-104 | steps, counts a frame, and reverses when the count reaches the cooldown; health and speed are kept |
| LevelActors.NewBossSweeping | level.py:83-104 | a new boss starts its sweep at its left edge |
| LevelActors.UpdateKeepsSweeping | level.py:96-104 | the boss never leaves the 120 pixels to the right of its spawn |
| TutorialLevel.NewSpriteEnemy | levels/tutorial_level.py:229-236 | the bounds are fixed at construction to x-50 and x+50; the sprite heads right |
| TutorialLevel.UpdateSprite | levels/tutorial_level.py:238-241 | steps by speed times direction and reverses on touching either bound |
| TutorialLevel.NewSpritePatrolling | levels/tutorial_level.py:229-241 | a new sprite satisfies the patrol invariant |
| TutorialLevel.UpdateKeepsPatrolling | levels/tutorial_level.py:238-241 | the direction stays +1 or -1 and the sprite stays between its bounds |
| TutorialLevel.WindPuzzle1 | levels/tutorial_level.py:209-213 | when air dash is usable and rested, now is recorded as its last use and, in the air, the speed becomes 8 in the facing direction; otherwise nothing changes; only the speed and cooldowns ever change |
| TutorialLevel.WindPuzzle1Idempotent | levels/tutorial_level.py:209-213 | a second attempt at the same instant changes nothing |
| GameApp.NewGame | app.py:10-24 | starts in the menu with no level and no keys |
| GameApp.KeyEvent | app.py:34-40 | a key down is a press only if it was not already held; a key up releases it |
| GameApp.Events | app.py:30-42 | the loop stops at a QUIT; every new press comes from a key-down event |
| GameApp.HandleEvents | app.py:26-42 | the result is false exactly when a QUIT arrived; presses are cleared first and come only from key-down events |
| GameApp.HeldKeyNotJustPressed | app.py:34-40 | a key held since the last frame and not released is never a press |
| GameApp.QuietFrameClearsPresses | app.py:26-42 | a frame without events reports no presses and keeps the held keys |
| GameApp.FreshKeyDownIsPress | app.py:34-37 | a key down for a key not held is a press, and the key is then held |
| GameApp.Goto | archive/game_state_manager.py:12-17 | a state change records the old state as previous; the shared data and everything outside the state machine are unchanged |
| GameApp.UpdateMenu | app.py:44-53 | ENTER plays a new level; ESC quits |
| GameApp.UpdatePlaying | app.py:55-73 | playing never quits and never builds or drops a level |
| GameApp.UpdatePaused | app.py:75-80 | ESC resumes play; otherwise nothing changes |
| GameApp.UpdateGameOver | app.py:82-92 | ENTER builds a new level and plays it; ESC quits |
| GameApp.UpdateVictory | app.py:94-103 | ENTER returns to the menu and drops the level; ESC quits |
| GameApp.Update | app.py:218-233 | the game quits exactly on ESC in the menu, game-over or victory state; an unknown state is left alone |
| GameApp.Step | app.py:250-263 | a QUIT stops the loop |
| GameApp.NewGameValid | app.py:17-20 | the shell starts in a valid state |
| GameApp.StepKeepsValid | app.py:218-233 | every frame keeps the shell in its five states, with a level exactly outside the menu |
| GameApp.PlayingLastChangeWins | app.py:55-73 | in play the last applicable change wins: a dead boss beats a dead player, which beats ESC |
| GameApp.PauseResume | app.py:55-80 | pausing and resuming keep the same level |
| StateManager.NewManager | archive/game_state_manager.py:7-10 | starts in the menu, with no previous state and no data |
| StateManager.ChangeState | archive/game_state_manager.py:12-17 | the old state becomes previous; data is stored under the new state only when non-empty |
| StateManager.FalsyStateMeansCurrent | archive/game_state_manager.py:19-28 | a falsy state argument (none or the empty string) reads and clears the current state's data |
| StateManager.GetStateData | archive/game_state_manager.py:19-22 | the stored data, or empty |
| StateManager.ClearStateData | archive/game_state_manager.py:24-28 | the entry is removed if present; every other entry stays |
| StateManager.GoBack | archive/game_state_manager.py:30-35 | swaps current and previous when previous is truthy; otherwise nothing changes |
| StateManager.GoBackTwice | archive/game_state_manager.py:30-35 | going back twice restores the pair |
| StateManager.GoBackUndoesChange | archive/game_state_manager.py:12-35 | going back after a change returns to the state left |
| StateManager.DataRoundTrip | archive/game_state_manager.py:12-22 | stored data reads back under its state |
| StateManager.ClearThenGet | archive/game_state_manager.py:19-28 | after clearing, the state's data reads as empty |
| StateManager.ChangeKeepsOldData | archive/game_state_manager.py:12-22 | a change without data keeps earlier data reachable by name |
| Progression.EmptyLists | game_progression.py:12-18 | one empty ability list per region |
| Progression.ZeroCounts | game_progression.py:20-26 | one zero fragment count per region |
| Progression.NewProgression | game_progression.py:8-30 | fire region, level 1, nothing completed, collected or unlocked |
| Progression.ResetGame | game_progression.py:162-176 | a reset restores exactly the initial state |
| Progression.NewProgressionValid | game_progression.py:8-30 | the initial state satisfies the bookkeeping invariant |
| Progression.UnlockAbility | game_progression.py:83-92 | fails exactly for a regional unlock in an unknown region; otherwise adds the ability once and keeps the invariant |
| Progression.UnlockIdempotent | game_progression.py:83-92 | unlocking twice equals unlocking once |
| Progression.CompleteCrystal | game_progression.py:103-107 | the crystal is listed once; nothing else changes |
| Progression.CompleteRegion | game_progression.py:109-113 | the region is listed once and the first completed region is kept |
| Progression.CompleteIdempotent | game_progression.py:103-113 | completing twice equals completing once, for crystals and regions |
| Progression.CollectFragment | game_progression.py:94-101 | fails exactly for an unknown region; otherwise only that count goes up by one, the crystal completes exactly at five, and no field but the counts and completed crystals changes |
| Progression.FifthFragmentCompletes | game_progression.py:94-107 | from a new game, the fifth fragment of a region completes its crystal and the fourth does not |
| Progression.GetAvailableAbilities | game_progression.py:115-125 | fails exactly for an unknown region; otherwise permanent abilities, then the region's, at most three |
| Progression.GetRegionDifficulty | game_progression.py:133-147 | 1.0 with nothing completed; otherwise 0.7, 1.3 or 1.0 against the first completed region's weakness entries |
| Progression.FireStartDifficulty | game_progression.py:133-147 | starting from fire, water is easier, air harder and earth neutral |
| Progression.SubstringReadsPiecesAsEasier | game_progression.py:142-145 | the substring test counts any piece of a weakness name, even the empty one, as easier |
| Progression.GetNextRegion | game_progression.py:149-160 | fire first; then the successor in fire, water, earth, air, space; none after space; fails for an unknown region |
| Progression.NextRegionFollowsOrder | game_progression.py:154-159 | each region's successor is the next in the fixed order |
| Puzzles.NewSwitch | puzzle_system.py:23-26 | a new switch is inactive |
| Puzzles.NewGate | puzzle_system.py:38-42 | a new gate is closed and inactive |
| Puzzles.NewCrystal | puzzle_system.py:55-58 | a new crystal is uncharged and inactive |
| Puzzles.Interact | puzzle_system.py:28-34 | a switch activates and reports true exactly when the player's region is its element; nothing deactivates |
| Puzzles.Charge | puzzle_system.py:61-69 | only a required element adds one charge; the crystal activates and reports true when the charge reaches the number required |
| Puzzles.ChargeTimes | puzzle_system.py:61-69 | repeated charging keeps the crystal's requirements |
| Puzzles.RepeatedChargeActivates | puzzle_system.py:61-69 | n charges of one required element leave a charge of n and activate exactly when n reaches the number required |
| Puzzles.EmptyCrystalNeverActivates | puzzle_system.py:61-69 | a crystal that requires nothing never charges and never activates |
| Puzzles.UpdateElement | puzzle_system.py:44-51 | a gate opens exactly when all its switches are active; nothing else changes |
| Puzzles.UpdateAll | puzzle_system.py:81-84 | every managed gate reads the switches as they were; no activation flag changes |
| Puzzles.GateWithoutSwitchesOpens | puzzle_system.py:44-47 | a gate with no switches opens at its first update |
| Puzzles.CheckCompletion | puzzle_system.py:86-88 | true exactly when every managed element is active, and true for none |
| Puzzles.GateBlocksCompletion | puzzle_system.py:36-88 | nothing activates a gate, so a manager holding one never completes |
| LayeredWorld.EncodeRow | layered_world_demo.py:74-76 | a row encodes exactly when every id fits in a byte, and the bytes are the ids |
| LayeredWorld.EncodeTiles | layered_world_demo.py:71-76 | a grid encodes exactly when every id fits in a byte |
| LayeredWorld.EncodeLayout | layered_world_demo.py:71-76 | the file has width*height bytes and cell (y, x) is byte y*width + x |
| LayeredWorld.DecodeRows | layered_world_demo.py:66-68 | row y, column x is byte y*width + x |
| LayeredWorld.Zeros | layered_world_demo.py:62-63 | a grid of the given size filled with 0 |
| LayeredWorld.LoadTileLayer | layered_world_demo.py:59-69 | a missing file reads as zeros; a file too short for the size fails; otherwise cell (y, x) is byte y*width + x |
| LayeredWorld.RoundTrip | layered_world_demo.py:59-76 | loading a saved grid of byte-sized ids with the same size gives the grid back |
| LayeredWorld.DefaultMap | layered_world_demo.py:278-282 | the default room has the room's size |
| LayeredWorld.SetCells | layered_world_demo.py:279-282 | the row's cells in lo..hi become v; every other cell stays |
| LayeredWorld.BuildDefaultMap | layered_world_demo.py:277-283 | bottom two rows ground, row 8 columns 3-6 and row 6 columns 10-13 ground, the rest 0 |
| LayeredWorld.FirstStartLayersAgree | layered_world_demo.py:277-311 | a first start writes the default map, loads it back unchanged, and re-encodes it to the same bytes |
| LayeredWorld.Wrap | layered_world_demo.py:152-153 | past the left edge a shape reappears at the right edge, and past the right edge at the left; a shape over the screen is untouched |
| LayeredWorld.ParallaxStep | layered_world_demo.py:148-153 | a shape moves by int(vx*dt) and stays over the screen's span |
| LayeredWorld.ParallaxUpdate | layered_world_demo.py:148-153 | every shape takes one step |
| LayeredWorld.LeftDriftWrapsAtRightEdge | layered_world_demo.py:150-153 | a left-drifting shape over the screen either stays or reappears at the right edge |
| LayeredWorld.InsertBySpawn | layered_world_demo.py:237 | inserting keeps the schedule sorted by spawn time and adds exactly one event |
| LayeredWorld.SortBySpawn | layered_world_demo.py:237 | sorting gives a permutation sorted by spawn time |
| LayeredWorld.NewParticleLayer | layered_world_demo.py:236-240 | every event becomes one unspawned particle, sorted by spawn time; the clock starts at 0 |
| LayeredWorld.Fresh | layered_world_demo.py:200-207 | a new timed particle is unspawned, at its event's time |
| LayeredWorld.Due | layered_world_demo.py:244-245 | exactly the unspawned events whose time has come, in increasing position |
| LayeredWorld.UpdateParticles | layered_world_demo.py:241-247 | the clock advances by dt; exactly the due events are spawned and appended; earlier spawns are kept |
| LayeredWorld.NewLayerConsistent | layered_world_demo.py:236-247 | a new layer's spawned list matches its flags |
| LayeredWorld.UpdateKeepsConsistent | layered_world_demo.py:241-247 | updates keep the spawned list holding each spawned event once |
| LayeredWorld.SpawnedIffDue | layered_world_demo.py:241-247 | with the clock never running back, after an update an event is spawned exactly when its time has come |
| LayeredWorld.SpawnedPrefix | layered_world_demo.py:237-247 | in a sorted schedule the spawned events form a prefix |
| LayeredWorld.DueEventSpawnsOnce | layered_world_demo.py:244-247 | an event whose time has come is spawned by the next update and listed exactly once |

## Left out

- Rendering and UI: `Level.draw`/`draw_ui`, the `draw_*` methods of `app.py`, `aether/render/renderer.py`, `archive/test_simple.py` and the surface colouring of tiles and items. These are pygame drawing only.
- The main loops of `app.py`, `appv2.py` and `layered_world_demo.py`, plus `aether/core/app.py` and `test.py`. These are device and event plumbing. `GameApp.Step` and `AppV2.Tick` model one pass of a loop.
- `pygame.key.get_pressed`, `pygame.event` and `pygame.mouse`: they become a `Keys` record, a set of held key codes or a list of events given as parameters. Mouse particles in the layered-world demo are left out.
- File and JSON I/O: `save_game`/`load_game` and the file deletion in `reset_game`. The tile-layer codec's file-system side is reduced to byte sequences, with an absent file as `None`. `generate_demo_tiles` and `load_tile_surface` are left out.
- LayeredWorld.EncodeTiles: an id outside 0..255 makes `struct.pack` raise mid-file; the model returns no bytes at all and does not model the partial file.
- The float32 struct codecs for the parallax and particle layers (`layered_world_demo.py:79-132`). Their values do not round-trip through float32.
- Float numerics: the `Projectile` update and the trigonometry of `ranged_attack`/`handle_projectiles`, the float animation of `CollectibleItem`, and the life and radius decay of particles.
- LayeredWorld.UpdateParticles: the life filter of the spawned list (`layered_world_demo.py:248-249`) is not modelled, because particle life is a float that decays; the list keeps every spawned event.
- Player.RangedAttack: the `Projectile` built from the mouse direction (`player.py:457-475`) is not modelled, because the mouse is device input and the projectile's flight is float trigonometry; the shot shows only as the raised `rangedAttacking` flag.
- AetherSystems.SteerVx: promises only the magnitude bound, not that the speed lies between the old and the target speed. The friction step after the approach pulls toward 0, so the speed can end on the far side of the old one from the target.
- Randomness: `random.choice` in `collect_item` is the `draws` parameter, one draw per ability orb. Particle jitter and the random default parallax shapes are left out.
- The camera's follow lerp in `aether/render/camera.py`, which is cosmetic.
- The print-only ability stubs (`earth_*`, `fire_projectile`, `space_slow`, ...) behave as no-ops in `Player.ApplyAbility`. The `TODO` puzzle factories in `puzzle_system.py:95-164` are left out.
- `PuzzleManager.add_puzzle` and `get_puzzle_elements` are plain list appends. The model takes the list of managed positions directly.
- Rectangles of negative size are not normalised as pygame does, and never collide in the model.
- SceneNode.GlobalPosition: the walk runs with as much fuel as there are nodes and returns `None` when the fuel runs out. That fuel is enough for every acyclic parent chain, but this is not proved; a self-parent is proved to give `None`.
- LayeredWorld.SortBySpawn: states a sorted permutation only, not the stability of Python's sort.
- GameApp.UpdatePlaying: `Level.update` and the player and boss health tests are booleans given as parameters, and a level is a counter of levels built.
- No lemma evaluates the parsers on the concrete tutorial layout. Its size makes the evaluation too costly for the verifier.
- `aether/ecs/system.py` contributes only the default priority 0 (`Ecs.DEFAULT_PRIORITY`). `aether/__init__.py` and `aether/assets/assets.py` hold no logic to model.

=== FILE: aether_components.dfy ===
/** The platformer component records of the `aether` engine
    (aether/platformer/components.py) and their defaults. */
module AetherComponents {

  /** Input intent; `jumpPressed` is an edge, true for one frame. */
  datatype Controller = Controller(left: bool, right: bool, jumpPressed: bool)

  /** Tuning, in pixels and seconds. */
  datatype Params = Params(
    speed: real, accel: real, maxSpeed: real,
    gravity: real, jumpSpeed: real,
    frictionGround: real, frictionAir: real,
    coyoteTime: real, jumpBuffer: real)

  /** Ground contact and the two timers, in seconds. */
  datatype JumpState = JumpState(onGround: bool, wasOnGround: bool, coyote: real, buffer: real)

  /** Marks the player entity. */
  datatype PlayerTag = PlayerTag

  function NewController(): (c: Controller)
    ensures !c.left && !c.right && !c.jumpPressed
  {
    Controller(false, false, false)
  }

  function NewJumpState(): (j: JumpState)
    ensures !j.onGround && !j.wasOnGround && j.coyote == 0.0 && j.buffer == 0.0
  {
    JumpState(false, false, 0.0, 0.0)
  }

  /** `Params()` with every default. */
  function DefaultParams(): (p: Params)
    ensures p.speed == 360.0 && p.accel == 18.0 && p.maxSpeed == 260.0
    ensures p.gravity == 1500.0 && p.jumpSpeed == -600.0
    ensures p.frictionGround == 12.0 && p.frictionAir == 2.0
    ensures p.coyoteTime == 0.12 && p.jumpBuffer == 0.10
  {
    Params(360.0, 18.0, 260.0, 1500.0, -600.0, 12.0, 2.0, 0.12, 0.10)
  }

  /** Parameters that make physical sense: everything but the jump speed
      is non-negative, and the jump speed points up. */
  predicate Sensible(p: Params) {
    && p.speed >= 0.0 && p.accel >= 0.0 && p.maxSpeed >= 0.0 && p.gravity >= 0.0
    && p.jumpSpeed < 0.0 && p.frictionGround >= 0.0 && p.frictionAir >= 0.0
    && p.coyoteTime >= 0.0 && p.jumpBuffer >= 0.0
  }

  lemma DefaultParamsSensible()
    ensures Sensible(DefaultParams())
  {
  }
}

=== FILE: aether_frame.dfy ===
/** The store-level `update` of each `aether` system: the per-entity
    bodies of `AetherSystems` (and the physics integrator) applied to every
    entity the system's query yields. Iteration order does not matter,
    since each body reads and writes only its own entity's components and
    the shared, read-only tile list. */
module AetherFrame {
  import opened Wrappers
  import opened Geometry
  import opened AetherPhysics
  import opened AetherComponents
  import opened AetherSystems
  import opened AetherStore
  import KI = KeyInput
  import E = Ecs

  const MOVE_KINDS: seq<Kind> := [TransformK, KinematicsK, ControllerK, ParamsK, JumpStateK]
  const COLLIDE_KINDS: seq<Kind> := [TransformK, KinematicsK, ColliderK, JumpStateK]
  const INTEGRATE_KINDS: seq<Kind> := [TransformK, KinematicsK]

  // Payload accessors; in a well-typed store each returns the stored
  // record, the fallback is never used there.
  function AsTr(c: Comp): Transform { if c.TransformC? then c.tr else Transform(0.0, 0.0) }
  function AsKin(c: Comp): Kinematics { if c.KinematicsC? then c.kin else NewKinematics() }
  function AsCol(c: Comp): Collider { if c.ColliderC? then c.col else Collider(0, 0, true) }
  function AsCtrl(c: Comp): Controller { if c.ControllerC? then c.ctrl else NewController() }
  function AsJs(c: Comp): JumpState { if c.JumpStateC? then c.js else NewJumpState() }
  function AsPrm(c: Comp): Params { if c.ParamsC? then c.prm else DefaultParams() }

  // ---------------------------------------------------------------------
  // InputSystem
  // ---------------------------------------------------------------------

  /** What `InputSystem` writes into a controller this frame. */
  function ReadController(inp: KI.Input): (c: Controller)
    ensures c.left == KI.IsDown(inp, "left") && c.right == KI.IsDown(inp, "right")
    ensures c.jumpPressed == KI.WasPressed(inp, "jump")
  {
    Controller(KI.IsDown(inp, "left"), KI.IsDown(inp, "right"), KI.WasPressed(inp, "jump"))
  }

  /** `InputSystem.update`: every controller gets the current intent;
      nothing else changes. */
  function InputUpdate(w: AWorld, inp: KI.Input): (r: AWorld)
    ensures r.nextId == w.nextId && r.systems == w.systems
    ensures forall e :: E.Has(w, e, ControllerK) ==> E.Get(r, e, ControllerK) == Some(ControllerC(ReadController(inp)))
    ensures forall e, k :: (k != ControllerK || !E.Has(w, e, ControllerK)) ==> E.Get(r, e, k) == E.Get(w, e, k)
  {
    if ControllerK in w.components then
      var store := map e | e in w.components[ControllerK] :: ControllerC(ReadController(inp));
      w.(components := w.components[ControllerK := store])
    else w
  }

  /** A jump edge in a controller means the jump key is held. */
  lemma InputJumpEdgeIsHeld(w: AWorld, inp: KI.Input, e: nat)
    requires E.Has(w, e, ControllerK)
    ensures AsCtrl(E.Get(InputUpdate(w, inp), e, ControllerK).value).jumpPressed ==> KI.IsDown(inp, "jump")
  {
    KI.WasPressedIsDown(inp, "jump");
  }

  // ---------------------------------------------------------------------
  // Writing back
  // ---------------------------------------------------------------------

  /** Replace the kind-`k` component of each entity in `es` by its entry in
      `vals`; every other slot is unchanged. */
  function Overwrite(w: AWorld, k: Kind, es: set<nat>, vals: map<nat, Comp>): (r: AWorld)
    requires es <= E.Keys(w, k) && es <= vals.Keys
    ensures r.nextId == w.nextId && r.systems == w.systems
    ensures forall e :: e in es ==> E.Get(r, e, k) == Some(vals[e])
    ensures forall e, k' :: (k' != k || e !in es) ==> E.Get(r, e, k') == E.Get(w, e, k')
    ensures forall k' :: E.Keys(r, k') == E.Keys(w, k')
  {
    if k in w.components then
      var store := map e | e in w.components[k] :: if e in es then vals[e] else w.components[k][e];
      var r := w.(components := w.components[k := store]);
      assert forall e :: e in es ==> e in store && store[e] == vals[e];
      r
    else
      assert es == {};
      w
  }

  /** The entities `MovementSystem` visits have all five components. */
  lemma MoveKindsHeld(w: AWorld, e: nat)
    requires e in E.Common(w, MOVE_KINDS)
    ensures E.Has(w, e, TransformK) && E.Has(w, e, KinematicsK) && E.Has(w, e, ControllerK)
    ensures E.Has(w, e, ParamsK) && E.Has(w, e, JumpStateK)
  {
    assert E.Has(w, e, MOVE_KINDS[0]) && E.Has(w, e, MOVE_KINDS[1]) && E.Has(w, e, MOVE_KINDS[2]);
    assert E.Has(w, e, MOVE_KINDS[3]) && E.Has(w, e, MOVE_KINDS[4]);
  }

  /** The entities `TileCollisionSystem` visits have all four components. */
  lemma CollideKindsHeld(w: AWorld, e: nat)
    requires e in E.Common(w, COLLIDE_KINDS)
    ensures E.Has(w, e, TransformK) && E.Has(w, e, KinematicsK) && E.Has(w, e, ColliderK)
    ensures E.Has(w, e, JumpStateK)
  {
    assert E.Has(w, e, COLLIDE_KINDS[0]) && E.Has(w, e, COLLIDE_KINDS[1]);
    assert E.Has(w, e, COLLIDE_KINDS[2]) && E.Has(w, e, COLLIDE_KINDS[3]);
  }

  /** The entities the integrator visits have a transform and kinematics. */
  lemma IntegrateKindsHeld(w: AWorld, e: nat)
    requires e in E.Common(w, INTEGRATE_KINDS)
    ensures E.Has(w, e, TransformK) && E.Has(w, e, KinematicsK)
  {
    assert E.Has(w, e, INTEGRATE_KINDS[0]) && E.Has(w, e, INTEGRATE_KINDS[1]);
  }

  // ---------------------------------------------------------------------
  // MovementSystem
  // ---------------------------------------------------------------------

  /** The movement body on entity `e`'s components. */
  function Moved(w: AWorld, e: nat, dt: real): (Kinematics, JumpState)
    requires e in E.Common(w, MOVE_KINDS)
  {
    MoveKindsHeld(w, e);
    MoveStep(AsKin(w.components[KinematicsK][e]), AsCtrl(w.components[ControllerK][e]),
             AsPrm(w.components[ParamsK][e]), AsJs(w.components[JumpStateK][e]), dt)
  }

  /** `MovementSystem.update`: kinematics and jump state of every entity
      with all five components are stepped; every other slot, in
      particular every `Params`, is left as it was. */
  function MovementUpdate(w: AWorld, dt: real): (r: AWorld)
    ensures r.nextId == w.nextId && r.systems == w.systems
    ensures forall e :: e in E.Common(w, MOVE_KINDS) ==>
              && E.Get(r, e, KinematicsK) == Some(KinematicsC(Moved(w, e, dt).0))
              && E.Get(r, e, JumpStateK) == Some(JumpStateC(Moved(w, e, dt).1))
    ensures forall e, k :: ((k != KinematicsK && k != JumpStateK) || e !in E.Common(w, MOVE_KINDS))
              ==> E.Get(r, e, k) == E.Get(w, e, k)
  {
    var es := E.Common(w, MOVE_KINDS);
    var kins := map e | e in es :: KinematicsC(Moved(w, e, dt).0);
    var jss := map e | e in es :: JumpStateC(Moved(w, e, dt).1);
    assert forall e :: e in es ==> E.Has(w, e, KinematicsK) && E.Has(w, e, JumpStateK) by {
      forall e | e in es ensures E.Has(w, e, KinematicsK) && E.Has(w, e, JumpStateK) {
        MoveKindsHeld(w, e);
      }
    }
    var w1 := Overwrite(w, KinematicsK, es, kins);
    Overwrite(w1, JumpStateK, es, jss)
  }

  // ---------------------------------------------------------------------
  // TileCollisionSystem
  // ---------------------------------------------------------------------

  /** The collision body on entity `e`'s components. */
  function Collided(w: AWorld, e: nat, tiles: seq<Rect>, dt: real): (Transform, Kinematics, JumpState)
    requires e in E.Common(w, COLLIDE_KINDS)
  {
    CollideKindsHeld(w, e);
    CollideStep(AsTr(w.components[TransformK][e]), AsKin(w.components[KinematicsK][e]),
                AsCol(w.components[ColliderK][e]), AsJs(w.components[JumpStateK][e]), tiles, dt)
  }

  /** The positional half of the collision write-back: transform and
      kinematics of every visited entity. */
  function CollideBodies(w: AWorld, tiles: seq<Rect>, dt: real): (r: AWorld)
    ensures r.nextId == w.nextId && r.systems == w.systems
    ensures forall e :: e in E.Common(w, COLLIDE_KINDS) ==>
              && E.Get(r, e, TransformK) == Some(TransformC(Collided(w, e, tiles, dt).0))
              && E.Get(r, e, KinematicsK) == Some(KinematicsC(Collided(w, e, tiles, dt).1))
    ensures forall e, k :: ((k != TransformK && k != KinematicsK) || e !in E.Common(w, COLLIDE_KINDS))
              ==> E.Get(r, e, k) == E.Get(w, e, k)
    ensures forall k :: E.Keys(r, k) == E.Keys(w, k)
  {
    var es := E.Common(w, COLLIDE_KINDS);
    var trs := map e | e in es :: TransformC(Collided(w, e, tiles, dt).0);
    var kins := map e | e in es :: KinematicsC(Collided(w, e, tiles, dt).1);
    assert forall e :: e in es ==> E.Has(w, e, TransformK) && E.Has(w, e, KinematicsK) by {
      forall e | e in es ensures E.Has(w, e, TransformK) && E.Has(w, e, KinematicsK) {
        CollideKindsHeld(w, e);
      }
    }
    var w1 := Overwrite(w, TransformK, es, trs);
    var r := Overwrite(w1, KinematicsK, es, kins);
    assert forall e :: e in es ==> E.Get(r, e, TransformK) == E.Get(w1, e, TransformK);
    r
  }

  /** `TileCollisionSystem.update`: transform, kinematics and jump state of
      every entity with all four components are resolved against the
      tiles; colliders and everything else are untouched. */
  function CollisionUpdate(w: AWorld, tiles: seq<Rect>, dt: real): (r: AWorld)
    ensures r.nextId == w.nextId && r.systems == w.systems
    ensures forall e :: e in E.Common(w, COLLIDE_KINDS) ==>
              && E.Get(r, e, TransformK) == Some(TransformC(Collided(w, e, tiles, dt).0))
              && E.Get(r, e, KinematicsK) == Some(KinematicsC(Collided(w, e, tiles, dt).1))
              && E.Get(r, e, JumpStateK) == Some(JumpStateC(Collided(w, e, tiles, dt).2))
    ensures forall e, k :: ((k != TransformK && k != KinematicsK && k != JumpStateK) || e !in E.Common(w, COLLIDE_KINDS))
              ==> E.Get(r, e, k) == E.Get(w, e, k)
  {
    var es := E.Common(w, COLLIDE_KINDS);
    var jss := map e | e in es :: JumpStateC(Collided(w, e, tiles, dt).2);
    assert forall e :: e in es ==> E.Has(w, e, JumpStateK) by {
      forall e | e in es ensures E.Has(w, e, JumpStateK) {
        CollideKindsHeld(w, e);
      }
    }
    var w1 := CollideBodies(w, tiles, dt);
    Overwrite(w1, JumpStateK, es, jss)
  }

  // ---------------------------------------------------------------------
  // physics MovementSystem
  // ---------------------------------------------------------------------

  /** The integration body on entity `e`'s components. */
  function Integrated(w: AWorld, e: nat, dt: real): Transform
    requires e in E.Common(w, INTEGRATE_KINDS)
  {
    IntegrateKindsHeld(w, e);
    Integrate(AsTr(w.components[TransformK][e]), AsKin(w.components[KinematicsK][e]), dt)
  }

  /** The physics `MovementSystem.update`: every entity with a transform
      and kinematics moves by velocity times dt; velocities and everything
      else are untouched. */
  function IntegrateUpdate(w: AWorld, dt: real): (r: AWorld)
    ensures r.nextId == w.nextId && r.systems == w.systems
    ensures forall e :: e in E.Common(w, INTEGRATE_KINDS) ==>
              E.Get(r, e, TransformK) == Some(TransformC(Integrated(w, e, dt)))
    ensures forall e, k :: (k != TransformK || e !in E.Common(w, INTEGRATE_KINDS)) ==> E.Get(r, e, k) == E.Get(w, e, k)
  {
    var es := E.Common(w, INTEGRATE_KINDS);
    var trs := map e | e in es :: TransformC(Integrated(w, e, dt));
    assert forall e :: e in es ==> E.Has(w, e, TransformK) by {
      forall e | e in es ensures E.Has(w, e, TransformK) {
        IntegrateKindsHeld(w, e);
      }
    }
    Overwrite(w, TransformK, es, trs)
  }

  // ---------------------------------------------------------------------
  // World.update
  // ---------------------------------------------------------------------

  /** One system's `update(dt)`; the input manager is the one the input
      system was built with, polled for this frame. */
  function RunSystem(s: Sys, w: AWorld, inp: KI.Input, dt: real): (r: AWorld)
    ensures r.nextId == w.nextId && r.systems == w.systems
  {
    match s
    case InputSys => InputUpdate(w, inp)
    case MovementSys => MovementUpdate(w, dt)
    case CollisionSys(tiles) => CollisionUpdate(w, tiles, dt)
    case IntegrateSys => IntegrateUpdate(w, dt)
  }

  /** `world.update(dt)`: every registered system in list order. */
  function Frame(w: AWorld, inp: KI.Input, dt: real): AWorld {
    E.Update(w, (s: Sys, st: AWorld) => RunSystem(s, st, inp, dt), w)
  }
}

=== FILE: aether_physics.dfy ===
/** The physics records of the `aether` engine (aether/physics/physics.py)
    and its placeholder integration system. Positions and velocities are
    reals; collider sizes are truncated to integers. */
module AetherPhysics {
  import opened Geometry

  /** World position; the source stores both coordinates as floats. */
  datatype Transform = Transform(x: real, y: real)

  /** Velocity, acceleration and a ground flag. */
  datatype Kinematics = Kinematics(vx: real, vy: real, ax: real, ay: real, onGround: bool)

  /** Axis-aligned box size; `solid` is carried but never read. */
  datatype Collider = Collider(w: int, h: int, solid: bool)

  function NewTransform(x: real, y: real): (t: Transform)
    ensures t.x == x && t.y == y
  {
    Transform(x, y)
  }

  function NewKinematics(): (k: Kinematics)
    ensures k.vx == 0.0 && k.vy == 0.0 && k.ax == 0.0 && k.ay == 0.0 && !k.onGround
  {
    Kinematics(0.0, 0.0, 0.0, 0.0, false)
  }

  /** `Collider(w, h, solid=True)`: sizes go through `int(...)`. */
  function NewCollider(w: real, h: real, solid: bool := true): (c: Collider)
    ensures c.w == Trunc(w) && c.h == Trunc(h) && c.solid == solid
    ensures w >= 0.0 ==> 0 <= c.w && c.w as real <= w
  {
    Collider(Trunc(w), Trunc(h), solid)
  }

  /** The placeholder `MovementSystem` step for one entity: position moves
      by velocity times dt; velocity is left alone. */
  function Integrate(t: Transform, k: Kinematics, dt: real): (r: Transform)
    ensures r.x - t.x == k.vx * dt && r.y - t.y == k.vy * dt
  {
    Transform(t.x + k.vx * dt, t.y + k.vy * dt)
  }

  /** Two steps with unchanged velocity are one step over the summed time. */
  lemma IntegrateAdditive(t: Transform, k: Kinematics, dt1: real, dt2: real)
    ensures Integrate(Integrate(t, k, dt1), k, dt2) == Integrate(t, k, dt1 + dt2)
  {
    assert k.vx * dt1 + k.vx * dt2 == k.vx * (dt1 + dt2);
    assert k.vy * dt1 + k.vy * dt2 == k.vy * (dt1 + dt2);
  }

  /** At rest, integration is the identity whatever the time step. */
  lemma IntegrateAtRest(t: Transform, k: Kinematics, dt: real)
    requires k.vx == 0.0 && k.vy == 0.0
    ensures Integrate(t, k, dt) == t
  {
  }
}

=== FILE: aether_store.dfy ===
/** The component kinds of the `aether` platformer, the union of their
    values, and the systems it registers, instantiating the generic store
    of `Ecs`. A component's kind is its Python class. */
module AetherStore {
  import opened Wrappers
  import opened Geometry
  import opened AetherPhysics
  import opened AetherComponents
  import E = Ecs

  datatype Kind = TransformK | KinematicsK | ColliderK | ControllerK | JumpStateK | ParamsK | PlayerTagK

  datatype Comp =
    | TransformC(tr: Transform)
    | KinematicsC(kin: Kinematics)
    | ColliderC(col: Collider)
    | ControllerC(ctrl: Controller)
    | JumpStateC(js: JumpState)
    | ParamsC(prm: Params)
    | PlayerTagC

  /** `type(component)`. */
  function KindOf(c: Comp): (k: Kind)
    ensures k == TransformK <==> c.TransformC?
    ensures k == KinematicsK <==> c.KinematicsC?
    ensures k == ColliderK <==> c.ColliderC?
    ensures k == ControllerK <==> c.ControllerC?
    ensures k == JumpStateK <==> c.JumpStateC?
    ensures k == ParamsK <==> c.ParamsC?
    ensures k == PlayerTagK <==> c.PlayerTagC?
  {
    match c
    case TransformC(_) => TransformK
    case KinematicsC(_) => KinematicsK
    case ColliderC(_) => ColliderK
    case ControllerC(_) => ControllerK
    case JumpStateC(_) => JumpStateK
    case ParamsC(_) => ParamsK
    case PlayerTagC => PlayerTagK
  }

  /** The systems: the three platformer systems (the collision system owns
      its tile list) and the placeholder physics integrator. */
  datatype Sys = InputSys | MovementSys | CollisionSys(tiles: seq<Rect>) | IntegrateSys

  /** The class-level `priority` of each system. */
  function Priority(s: Sys): (p: int)
    ensures s.InputSys? ==> p == 10
    ensures s.MovementSys? ==> p == 20
    ensures s.CollisionSys? ==> p == 30
    ensures s.IntegrateSys? ==> p == 20
  {
    match s
    case InputSys => 10
    case MovementSys => 20
    case CollisionSys(_) => 30
    case IntegrateSys => 20
  }

  type AWorld = E.World<Kind, Comp, Sys>

  /** `world.add(e, c)`: the component is filed under its own class. */
  function AddComp(w: AWorld, e: nat, c: Comp): (r: AWorld)
    ensures E.Get(r, e, KindOf(c)) == Some(c)
    ensures forall e', k :: (e' != e || k != KindOf(c)) ==> E.Get(r, e', k) == E.Get(w, e', k)
    ensures r.nextId == w.nextId && r.systems == w.systems
  {
    var r := E.Add(w, e, KindOf(c), c);
    assert forall e', k :: E.Get(r, e', k) == if e' == e && k == KindOf(c) then Some(c) else E.Get(w, e', k) by {
      forall e', k ensures E.Get(r, e', k) == if e' == e && k == KindOf(c) then Some(c) else E.Get(w, e', k) {
        E.GetAfterAdd(w, e, KindOf(c), c, e', k);
      }
    }
    r
  }

  /** Every store holds only components of its own kind. */
  predicate WellTyped(w: AWorld) {
    forall k, e :: k in w.components && e in w.components[k] ==> KindOf(w.components[k][e]) == k
  }

  lemma AddCompWellTyped(w: AWorld, e: nat, c: Comp)
    requires WellTyped(w)
    ensures WellTyped(AddComp(w, e, c))
  {
  }

  /** Registering a system under its class priority. */
  function AddSys(w: AWorld, s: Sys): (r: AWorld)
    ensures E.Sorted(r.systems)
    ensures multiset(r.systems) == multiset(w.systems) + multiset{E.Entry(s, Priority(s))}
    ensures r.nextId == w.nextId && r.components == w.components
  {
    E.AddSystem(w, s, Priority(s))
  }
}

=== FILE: aether_systems.dfy ===
/** The per-entity bodies of the `aether` platformer systems
    (aether/platformer/systems.py): the movement step (steering, gravity,
    jump buffer and coyote timers, in real seconds) and the tile collision
    step (vertical pass first, then horizontal, each stopping at the first
    overlapping tile). The store-level systems that run these bodies over
    every matching entity are in `AetherFrame`. */
module AetherSystems {
  import opened Wrappers
  import opened Geometry
  import opened AetherPhysics
  import opened AetherComponents

  // ---------------------------------------------------------------------
  // Movement
  // ---------------------------------------------------------------------

  /** Steering direction: -1, 0 or +1; pressing both keys cancels out. */
  function Target(c: Controller): (t: real)
    ensures t == 0.0 <==> c.left == c.right
    ensures t == 1.0 <==> (c.right && !c.left)
    ensures t == -1.0 <==> (c.left && !c.right)
  {
    (if c.left then -1.0 else 0.0) + (if c.right then 1.0 else 0.0)
  }

  /** A fraction `min(1, k*dt)` is in [0, 1] when `k` and `dt` are
      non-negative. */
  lemma FractionInUnit(k: real, dt: real)
    requires k >= 0.0 && dt >= 0.0
    ensures 0.0 <= MinR(1.0, k * dt) <= 1.0
  {
  }

  /** `v += (goal - v) * min(1, k*dt)`, the source's exponential approach.
      For non-negative rate and time step the result lies between `v` and
      `goal`. */
  function Approach(v: real, goal: real, k: real, dt: real): (r: real)
    ensures (k >= 0.0 && dt >= 0.0) ==> MinR(v, goal) <= r <= MaxR(v, goal)
    ensures v == goal ==> r == v
  {
    var a := MinR(1.0, k * dt);
    if v == goal then
      BlendNoGap(v, goal - v, a);
      Blend(v, goal - v, a)
    else if k >= 0.0 && dt >= 0.0 then
      FractionInUnit(k, dt);
      Blend(v, goal - v, a)
    else
      Blend(v, goal - v, a)
  }

  /** The horizontal velocity update: approach `target*speed` by the
      fraction `min(1, accel*dt)`, damp toward 0 by `min(1, friction*dt)`
      (ground or air friction by the previous contact flag), then clamp to
      `[-maxSpeed, maxSpeed]`. */
  function SteerVx(vx: real, c: Controller, prm: Params, onGround: bool, dt: real): (v: real)
    ensures prm.maxSpeed >= 0.0 ==> -prm.maxSpeed <= v <= prm.maxSpeed
    ensures (&& dt >= 0.0 && prm.accel >= 0.0 && prm.frictionGround >= 0.0 && prm.frictionAir >= 0.0
             && prm.maxSpeed >= 0.0)
            ==> AbsR(v) <= MaxR(AbsR(vx), AbsR(Target(c) * prm.speed))
  {
    var v1 := Approach(vx, Target(c) * prm.speed, prm.accel, dt);
    var v2 := Approach(v1, 0.0, if onGround then prm.frictionGround else prm.frictionAir, dt);
    MaxR(-prm.maxSpeed, MinR(prm.maxSpeed, v2))
  }

  /** With no steering input and no motion, the velocity stays zero. */
  lemma SteerAtRest(c: Controller, prm: Params, onGround: bool, dt: real)
    requires c.left == c.right && prm.maxSpeed >= 0.0
    ensures SteerVx(0.0, c, prm, onGround, dt) == 0.0
  {
  }

  /** The source's jump condition, evaluated after the buffer has been
      (re)armed by this frame's jump edge. */
  predicate JumpFires(c: Controller, prm: Params, js: JumpState) {
    var buffer := if c.jumpPressed then prm.jumpBuffer else js.buffer;
    buffer > 0.0 && (js.onGround || js.coyote > 0.0)
  }

  /** `MovementSystem` for one entity: new kinematics and jump state. The
      parameters are only read. Position is not integrated here. */
  function MoveStep(kin: Kinematics, c: Controller, prm: Params, js: JumpState, dt: real)
    : (r: (Kinematics, JumpState))
    ensures r.0.vx == SteerVx(kin.vx, c, prm, js.onGround, dt)
    ensures prm.maxSpeed >= 0.0 ==> -prm.maxSpeed <= r.0.vx <= prm.maxSpeed
    ensures JumpFires(c, prm, js) ==> r.0.vy == prm.jumpSpeed && !r.1.onGround
    ensures !JumpFires(c, prm, js) ==> r.0.vy == kin.vy + prm.gravity * dt && r.1.onGround == js.onGround
    ensures (JumpFires(c, prm, js) && dt >= 0.0) ==> r.1.buffer == 0.0
    ensures r.1.coyote >= 0.0 && r.1.buffer >= 0.0
    ensures r.1.onGround ==> r.1.coyote == 0.0
    ensures r.1.wasOnGround == r.1.onGround
    ensures r.0.ax == kin.ax && r.0.ay == kin.ay && r.0.onGround == kin.onGround
  {
    var vx := SteerVx(kin.vx, c, prm, js.onGround, dt);
    var vy := kin.vy + prm.gravity * dt;
    var buffer := if c.jumpPressed then prm.jumpBuffer else js.buffer;
    var fire := buffer > 0.0 && (js.onGround || js.coyote > 0.0);
    var vy' := if fire then prm.jumpSpeed else vy;
    var onGround := if fire then false else js.onGround;
    var coyote := if fire then 0.0 else js.coyote;
    var buffer' := if fire then 0.0 else buffer;
    var coyote' := if js.wasOnGround && !onGround && coyote <= 0.0 then prm.coyoteTime else coyote;
    var coyote'' := if onGround then 0.0 else MaxR(0.0, coyote' - dt);
    (kin.(vx := vx, vy := vy'), JumpState(onGround, onGround, coyote'', MaxR(0.0, buffer' - dt)))
  }

  /** A jump edge overwrites the buffer: when no jump fires this frame, what
      is left is the full buffer time less this frame. */
  lemma JumpEdgeOverwritesBuffer(kin: Kinematics, c: Controller, prm: Params, js: JumpState, dt: real)
    requires c.jumpPressed && !JumpFires(c, prm, js)
    ensures MoveStep(kin, c, prm, js, dt).1.buffer == MaxR(0.0, prm.jumpBuffer - dt)
  {
  }

  /** Without an edge and without a jump, the buffer only decays. */
  lemma BufferDecays(kin: Kinematics, c: Controller, prm: Params, js: JumpState, dt: real)
    requires !c.jumpPressed && !JumpFires(c, prm, js)
    ensures MoveStep(kin, c, prm, js, dt).1.buffer == MaxR(0.0, js.buffer - dt)
  {
  }

  /** Walking off a ledge (grounded last frame, airborne now, no timer
      running, no jump) arms the coyote window, less this frame. */
  lemma CoyoteArmedOnLeavingGround(kin: Kinematics, c: Controller, prm: Params, js: JumpState, dt: real)
    requires js.wasOnGround && !js.onGround && js.coyote <= 0.0 && !JumpFires(c, prm, js)
    ensures MoveStep(kin, c, prm, js, dt).1.coyote == MaxR(0.0, prm.coyoteTime - dt)
  {
  }

  /** A running coyote timer is not re-armed; airborne it decays by dt. */
  lemma CoyoteDecaysInAir(kin: Kinematics, c: Controller, prm: Params, js: JumpState, dt: real)
    requires !js.onGround && (js.coyote > 0.0 || !js.wasOnGround) && !JumpFires(c, prm, js)
    ensures MoveStep(kin, c, prm, js, dt).1.coyote == MaxR(0.0, js.coyote - dt)
  {
  }

  /** The jump itself clears the coyote timer, but the timer block that
      follows sees "was grounded, not grounded now, timer zero" and arms it
      again: right after a ground jump a full coyote window is open. */
  lemma CoyoteRearmedAfterJump(kin: Kinematics, c: Controller, prm: Params, js: JumpState, dt: real)
    requires JumpFires(c, prm, js) && js.wasOnGround
    ensures MoveStep(kin, c, prm, js, dt).1.coyote == MaxR(0.0, prm.coyoteTime - dt)
  {
  }

  /** Consequence: a second press on the very next frame, while still
      airborne, fires a second jump, as long as one frame is shorter than
      the coyote time. */
  lemma {:induction false} SecondJumpNextFrame(
    kin: Kinematics, c: Controller, prm: Params, js: JumpState, dt: real, c2: Controller)
    requires JumpFires(c, prm, js) && js.wasOnGround
    requires 0.0 <= dt < prm.coyoteTime && c2.jumpPressed && prm.jumpBuffer > 0.0
    ensures var s := MoveStep(kin, c, prm, js, dt);
            JumpFires(c2, prm, s.1) && MoveStep(s.0, c2, prm, s.1, dt).0.vy == prm.jumpSpeed
  {
    CoyoteRearmedAfterJump(kin, c, prm, js, dt);
  }

  // ---------------------------------------------------------------------
  // Tile collision
  // ---------------------------------------------------------------------

  /** The `for t in tiles: if collide: ...; break` scan from index `i`:
      the index of the first overlapping tile, if any. */
  function FirstOverlapFrom(ent: Rect, tiles: seq<Rect>, i: nat): (r: Option<nat>)
    requires i <= |tiles|
    ensures r.None? <==> forall j :: i <= j < |tiles| ==> !Collide(ent, tiles[j])
    ensures r.Some? ==> && i <= r.value < |tiles| && Collide(ent, tiles[r.value])
                        && forall j :: i <= j < r.value ==> !Collide(ent, tiles[j])
    decreases |tiles| - i
  {
    if i == |tiles| then None
    else if Collide(ent, tiles[i]) then Some(i)
    else FirstOverlapFrom(ent, tiles, i + 1)
  }

  function FirstOverlap(ent: Rect, tiles: seq<Rect>): (r: Option<nat>)
    ensures r.None? <==> forall j :: 0 <= j < |tiles| ==> !Collide(ent, tiles[j])
    ensures r.Some? ==> && r.value < |tiles| && Collide(ent, tiles[r.value])
                        && forall j :: 0 <= j < r.value ==> !Collide(ent, tiles[j])
  {
    FirstOverlapFrom(ent, tiles, 0)
  }

  /** Result of one axis pass: the moved rectangle, the velocity on that
      axis, and whether the pass landed on a tile. */
  datatype Pass = Pass(ent: Rect, v: real, landed: bool)

  /** Vertical pass, given the truncated displacement `dy = int(vy*dt)`:
      move; on the first overlap, a falling body lands on the tile top, a
      rising one is pushed below the tile bottom, and either way `vy`
      becomes 0; with `vy == 0` the overlap is left as is. */
  function VerticalPass(ent: Rect, vy: real, dy: int, tiles: seq<Rect>): (r: Pass)
    ensures r.ent.x == ent.x && r.ent.w == ent.w && r.ent.h == ent.h
    ensures var moved := ent.(y := ent.y + dy);
            var f := FirstOverlap(moved, tiles);
            && (f.None? ==> r == Pass(moved, vy, false))
            && (f.Some? ==> r.v == 0.0 && r.landed == (vy > 0.0))
            && (f.Some? && vy > 0.0 ==> r.ent.Bottom() == tiles[f.value].Top())
            && (f.Some? && vy < 0.0 ==> r.ent.Top() == tiles[f.value].Bottom())
            && (f.Some? && vy == 0.0 ==> r.ent == moved)
  {
    var moved := ent.(y := ent.y + dy);
    match FirstOverlap(moved, tiles)
    case None => Pass(moved, vy, false)
    case Some(k) =>
      if vy > 0.0 then Pass(SetBottom(moved, tiles[k].Top()), 0.0, true)
      else if vy < 0.0 then Pass(SetTop(moved, tiles[k].Bottom()), 0.0, false)
      else Pass(moved, 0.0, false)
  }

  /** The vertical pass lands exactly when the body falls and the moved
      rectangle overlaps some tile. */
  lemma LandsIff(ent: Rect, vy: real, dy: int, tiles: seq<Rect>)
    ensures VerticalPass(ent, vy, dy, tiles).landed
            <==> (vy > 0.0 && exists k :: 0 <= k < |tiles| && Collide(ent.(y := ent.y + dy), tiles[k]))
  {
  }

  /** Horizontal pass, given `dx = int(vx*dt)`: move; on the first overlap,
      clamp the right edge (moving right) or the left edge (moving left) to
      the tile, and zero `vx` in every case, even when it already was 0. */
  function HorizontalPass(ent: Rect, vx: real, dx: int, tiles: seq<Rect>): (r: Pass)
    ensures r.ent.y == ent.y && r.ent.w == ent.w && r.ent.h == ent.h && !r.landed
    ensures var moved := ent.(x := ent.x + dx);
            var f := FirstOverlap(moved, tiles);
            && (f.None? ==> r == Pass(moved, vx, false))
            && (f.Some? ==> r.v == 0.0)
            && (f.Some? && vx > 0.0 ==> r.ent.Right() == tiles[f.value].Left())
            && (f.Some? && vx < 0.0 ==> r.ent.Left() == tiles[f.value].Right())
            && (f.Some? && vx == 0.0 ==> r.ent == moved)
  {
    var moved := ent.(x := ent.x + dx);
    match FirstOverlap(moved, tiles)
    case None => Pass(moved, vx, false)
    case Some(k) =>
      var placed := if vx > 0.0 then SetRight(moved, tiles[k].Left())
                    else if vx < 0.0 then SetLeft(moved, tiles[k].Right())
                    else moved;
      Pass(placed, 0.0, false)
  }

  /** The body rectangle the collision system starts from. */
  function BodyRect(tr: Transform, col: Collider): (e: Rect)
    ensures e.x == Trunc(tr.x) && e.y == Trunc(tr.y) && e.w == col.w && e.h == col.h
  {
    Rect(Trunc(tr.x), Trunc(tr.y), col.w, col.h)
  }

  /** Both passes from a starting rectangle and integer displacements:
      vertical first, then horizontal from the vertically resolved
      rectangle. The contact flag is set exactly when the vertical pass
      landed; the other jump fields and the accelerations are untouched. */
  function Resolve(e: Rect, kin: Kinematics, js: JumpState, tiles: seq<Rect>, dx: int, dy: int)
    : (r: (Rect, Kinematics, JumpState))
    ensures r.2.onGround <==> (kin.vy > 0.0 && exists k :: 0 <= k < |tiles| && Collide(e.(y := e.y + dy), tiles[k]))
    ensures r.2 == js.(onGround := r.2.onGround)
    ensures r.1 == kin.(vx := r.1.vx, vy := r.1.vy)
    ensures r.2.onGround ==> r.1.vy == 0.0
    ensures r.0.w == e.w && r.0.h == e.h
    ensures var v := VerticalPass(e, kin.vy, dy, tiles);
            var h := HorizontalPass(v.ent, kin.vx, dx, tiles);
            r.0 == h.ent && r.1.vy == v.v && r.1.vx == h.v
  {
    var v := VerticalPass(e, kin.vy, dy, tiles);
    LandsIff(e, kin.vy, dy, tiles);
    var h := HorizontalPass(v.ent, kin.vx, dx, tiles);
    (h.ent, kin.(vx := h.v, vy := v.v), js.(onGround := v.landed))
  }

  /** `TileCollisionSystem` for one entity: the body rectangle at the
      truncated position moves by `int(vy*dt)` and then `int(vx*dt)`, and
      the resolved integer position is written back. */
  function CollideStep(tr: Transform, kin: Kinematics, col: Collider, js: JumpState,
                       tiles: seq<Rect>, dt: real): (r: (Transform, Kinematics, JumpState))
    ensures var moved := BodyRect(tr, col).(y := Trunc(tr.y) + Trunc(kin.vy * dt));
            r.2.onGround <==> (kin.vy > 0.0 && exists k :: 0 <= k < |tiles| && Collide(moved, tiles[k]))
    ensures r.2 == js.(onGround := r.2.onGround)
    ensures r.1 == kin.(vx := r.1.vx, vy := r.1.vy)
    ensures r.2.onGround ==> r.1.vy == 0.0
    ensures r.0.x == r.0.x.Floor as real && r.0.y == r.0.y.Floor as real
    ensures var q := Resolve(BodyRect(tr, col), kin, js, tiles, Trunc(kin.vx * dt), Trunc(kin.vy * dt));
            r == (Transform(q.0.x as real, q.0.y as real), q.1, q.2)
  {
    var q := Resolve(BodyRect(tr, col), kin, js, tiles, Trunc(kin.vx * dt), Trunc(kin.vy * dt));
    (Transform(q.0.x as real, q.0.y as real), q.1, q.2)
  }

  /** A body that is not falling never becomes grounded. */
  lemma RisingNeverGrounded(tr: Transform, kin: Kinematics, col: Collider, js: JumpState,
                            tiles: seq<Rect>, dt: real)
    requires kin.vy <= 0.0
    ensures !CollideStep(tr, kin, col, js, tiles, dt).2.onGround
  {
  }

  /** Landing puts the body's bottom on the top of the first tile it
      overlaps, so body and tile then only touch. */
  lemma {:induction false} LandingTouchesTile(ent: Rect, vy: real, dy: int, tiles: seq<Rect>)
    ensures var v := VerticalPass(ent, vy, dy, tiles);
            v.landed ==> exists k :: 0 <= k < |tiles| && v.ent.Bottom() == tiles[k].Top()
                                     && !Collide(v.ent, tiles[k])
  {
    var v := VerticalPass(ent, vy, dy, tiles);
    match FirstOverlap(ent.(y := ent.y + dy), tiles)
    case None =>
    case Some(k) =>
      if vy > 0.0 {
        EdgeContactIsNotCollision(v.ent, tiles[k]);
      }
  }

  /** A horizontal hit while moving leaves the body only touching the tile
      it hit. */
  lemma {:induction false} SideHitTouchesTile(ent: Rect, vx: real, dx: int, tiles: seq<Rect>)
    requires vx != 0.0
    ensures var f := FirstOverlap(ent.(x := ent.x + dx), tiles);
            f.Some? ==> !Collide(HorizontalPass(ent, vx, dx, tiles).ent, tiles[f.value])
  {
    var h := HorizontalPass(ent, vx, dx, tiles);
    match FirstOverlap(ent.(x := ent.x + dx), tiles)
    case None =>
    case Some(k) =>
      EdgeContactIsNotCollision(h.ent, tiles[k]);
  }

  /** With no tiles, the body moves by the full displacement on each
      axis, keeps its velocity and is airborne. */
  lemma FreeFlight(e: Rect, kin: Kinematics, js: JumpState, dx: int, dy: int)
    ensures Resolve(e, kin, js, [], dx, dy) == (e.(x := e.x + dx, y := e.y + dy), kin, js.(onGround := false))
  {
    assert VerticalPass(e, kin.vy, dy, []) == Pass(e.(y := e.y + dy), kin.vy, false);
  }

  /** Resting exactly on a tile with a small downward speed (less than one
      pixel this frame) moves nothing, so the body only touches the tile and
      the frame reports it airborne. */
  lemma {:induction false} SubPixelFallNotGrounded(tr: Transform, kin: Kinematics, col: Collider,
                                                   js: JumpState, tiles: seq<Rect>, dt: real)
    requires 0.0 <= kin.vy * dt < 1.0
    requires forall k :: 0 <= k < |tiles| ==> !Collide(BodyRect(tr, col), tiles[k])
    ensures !CollideStep(tr, kin, col, js, tiles, dt).2.onGround
  {
    TruncTowardZero(kin.vy * dt);
    StillBodyNotGrounded(tr, kin, col, js, tiles, dt);
  }

  /** A frame whose vertical displacement truncates to zero, from a spot
      that overlaps no tile, does not ground the body. */
  lemma StillBodyNotGrounded(tr: Transform, kin: Kinematics, col: Collider,
                             js: JumpState, tiles: seq<Rect>, dt: real)
    requires Trunc(kin.vy * dt) == 0
    requires forall k :: 0 <= k < |tiles| ==> !Collide(BodyRect(tr, col), tiles[k])
    ensures !CollideStep(tr, kin, col, js, tiles, dt).2.onGround
  {
    var body := BodyRect(tr, col);
    var dx, dy := Trunc(kin.vx * dt), Trunc(kin.vy * dt);
    ResolveInPlaceNotGrounded(body, kin, js, tiles, dx);
    CollideStepResolves(tr, kin, col, js, tiles, dt, dx, dy);
  }

  lemma CollideStepResolves(tr: Transform, kin: Kinematics, col: Collider, js: JumpState,
                            tiles: seq<Rect>, dt: real, dx: int, dy: int)
    requires dx == Trunc(kin.vx * dt) && dy == Trunc(kin.vy * dt)
    ensures CollideStep(tr, kin, col, js, tiles, dt).2 == Resolve(BodyRect(tr, col), kin, js, tiles, dx, dy).2
  {
  }

  lemma ResolveInPlaceNotGrounded(e: Rect, kin: Kinematics, js: JumpState, tiles: seq<Rect>, dx: int)
    requires forall k :: 0 <= k < |tiles| ==> !Collide(e, tiles[k])
    ensures !Resolve(e, kin, js, tiles, dx, 0).2.onGround
  {
    assert e.(y := e.y + 0) == e;
  }
}

=== FILE: appv2.dfy ===
/** The `aether` demo's wiring (appv2.py): platforms parsed from a layout,
    the player character, the three platformer systems, and the per-frame
    tick with its clamped time step. */
module AppV2 {
  import opened Wrappers
  import opened Geometry
  import opened Grid
  import S = Settings
  import opened AetherComponents
  import opened AetherStore
  import opened AetherFrame
  import KI = KeyInput
  import C = Character
  import E = Ecs

  /** A platform square for an `X` cell; every other character is ignored. */
  function PlatformOf(c: Cell): (r: Option<Rect>)
    ensures r.Some? <==> c.ch == 'X'
    ensures r.Some? ==> r.value == Rect(c.col * S.TILE_SIZE, c.row * S.TILE_SIZE, S.TILE_SIZE, S.TILE_SIZE)
  {
    if c.ch == 'X' then Some(Rect(c.col * S.TILE_SIZE, c.row * S.TILE_SIZE, S.TILE_SIZE, S.TILE_SIZE)) else None
  }

  /** Row-major order on rectangle positions. */
  predicate RowMajor(a: Rect, b: Rect) {
    a.y < b.y || (a.y == b.y && a.x < b.x)
  }

  /** `r` is the square of an `X` cell of the grid. */
  predicate PlatformCell(grid: seq<string>, r: Rect) {
    && r.w == S.TILE_SIZE && r.h == S.TILE_SIZE
    && r.x >= 0 && r.y >= 0 && r.x % S.TILE_SIZE == 0 && r.y % S.TILE_SIZE == 0
    && r.y / S.TILE_SIZE < |grid| && r.x / S.TILE_SIZE < |grid[r.y / S.TILE_SIZE]|
    && grid[r.y / S.TILE_SIZE][r.x / S.TILE_SIZE] == 'X'
  }

  /** `build_platforms`: one square per `X` cell, nothing else, in
      row-major order (the order that decides the first hit in the
      collision system). */
  function BuildPlatforms(grid: seq<string>): (ps: seq<Rect>)
    ensures forall r :: r in ps ==> PlatformCell(grid, r)
    ensures forall row, col :: 0 <= row < |grid| && 0 <= col < |grid[row]| && grid[row][col] == 'X' ==>
              Rect(col * S.TILE_SIZE, row * S.TILE_SIZE, S.TILE_SIZE, S.TILE_SIZE) in ps
    ensures SortedBy(ps, RowMajor)
  {
    var cs := GridCells(grid);
    var ps := Collect(cs, PlatformOf);
    CollectSorted(cs, PlatformOf, Before, RowMajor);
    forall row, col | 0 <= row < |grid| && 0 <= col < |grid[row]| && grid[row][col] == 'X'
      ensures Rect(col * S.TILE_SIZE, row * S.TILE_SIZE, S.TILE_SIZE, S.TILE_SIZE) in ps
    {
      assert InGrid(grid, Cell(row, col, grid[row][col]));
    }
    forall r | r in ps
      ensures PlatformCell(grid, r)
    {
      var cell :| cell in cs && PlatformOf(cell) == Some(r);
      assert r.x / S.TILE_SIZE == cell.col;
      assert r.y / S.TILE_SIZE == cell.row;
    }
    ps
  }

  /** The time step handed to `world.update`: the measured frame time,
      capped at 1/30 s. */
  function ClampDt(dt: real): (r: real)
    ensures r <= 1.0 / 30.0
    ensures dt <= 1.0 / 30.0 ==> r == dt
    ensures dt > 1.0 / 30.0 ==> r == 1.0 / 30.0
  {
    if dt > 1.0 / 30.0 then 1.0 / 30.0 else dt
  }

  /** The demo's tuning: faster running and a higher jump than the
      defaults. */
  function AppParams(): (p: Params)
    ensures p == DefaultParams().(speed := 460.0, jumpSpeed := -800.0)
  {
    Params(460.0, 18.0, 260.0, 1500.0, -800.0, 12.0, 2.0, 0.12, 0.10)
  }

  /** The demo's world and its player entity. */
  datatype Demo = Demo(world: AWorld, player: nat, platforms: seq<Rect>)

  /** `main` up to the loop: a fresh store, the player at (100, 100) with
      a 32x48 collider and the demo tuning, then the input, movement and
      collision systems. */
  function Setup(grid: seq<string>): (d: Demo)
    ensures d.player == 1 && d.platforms == BuildPlatforms(grid)
    ensures d.world.systems == [E.Entry(InputSys, 10), E.Entry(MovementSys, 20), E.Entry(CollisionSys(d.platforms), 30)]
    ensures E.Get(d.world, d.player, ParamsK) == Some(ParamsC(AppParams()))
  {
    var platforms := BuildPlatforms(grid);
    var ch := C.NewCharacter(E.NewWorld(), 100.0, 100.0, 32.0, 48.0, Some(AppParams()));
    ForwardRegistration(ch.world, platforms);
    Demo(AddSys(AddSys(AddSys(ch.world, InputSys), MovementSys), CollisionSys(platforms)), ch.entity, platforms)
  }

  /** The demo's schedule. */
  function DemoSchedule(tiles: seq<Rect>): seq<E.Entry<Sys>> {
    [E.Entry(InputSys, 10), E.Entry(MovementSys, 20), E.Entry(CollisionSys(tiles), 30)]
  }

  /** Registering input, movement, collision in that order. */
  lemma ForwardRegistration(w: AWorld, tiles: seq<Rect>)
    requires w.systems == []
    ensures AddSys(AddSys(AddSys(w, InputSys), MovementSys), CollisionSys(tiles)).systems == DemoSchedule(tiles)
  {
    RegisteredThree(w, InputSys, MovementSys, CollisionSys(tiles));
    E.SortedThree(AddSys(AddSys(AddSys(w, InputSys), MovementSys), CollisionSys(tiles)).systems,
                  E.Entry(InputSys, 10), E.Entry(MovementSys, 20), E.Entry(CollisionSys(tiles), 30));
  }

  /** Registering collision, movement, input in that order. */
  lemma ReverseRegistration(w: AWorld, tiles: seq<Rect>)
    requires w.systems == []
    ensures AddSys(AddSys(AddSys(w, CollisionSys(tiles)), MovementSys), InputSys).systems == DemoSchedule(tiles)
  {
    RegisteredThree(w, CollisionSys(tiles), MovementSys, InputSys);
    E.SortedThree(AddSys(AddSys(AddSys(w, CollisionSys(tiles)), MovementSys), InputSys).systems,
                  E.Entry(InputSys, 10), E.Entry(MovementSys, 20), E.Entry(CollisionSys(tiles), 30));
  }

  /** Three registrations on an empty schedule leave it sorted and holding
      exactly the three entries. */
  lemma RegisteredThree(w: AWorld, s1: Sys, s2: Sys, s3: Sys)
    requires w.systems == []
    ensures var r := AddSys(AddSys(AddSys(w, s1), s2), s3).systems;
      && E.Sorted(r) && |r| == 3
      && E.Entry(s1, Priority(s1)) in r && E.Entry(s2, Priority(s2)) in r && E.Entry(s3, Priority(s3)) in r
  {
    var w1 := AddSys(w, s1);
    var w2 := AddSys(w1, s2);
    AddSysAdds(w, s1);
    AddSysAdds(w1, s2);
    AddSysAdds(w2, s3);
    var r := AddSys(w2, s3).systems;
    MultisetOfThree(r, E.Entry(s1, Priority(s1)), E.Entry(s2, Priority(s2)), E.Entry(s3, Priority(s3)));
  }

  /** A sequence whose multiset is three singletons added to the empty one
      has length three and holds each of them. */
  lemma MultisetOfThree<T>(r: seq<T>, a: T, b: T, c: T)
    requires multiset(r) == multiset([]) + multiset{a} + multiset{b} + multiset{c}
    ensures |r| == 3 && a in r && b in r && c in r
  {
    assert |r| == |multiset(r)|;
    assert a in multiset(r) && b in multiset(r) && c in multiset(r);
  }

  /** What one registration adds to the schedule. */
  lemma AddSysAdds(w: AWorld, s: Sys)
    ensures multiset(AddSys(w, s).systems) == multiset(w.systems) + multiset{E.Entry(s, Priority(s))}
  {
  }

  /** The first registered system is the whole schedule. */
  lemma RegisterFirst(w: AWorld, s: Sys)
    requires w.systems == []
    ensures AddSys(w, s).systems == [E.Entry(s, Priority(s))]
  {
    AddSysInserts(w, s);
    E.InsertIntoEmpty(E.Entry(s, Priority(s)));
  }

  /** A system of priority at least the last scheduled one's runs last. */
  lemma RegisterLast(w: AWorld, s: Sys)
    requires E.Sorted(w.systems) && |w.systems| > 0 && w.systems[|w.systems| - 1].priority <= Priority(s)
    ensures AddSys(w, s).systems == w.systems + [E.Entry(s, Priority(s))]
  {
    AddSysInserts(w, s);
    E.InsertAfterLast(w.systems, E.Entry(s, Priority(s)));
  }

  /** A system of lower priority than every scheduled one runs first. */
  lemma RegisterFront(w: AWorld, s: Sys)
    requires E.Sorted(w.systems)
    requires forall k :: 0 <= k < |w.systems| ==> Priority(s) < w.systems[k].priority
    ensures AddSys(w, s).systems == [E.Entry(s, Priority(s))] + w.systems
  {
    AddSysInserts(w, s);
    E.InsertBelowAll(w.systems, E.Entry(s, Priority(s)));
  }

  /** Priorities, not registration order, decide the schedule: registering
      the three systems the other way round gives the same list. */
  lemma RegistrationOrderIrrelevant(w: AWorld, tiles: seq<Rect>)
    requires w.systems == []
    ensures AddSys(AddSys(AddSys(w, CollisionSys(tiles)), MovementSys), InputSys).systems
         == AddSys(AddSys(AddSys(w, InputSys), MovementSys), CollisionSys(tiles)).systems
  {
    ForwardRegistration(w, tiles);
    ReverseRegistration(w, tiles);
  }

  /** On a sorted list, registering a system is an insertion by its
      priority. */
  lemma AddSysInserts(w: AWorld, s: Sys)
    requires E.Sorted(w.systems)
    ensures AddSys(w, s).systems == E.Insert(w.systems, E.Entry(s, Priority(s)))
  {
    E.AddSystemInserts(w, s, Priority(s), 0);
  }

  /** With the demo's three systems registered, one `world.update(dt)` is
      input, then movement, then collision against the platforms. */
  lemma {:induction false} FrameOrder(w: AWorld, tiles: seq<Rect>, inp: KI.Input, dt: real)
    requires w.systems == [E.Entry(InputSys, 10), E.Entry(MovementSys, 20), E.Entry(CollisionSys(tiles), 30)]
    ensures Frame(w, inp, dt) == CollisionUpdate(MovementUpdate(InputUpdate(w, inp), dt), tiles, dt)
  {
    var run := (s: Sys, st: AWorld) => RunSystem(s, st, inp, dt);
    var xs := w.systems;
    assert xs[..2] == [E.Entry(InputSys, 10), E.Entry(MovementSys, 20)];
    assert xs[..2][..1] == [E.Entry(InputSys, 10)];
    assert xs[..2][..1][..0] == [];
    assert E.RunAll(xs[..2][..1], run, w) == InputUpdate(w, inp);
    assert E.RunAll(xs[..2], run, w) == MovementUpdate(InputUpdate(w, inp), dt);
  }

  /** One pass of the demo loop: poll the keyboard, clamp the frame time,
      update the world. */
  function Tick(d: Demo, inp: KI.Input, keys: set<int>, elapsed: real): (r: (Demo, KI.Input))
    ensures r.1 == KI.Poll(inp, keys)
    ensures r.0.player == d.player && r.0.platforms == d.platforms && r.0.world.systems == d.world.systems
  {
    var inp' := KI.Poll(inp, keys);
    var w := Frame(d.world, inp', ClampDt(elapsed));
    FrameKeepsSystems(d.world, inp', ClampDt(elapsed));
    (d.(world := w), inp')
  }

  lemma FrameKeepsSystems(w: AWorld, inp: KI.Input, dt: real)
    ensures Frame(w, inp, dt).systems == w.systems
  {
    RunAllKeepsSystems(w.systems, inp, dt, w);
  }

  lemma {:induction false} RunAllKeepsSystems(xs: seq<E.Entry<Sys>>, inp: KI.Input, dt: real, w: AWorld)
    ensures E.RunAll(xs, (s: Sys, st: AWorld) => RunSystem(s, st, inp, dt), w).systems == w.systems
  {
    if |xs| > 0 {
      RunAllKeepsSystems(xs[..|xs| - 1], inp, dt, w);
    }
  }

  /** Every tick of the demo runs input, movement and collision, in that
      order, with a time step of at most 1/30 s. */
  lemma TickIsInputMoveCollide(grid: seq<string>, d: Demo, inp: KI.Input, keys: set<int>, elapsed: real)
    requires d.world.systems == Setup(grid).world.systems && d.platforms == Setup(grid).platforms
    ensures var dt := ClampDt(elapsed);
            var inp' := KI.Poll(inp, keys);
            Tick(d, inp, keys, elapsed).0.world
              == CollisionUpdate(MovementUpdate(InputUpdate(d.world, inp'), dt), d.platforms, dt)
  {
    FrameOrder(d.world, d.platforms, KI.Poll(inp, keys), ClampDt(elapsed));
  }
}

=== FILE: character.dfy ===
/** The `Character` convenience wrapper (aether/platformer/character.py):
    one entity in a store, created with the full platformer component
    set. */
module Character {
  import opened Wrappers
  import opened AetherPhysics
  import opened AetherComponents
  import opened AetherStore
  import E = Ecs

  datatype Character = Character(world: AWorld, entity: nat)

  /** `Character(world, x, y, w, h, params)`: allocate one entity and
      attach a transform at (x, y), resting kinematics, a `w`x`h` collider,
      an idle controller, a fresh jump state, the given parameters (the
      defaults when none are given) and the player tag. Every other
      entity's components are untouched. */
  function NewCharacter(w: AWorld, x: real, y: real, wd: real := 32.0, ht: real := 48.0,
                        params: Option<Params> := None): (ch: Character)
    ensures ch.entity == w.nextId && ch.world.nextId == w.nextId + 1 && ch.world.systems == w.systems
    ensures E.Get(ch.world, ch.entity, TransformK) == Some(TransformC(Transform(x, y)))
    ensures E.Get(ch.world, ch.entity, KinematicsK) == Some(KinematicsC(NewKinematics()))
    ensures E.Get(ch.world, ch.entity, ColliderK) == Some(ColliderC(NewCollider(wd, ht)))
    ensures E.Get(ch.world, ch.entity, ControllerK) == Some(ControllerC(NewController()))
    ensures E.Get(ch.world, ch.entity, JumpStateK) == Some(JumpStateC(NewJumpState()))
    ensures E.Get(ch.world, ch.entity, ParamsK) == Some(ParamsC(params.GetOr(DefaultParams())))
    ensures E.Get(ch.world, ch.entity, PlayerTagK) == Some(PlayerTagC)
    ensures forall e, k :: e != ch.entity ==> E.Get(ch.world, e, k) == E.Get(w, e, k)
  {
    var (w0, id) := E.Create(w);
    var w1 := AddComp(w0, id, TransformC(NewTransform(x, y)));
    var w2 := AddComp(w1, id, KinematicsC(NewKinematics()));
    var w3 := AddComp(w2, id, ColliderC(NewCollider(wd, ht)));
    var w4 := AddComp(w3, id, ControllerC(NewController()));
    var w5 := AddComp(w4, id, JumpStateC(NewJumpState()));
    var w6 := AddComp(w5, id, ParamsC(params.GetOr(DefaultParams())));
    var w7 := AddComp(w6, id, PlayerTagC);
    Character(w7, id)
  }

  /** The character's entity carries everything the movement and the
      collision systems query for. */
  lemma NewCharacterIsQueried(w: AWorld, x: real, y: real, wd: real, ht: real, params: Option<Params>)
    ensures var ch := NewCharacter(w, x, y, wd, ht, params);
            && ch.entity in E.Common(ch.world, [TransformK, KinematicsK, ControllerK, ParamsK, JumpStateK])
            && ch.entity in E.Common(ch.world, [TransformK, KinematicsK, ColliderK, JumpStateK])
  {
    var ch := NewCharacter(w, x, y, wd, ht, params);
    var cw, e := ch.world, ch.entity;
    assert E.Has(cw, e, TransformK) && E.Has(cw, e, KinematicsK) && E.Has(cw, e, ColliderK);
    assert E.Has(cw, e, ControllerK) && E.Has(cw, e, ParamsK) && E.Has(cw, e, JumpStateK);
    PlatformerQueries(cw, e);
  }

  /** An entity holding the six platformer components is in both the
      movement query and the collision query. */
  lemma PlatformerQueries(w: AWorld, e: nat)
    requires E.Has(w, e, TransformK) && E.Has(w, e, KinematicsK) && E.Has(w, e, ColliderK)
    requires E.Has(w, e, ControllerK) && E.Has(w, e, ParamsK) && E.Has(w, e, JumpStateK)
    ensures e in E.Common(w, [TransformK, KinematicsK, ControllerK, ParamsK, JumpStateK])
    ensures e in E.Common(w, [TransformK, KinematicsK, ColliderK, JumpStateK])
  {
    HasAllInCommon(w, e, [TransformK, KinematicsK, ControllerK, ParamsK, JumpStateK]);
    HasAllInCommon(w, e, [TransformK, KinematicsK, ColliderK, JumpStateK]);
  }

  lemma HasAllInCommon(w: AWorld, e: nat, ks: seq<Kind>)
    requires |ks| > 0 && forall k :: k in ks ==> E.Has(w, e, k)
    ensures e in E.Common(w, ks)
  {
    assert forall i :: 0 <= i < |ks| ==> ks[i] in ks;
  }

  /** The store stays well typed. */
  lemma NewCharacterWellTyped(w: AWorld, x: real, y: real, wd: real, ht: real, params: Option<Params>)
    requires WellTyped(w)
    ensures WellTyped(NewCharacter(w, x, y, wd, ht, params).world)
  {
    var (w0, id) := E.Create(w);
    var cs := [TransformC(NewTransform(x, y)), KinematicsC(NewKinematics()),
               ColliderC(NewCollider(wd, ht)), ControllerC(NewController()),
               JumpStateC(NewJumpState()), ParamsC(params.GetOr(DefaultParams())), PlayerTagC];
    var w1 := AddComp(w0, id, cs[0]);
    AddCompWellTyped(w0, id, cs[0]);
    var w2 := AddComp(w1, id, cs[1]);
    AddCompWellTyped(w1, id, cs[1]);
    var w3 := AddComp(w2, id, cs[2]);
    AddCompWellTyped(w2, id, cs[2]);
    var w4 := AddComp(w3, id, cs[3]);
    AddCompWellTyped(w3, id, cs[3]);
    var w5 := AddComp(w4, id, cs[4]);
    AddCompWellTyped(w4, id, cs[4]);
    var w6 := AddComp(w5, id, cs[5]);
    AddCompWellTyped(w5, id, cs[5]);
    AddCompWellTyped(w6, id, cs[6]);
  }

  /** `add`: attach to the character's own entity and hand back the same
      character. */
  function AddTo(ch: Character, c: Comp): (r: Character)
    ensures r.entity == ch.entity
    ensures E.Get(r.world, r.entity, KindOf(c)) == Some(c)
    ensures forall e, k :: (e != ch.entity || k != KindOf(c)) ==> E.Get(r.world, e, k) == E.Get(ch.world, e, k)
  {
    ch.(world := AddComp(ch.world, ch.entity, c))
  }

  /** `get`: the store's lookup for the character's entity. */
  function GetFrom(ch: Character, k: Kind): (r: Option<Comp>)
    ensures r == E.Get(ch.world, ch.entity, k)
  {
    E.Get(ch.world, ch.entity, k)
  }

  /** In a fresh store the character is entity 1. */
  lemma FirstCharacterIsEntityOne(x: real, y: real)
    ensures NewCharacter(E.NewWorld(), x, y).entity == 1
  {
  }
}

=== FILE: ecs_world.dfy ===
/** The entity-component store of the `aether` engine (aether/ecs/world.py):
    entity ids, one component per (kind, entity), the intersection query,
    and the priority-ordered system list. Component kinds `K`, component
    values `C` and systems `S` are type parameters; the Python class of a
    component is its kind. */
module Ecs {
  import opened Wrappers

  /** `System.priority` when a system does not override it. */
  const DEFAULT_PRIORITY: int := 0

  /** A registered system together with its priority. */
  datatype Entry<S> = Entry(sys: S, priority: int)

  /** `components` maps a kind to its store, entity id to component. */
  datatype World<K(==), C, S> = World(nextId: nat, components: map<K, map<nat, C>>, systems: seq<Entry<S>>)

  function NewWorld<K(==), C, S>(): (w: World<K, C, S>)
    ensures w.nextId == 1 && w.components == map[] && w.systems == []
  {
    World(1, map[], [])
  }

  // ---------------------------------------------------------------------
  // Entities and components
  // ---------------------------------------------------------------------

  /** `create`: hand out the next id and advance the counter; nothing else
      changes. */
  function Create<K(==), C, S>(w: World<K, C, S>): (r: (World<K, C, S>, nat))
    ensures r.1 == w.nextId && r.0.nextId == r.1 + 1
    ensures r.0.components == w.components && r.0.systems == w.systems
  {
    (w.(nextId := w.nextId + 1), w.nextId)
  }

  /** `n` calls of `create` in a row, with the ids they return. */
  function CreateMany<K(==), C, S>(w: World<K, C, S>, n: nat): (r: (World<K, C, S>, seq<nat>))
    ensures |r.1| == n && r.0.nextId == w.nextId + n
    ensures forall i :: 0 <= i < n ==> r.1[i] == w.nextId + i
    ensures r.0.components == w.components && r.0.systems == w.systems
  {
    if n == 0 then (w, [])
    else
      var (w1, ids) := CreateMany(w, n - 1);
      var (w2, id) := Create(w1);
      (w2, ids + [id])
  }

  /** From a fresh world the ids are 1, 2, 3, ...: strictly increasing, so
      no id is handed out twice. */
  lemma FreshIdsCountFromOne<K, C, S>(n: nat)
    ensures var ids := CreateMany(NewWorld<K, C, S>(), n).1;
            && (forall i :: 0 <= i < n ==> ids[i] == i + 1)
            && (forall i, j :: 0 <= i < j < n ==> ids[i] < ids[j])
  {
  }

  /** `get`: the component of that kind, or None. */
  function Get<K(==), C, S>(w: World<K, C, S>, e: nat, k: K): (r: Option<C>)
    ensures r.Some? <==> (k in w.components && e in w.components[k])
    ensures r.Some? ==> r.value == w.components[k][e]
  {
    if k in w.components && e in w.components[k] then Some(w.components[k][e]) else None
  }

  /** `add`: store `c` under its kind `k`, replacing any component of that
      kind the entity already had. */
  function Add<K(==), C, S>(w: World<K, C, S>, e: nat, k: K, c: C): (r: World<K, C, S>)
    ensures r.nextId == w.nextId && r.systems == w.systems
  {
    var store := if k in w.components then w.components[k] else map[];
    w.(components := w.components[k := store[e := c]])
  }

  /** Reading back: the added component is there, every other (kind,
      entity) slot reads as before. */
  lemma GetAfterAdd<K, C, S>(w: World<K, C, S>, e: nat, k: K, c: C, e': nat, k': K)
    ensures Get(Add(w, e, k, c), e', k') == if e' == e && k' == k then Some(c) else Get(w, e', k')
  {
  }

  /** Adding twice under the same kind keeps only the second component. */
  lemma AddReplaces<K, C, S>(w: World<K, C, S>, e: nat, k: K, c1: C, c2: C)
    ensures Add(Add(w, e, k, c1), e, k, c2) == Add(w, e, k, c2)
  {
    var store := if k in w.components then w.components[k] else map[];
    assert store[e := c1][e := c2] == store[e := c2];
    assert w.components[k := store[e := c1]][k := store[e := c2]] == w.components[k := store[e := c2]];
  }

  // ---------------------------------------------------------------------
  // Query
  // ---------------------------------------------------------------------

  predicate Has<K(==), C, S>(w: World<K, C, S>, e: nat, k: K) {
    k in w.components && e in w.components[k]
  }

  /** The entity ids stored under kind `k` (an absent store is empty). */
  function Keys<K(==), C, S>(w: World<K, C, S>, k: K): (r: set<nat>)
    ensures forall e :: e in r <==> Has(w, e, k)
  {
    if k in w.components then w.components[k].Keys else {}
  }

  /** The key set of the first store, intersected with each later store in
      turn. */
  function Common<K(==), C, S>(w: World<K, C, S>, ks: seq<K>): (r: set<nat>)
    requires |ks| > 0
    ensures forall e :: e in r <==> forall i :: 0 <= i < |ks| ==> Has(w, e, ks[i])
  {
    if |ks| == 1 then Keys(w, ks[0])
    else
      var r := Common(w, ks[..|ks| - 1]) * Keys(w, ks[|ks| - 1]);
      assert forall e :: e in r <==> forall i :: 0 <= i < |ks| ==> Has(w, e, ks[i]) by {
        forall e ensures e in r <==> forall i :: 0 <= i < |ks| ==> Has(w, e, ks[i]) {
          var front := ks[..|ks| - 1];
          if forall i :: 0 <= i < |ks| ==> Has(w, e, ks[i]) {
            assert forall i :: 0 <= i < |front| ==> Has(w, e, front[i]);
          }
        }
      }
      r
  }

  /** The components of `e` for each requested kind, in request order. */
  function Row<K(==), C, S>(w: World<K, C, S>, e: nat, ks: seq<K>): (cs: seq<C>)
    requires forall i :: 0 <= i < |ks| ==> Has(w, e, ks[i])
    ensures |cs| == |ks| && forall i :: 0 <= i < |ks| ==> Get(w, e, ks[i]) == Some(cs[i])
  {
    if |ks| == 0 then []
    else
      var front := ks[..|ks| - 1];
      assert forall i :: 0 <= i < |front| ==> Has(w, e, front[i]);
      assert Has(w, e, ks[|ks| - 1]);
      Row(w, e, front) + [w.components[ks[|ks| - 1]][e]]
  }

  /** `query(*kinds)` as the set of yielded tuples: no kinds yield nothing;
      otherwise exactly the entities that have every requested kind, each
      with its components in request order. */
  function Query<K(==), C(==,!new), S>(w: World<K, C, S>, ks: seq<K>): (r: set<(nat, seq<C>)>)
    ensures |ks| == 0 ==> r == {}
    ensures forall e, cs :: (e, cs) in r ==>
              && (forall i :: 0 <= i < |ks| ==> Has(w, e, ks[i]))
              && |cs| == |ks| && forall i :: 0 <= i < |ks| ==> Get(w, e, ks[i]) == Some(cs[i])
    ensures |ks| > 0 ==> forall e: nat :: (forall i :: 0 <= i < |ks| ==> Has(w, e, ks[i])) ==> (e, Row(w, e, ks)) in r
  {
    if |ks| == 0 then {}
    else set e | e in Common(w, ks) :: (e, Row(w, e, ks))
  }

  /** Each entity is yielded at most once. */
  lemma QueryOncePerEntity<K, C(!new), S>(w: World<K, C, S>, ks: seq<K>, e: nat, cs1: seq<C>, cs2: seq<C>)
    requires (e, cs1) in Query(w, ks) && (e, cs2) in Query(w, ks)
    ensures cs1 == cs2
  {
  }

  // ---------------------------------------------------------------------
  // Systems
  // ---------------------------------------------------------------------

  /** Priorities never decrease along the list. */
  predicate Sorted<S>(xs: seq<Entry<S>>) {
    forall i, j :: 0 <= i < j < |xs| ==> xs[i].priority <= xs[j].priority
  }

  /** The entries of priority `p`, in list order. */
  function WithPriority<S>(xs: seq<Entry<S>>, p: int): (r: seq<Entry<S>>)
    ensures |r| <= |xs|
    ensures forall i :: 0 <= i < |r| ==> r[i].priority == p
  {
    if |xs| == 0 then []
    else WithPriority(xs[..|xs| - 1], p) + (if xs[|xs| - 1].priority == p then [xs[|xs| - 1]] else [])
  }

  lemma {:induction false} WithPriorityAppend<S>(xs: seq<Entry<S>>, ys: seq<Entry<S>>, p: int)
    ensures WithPriority(xs + ys, p) == WithPriority(xs, p) + WithPriority(ys, p)
    decreases |ys|
  {
    if |ys| == 0 {
      assert xs + ys == xs;
    } else {
      var n := |ys| - 1;
      assert (xs + ys)[..|xs + ys| - 1] == xs + ys[..n];
      WithPriorityAppend(xs, ys[..n], p);
    }
  }

  /** Insert `x` into a sorted list after every entry whose priority is at
      most its own. */
  function Insert<S>(xs: seq<Entry<S>>, x: Entry<S>): (r: seq<Entry<S>>)
    requires Sorted(xs)
    ensures Sorted(r) && |r| == |xs| + 1
    ensures multiset(r) == multiset(xs) + multiset{x}
  {
    if |xs| == 0 then [x]
    else if xs[|xs| - 1].priority <= x.priority then xs + [x]
    else
      var front := xs[..|xs| - 1];
      var last := xs[|xs| - 1];
      assert xs == front + [last];
      var r0 := Insert(front, x);
      BoundedByLast(xs, r0, x);
      var r := r0 + [last];
      assert multiset(r) == multiset(front) + multiset{x} + multiset{last};
      r
  }

  /** Every entry of a permutation of a sorted list's front plus a
      lower-priority entry has priority at most the list's last. */
  lemma BoundedByLast<S>(xs: seq<Entry<S>>, r0: seq<Entry<S>>, x: Entry<S>)
    requires Sorted(xs) && |xs| > 0 && x.priority < xs[|xs| - 1].priority
    requires multiset(r0) == multiset(xs[..|xs| - 1]) + multiset{x}
    ensures forall i :: 0 <= i < |r0| ==> r0[i].priority <= xs[|xs| - 1].priority
  {
    var front := xs[..|xs| - 1];
    forall i | 0 <= i < |r0| ensures r0[i].priority <= xs[|xs| - 1].priority {
      assert r0[i] in multiset(r0);
      if r0[i] != x {
        assert r0[i] in multiset(front);
        var j :| 0 <= j < |front| && front[j] == r0[i];
        assert xs[j] == front[j];
      }
    }
  }

  lemma InsertIntoEmpty<S>(x: Entry<S>)
    ensures Insert([], x) == [x]
  {
  }

  /** An entry of priority at least the last one's goes last. */
  lemma InsertAfterLast<S>(xs: seq<Entry<S>>, x: Entry<S>)
    requires Sorted(xs) && |xs| > 0 && xs[|xs| - 1].priority <= x.priority
    ensures Insert(xs, x) == xs + [x]
  {
  }

  /** Three entries of distinct priorities have exactly one sorted
      arrangement of length three. */
  lemma SortedThree<S>(r: seq<Entry<S>>, a: Entry<S>, b: Entry<S>, c: Entry<S>)
    requires Sorted(r) && |r| == 3 && a in r && b in r && c in r
    requires a.priority < b.priority < c.priority
    ensures r == [a, b, c]
  {
    assert r[0] == a;
    assert r[2] == c;
  }

  /** An entry of lower priority than every scheduled entry runs first. */
  lemma {:induction false} InsertBelowAll<S>(xs: seq<Entry<S>>, x: Entry<S>)
    requires Sorted(xs)
    requires forall i :: 0 <= i < |xs| ==> x.priority < xs[i].priority
    ensures Insert(xs, x) == [x] + xs
  {
    if |xs| > 0 {
      var front := xs[..|xs| - 1];
      InsertBelowAll(front, x);
      assert [x] + front + [xs[|xs| - 1]] == [x] + xs;
    }
  }

  /** Inserting below the last entry keeps the last entry last. */
  lemma InsertBehindLast<S>(xs: seq<Entry<S>>, x: Entry<S>)
    requires Sorted(xs) && |xs| > 0 && x.priority < xs[|xs| - 1].priority
    ensures Insert(xs, x) == Insert(xs[..|xs| - 1], x) + [xs[|xs| - 1]]
  {
  }

  /** Insertion keeps the relative order of entries with equal priority,
      the new one going last among its equals. */
  lemma {:induction false} InsertStable<S>(xs: seq<Entry<S>>, x: Entry<S>, p: int)
    requires Sorted(xs)
    ensures WithPriority(Insert(xs, x), p) == WithPriority(xs + [x], p)
  {
    if |xs| == 0 {
    } else if xs[|xs| - 1].priority <= x.priority {
    } else {
      var front := xs[..|xs| - 1];
      var last := xs[|xs| - 1];
      assert xs == front + [last];
      InsertBehindLast(xs, x);
      InsertStable(front, x, p);
      SwapLastTwo(Insert(front, x), front, last, x, p);
    }
  }

  /** When a sequence agrees with `front + [x]` on one priority, appending
      an entry of a different priority than `x` agrees with putting that
      entry before `x`. */
  lemma SwapLastTwo<S>(ys: seq<Entry<S>>, front: seq<Entry<S>>, last: Entry<S>, x: Entry<S>, p: int)
    requires x.priority != last.priority
    requires WithPriority(ys, p) == WithPriority(front + [x], p)
    ensures WithPriority(ys + [last], p) == WithPriority(front + [last] + [x], p)
  {
    var wx := WithPriority([x], p);
    var wl := WithPriority([last], p);
    assert wx == [] || wl == [] by {
      assert wx == (if x.priority == p then [x] else []);
      assert wl == (if last.priority == p then [last] else []);
    }
    calc {
      WithPriority(ys + [last], p);
      { WithPriorityAppend(ys, [last], p); }
      WithPriority(ys, p) + wl;
      { WithPriorityAppend(front, [x], p); }
      WithPriority(front, p) + wx + wl;
      WithPriority(front, p) + wl + wx;
      { WithPriorityAppend(front, [last], p); }
      WithPriority(front + [last], p) + wx;
      { WithPriorityAppend(front + [last], [x], p); }
      WithPriority(front + [last] + [x], p);
    }
  }

  /** Python's `list.sort(key=priority)`: a stable sort, here as insertion
      sort. */
  function StableSort<S>(xs: seq<Entry<S>>): (r: seq<Entry<S>>)
    ensures Sorted(r) && |r| == |xs|
    ensures multiset(r) == multiset(xs)
  {
    if |xs| == 0 then []
    else
      var front := xs[..|xs| - 1];
      assert xs == front + [xs[|xs| - 1]];
      Insert(StableSort(front), xs[|xs| - 1])
  }

  /** Stability: for every priority, the entries of that priority keep
      their input order. */
  lemma {:induction false} StableSortStable<S>(xs: seq<Entry<S>>, p: int)
    ensures WithPriority(StableSort(xs), p) == WithPriority(xs, p)
  {
    if |xs| > 0 {
      var front := xs[..|xs| - 1];
      var x := xs[|xs| - 1];
      assert xs == front + [x];
      StableSortStable(front, p);
      InsertStable(StableSort(front), x, p);
      WithPriorityAppend(StableSort(front), [x], p);
      WithPriorityAppend(front, [x], p);
    }
  }

  /** Sorting an already sorted list changes nothing. */
  lemma {:induction false} StableSortSorted<S>(xs: seq<Entry<S>>)
    requires Sorted(xs)
    ensures StableSort(xs) == xs
  {
    if |xs| > 0 {
      var front := xs[..|xs| - 1];
      assert Sorted(front);
      StableSortSorted(front);
    }
  }

  /** `add_system`: append, then stable-sort by priority. */
  function AddSystem<K(==), C, S>(w: World<K, C, S>, s: S, priority: int): (r: World<K, C, S>)
    ensures Sorted(r.systems)
    ensures multiset(r.systems) == multiset(w.systems) + multiset{Entry(s, priority)}
    ensures r.nextId == w.nextId && r.components == w.components
  {
    w.(systems := StableSort(w.systems + [Entry(s, priority)]))
  }

  /** On a sorted list, `add_system` places the new system after every
      system of lower or equal priority, keeping the order of equals. */
  lemma AddSystemInserts<K, C, S>(w: World<K, C, S>, s: S, priority: int, p: int)
    requires Sorted(w.systems)
    ensures AddSystem(w, s, priority).systems == Insert(w.systems, Entry(s, priority))
    ensures WithPriority(AddSystem(w, s, priority).systems, p) == WithPriority(w.systems + [Entry(s, priority)], p)
  {
    var xs := w.systems + [Entry(s, priority)];
    assert xs[..|xs| - 1] == w.systems;
    StableSortSorted(w.systems);
    StableSortStable(xs, p);
  }

  /** `update`: run every system once, in list order, threading a state. */
  function RunAll<S, St>(xs: seq<Entry<S>>, run: (S, St) -> St, st: St): St {
    if |xs| == 0 then st else run(xs[|xs| - 1].sys, RunAll(xs[..|xs| - 1], run, st))
  }

  function Update<K(==), C, S, St>(w: World<K, C, S>, run: (S, St) -> St, st: St): St {
    RunAll(w.systems, run, st)
  }

  /** The systems in calling order. */
  function Schedule<S>(xs: seq<Entry<S>>): (r: seq<S>)
    ensures |r| == |xs| && forall i :: 0 <= i < |xs| ==> r[i] == xs[i].sys
  {
    seq(|xs|, i requires 0 <= i < |xs| => xs[i].sys)
  }

  /** `update` calls each registered system exactly once, in list order:
      a run that only logs the system it is given logs the schedule. */
  lemma {:induction false} UpdateRunsScheduleOnce<K, C, S>(w: World<K, C, S>)
    ensures Update(w, (s: S, log: seq<S>) => log + [s], []) == Schedule(w.systems)
  {
    RunAllLogs(w.systems);
  }

  lemma {:induction false} RunAllLogs<S>(xs: seq<Entry<S>>)
    ensures RunAll(xs, (s: S, log: seq<S>) => log + [s], []) == Schedule(xs)
  {
    if |xs| > 0 {
      RunAllLogs(xs[..|xs| - 1]);
    }
  }

  /** Running a list is running its prefix, then its suffix. */
  lemma {:induction false} RunAllAppend<S, St>(xs: seq<Entry<S>>, ys: seq<Entry<S>>, run: (S, St) -> St, st: St)
    ensures RunAll(xs + ys, run, st) == RunAll(ys, run, RunAll(xs, run, st))
    decreases |ys|
  {
    if |ys| == 0 {
      assert xs + ys == xs;
    } else {
      assert (xs + ys)[..|xs + ys| - 1] == xs + ys[..|ys| - 1];
      RunAllAppend(xs, ys[..|ys| - 1], run, st);
    }
  }
}

=== FILE: game_app.dfy ===
/** The game shell of app.py: key tracking from the event queue and the
    per-state transitions, driven by the state manager. Building a level
    is abstracted to a counter of levels built; the level's own update and
    the player and boss health tests are boolean parameters. */
module GameApp {
  import opened Wrappers
  import SM = StateManager

  const K_RETURN: int := 13
  const K_ESCAPE: int := 27

  datatype Event = Quit | KeyDown(key: int) | KeyUp(key: int) | OtherEvent

  /** `Game`: the state manager, whether a level exists and how many levels
      were built so far, the held keys and the keys pressed this frame. */
  datatype Game = Game(sm: SM.Manager, hasLevel: bool, levelsBuilt: nat,
                       held: set<int>, justPressed: set<int>)

  function NewGame(): (g: Game)
    ensures g.sm == SM.NewManager() && !g.hasLevel && g.levelsBuilt == 0
    ensures g.held == {} && g.justPressed == {}
  {
    Game(SM.NewManager(), false, 0, {}, {})
  }

  /** One KEYDOWN / KEYUP / other event: a key is just pressed only if it
      was not already held. */
  function KeyEvent(held: set<int>, just: set<int>, e: Event): (r: (set<int>, set<int>))
    requires !e.Quit?
    ensures e.KeyDown? ==> r.0 == held + {e.key}
    ensures e.KeyDown? ==> (e.key in r.1 <==> e.key in just || e.key !in held)
    ensures e.KeyUp? ==> r.0 == held - {e.key} && r.1 == just
    ensures e.OtherEvent? ==> r == (held, just)
    ensures forall k :: k in r.1 && k !in just ==> e == KeyDown(k) && k !in held
  {
    match e
    case KeyDown(k) => (held + {k}, if k !in held then just + {k} else just)
    case KeyUp(k) => (held - {k}, just)
    case OtherEvent => (held, just)
  }

  /** The event loop of `handle_events`: stops at the first QUIT. */
  function Events(held: set<int>, just: set<int>, es: seq<Event>): (r: (set<int>, set<int>, bool))
    ensures r.2 <==> Quit !in es
    ensures just <= r.1
    ensures forall k :: k in r.1 && k !in just ==> KeyDown(k) in es
    decreases |es|
  {
    if |es| == 0 then (held, just, true)
    else if es[0].Quit? then (held, just, false)
    else
      var (h, j) := KeyEvent(held, just, es[0]);
      var r := Events(h, j, es[1..]);
      assert forall k :: KeyDown(k) in es[1..] ==> KeyDown(k) in es;
      r
  }

  /** `handle_events()`: the just-pressed set is cleared first; the result
      is False exactly when a QUIT event was in the queue. */
  function HandleEvents(g: Game, es: seq<Event>): (r: (Game, bool))
    ensures r.1 <==> Quit !in es
    ensures r.0.sm == g.sm && r.0.hasLevel == g.hasLevel && r.0.levelsBuilt == g.levelsBuilt
    ensures forall k :: k in r.0.justPressed ==> KeyDown(k) in es
  {
    var (h, j, ok) := Events(g.held, {}, es);
    (g.(held := h, justPressed := j), ok)
  }

  /** A key held since the last frame and not released is never reported
      as just pressed. */
  lemma {:induction false} HeldKeyNotJustPressed(held: set<int>, just: set<int>, es: seq<Event>, k: int)
    requires k in held && k !in just && KeyUp(k) !in es
    ensures k !in Events(held, just, es).1
    decreases |es|
  {
    if |es| > 0 && !es[0].Quit? {
      var (h, j) := KeyEvent(held, just, es[0]);
      HeldKeyNotJustPressed(h, j, es[1..], k);
    }
  }

  /** A frame without events reports no key as just pressed. */
  lemma QuietFrameClearsPresses(g: Game)
    ensures HandleEvents(g, []).0.justPressed == {}
    ensures HandleEvents(g, []).0.held == g.held
    ensures HandleEvents(g, []).1
  {
  }

  /** A KEYDOWN of a key not held is a press, and the key is then held. */
  lemma FreshKeyDownIsPress(g: Game, k: int)
    requires k !in g.held
    ensures k in HandleEvents(g, [KeyDown(k)]).0.justPressed
    ensures k in HandleEvents(g, [KeyDown(k)]).0.held
  {
    var es := [KeyDown(k)];
    assert es[1..] == [];
    var none: set<int> := {};
    assert none + {k} == {k};
    assert KeyEvent(g.held, none, KeyDown(k)) == (g.held + {k}, {k});
    assert Events(g.held, none, es) == Events(g.held + {k}, {k}, []);
  }

  /** `change_state` on the game's manager. */
  function Goto(g: Game, s: string): (r: Game)
    ensures r.sm.current == s && r.sm.previous.Some? && r.sm.previous.value == g.sm.current
    ensures r.hasLevel == g.hasLevel && r.levelsBuilt == g.levelsBuilt
    ensures r.held == g.held && r.justPressed == g.justPressed
    ensures r.sm.data == g.sm.data
    ensures r == g.(sm := r.sm)
  {
    g.(sm := SM.ChangeState(g.sm, s))
  }

  /** A freshly built `Level`. */
  function BuildLevel(g: Game): (r: Game)
    ensures r.hasLevel && r.levelsBuilt == g.levelsBuilt + 1
    ensures r.sm == g.sm && r.held == g.held && r.justPressed == g.justPressed
  {
    g.(hasLevel := true, levelsBuilt := g.levelsBuilt + 1)
  }

  /** `update_menu`: ENTER starts playing a new level; ESC quits (after
      any ENTER change). */
  function UpdateMenu(g: Game): (r: (Game, bool))
    ensures r.1 <==> K_ESCAPE !in g.justPressed
    ensures K_RETURN in g.justPressed ==> r.0.sm.current == SM.PLAYING && r.0.hasLevel
    ensures K_RETURN !in g.justPressed ==> r.0 == g
  {
    var g1 := if K_RETURN in g.justPressed then BuildLevel(Goto(g, SM.PLAYING)) else g;
    (g1, K_ESCAPE !in g.justPressed)
  }

  /** `update_playing`: ESC pauses; then, when a level exists, a dead
      player means game over and a dead boss means victory. Each applicable
      change is made in that order, so the last one wins. */
  function UpdatePlaying(g: Game, playerDead: bool, bossDead: bool): (r: (Game, bool))
    ensures r.1
    ensures r.0.hasLevel == g.hasLevel && r.0.levelsBuilt == g.levelsBuilt
  {
    var g1 := if K_ESCAPE in g.justPressed then Goto(g, SM.PAUSED) else g;
    var g2 := if g.hasLevel && playerDead then Goto(g1, SM.GAME_OVER) else g1;
    var g3 := if g.hasLevel && bossDead then Goto(g2, SM.VICTORY) else g2;
    (g3, true)
  }

  /** `update_paused`: ESC resumes. */
  function UpdatePaused(g: Game): (r: (Game, bool))
    ensures r.1
    ensures K_ESCAPE in g.justPressed ==> r.0.sm.current == SM.PLAYING && r.0.sm.previous == Some(g.sm.current)
    ensures r.0.hasLevel == g.hasLevel && r.0.levelsBuilt == g.levelsBuilt
    ensures K_ESCAPE !in g.justPressed ==> r.0 == g
  {
    if K_ESCAPE in g.justPressed then
      (Goto(g, SM.PLAYING), true)
    else (g, true)
  }

  /** `update_game_over`: ENTER builds a new level and plays it; ESC quits. */
  function UpdateGameOver(g: Game): (r: (Game, bool))
    ensures r.1 <==> K_ESCAPE !in g.justPressed
    ensures K_RETURN in g.justPressed ==>
              r.0.sm.current == SM.PLAYING && r.0.hasLevel && r.0.levelsBuilt == g.levelsBuilt + 1
    ensures K_RETURN !in g.justPressed ==> r.0 == g
  {
    var g1 := if K_RETURN in g.justPressed then Goto(BuildLevel(g), SM.PLAYING) else g;
    (g1, K_ESCAPE !in g.justPressed)
  }

  /** `update_victory`: ENTER returns to the menu and drops the level; ESC
      quits. */
  function UpdateVictory(g: Game): (r: (Game, bool))
    ensures r.1 <==> K_ESCAPE !in g.justPressed
    ensures K_RETURN in g.justPressed ==> r.0.sm.current == SM.MENU && !r.0.hasLevel
    ensures K_RETURN !in g.justPressed ==> r.0 == g
  {
    var g1 := if K_RETURN in g.justPressed then Goto(g, SM.MENU).(hasLevel := false) else g;
    (g1, K_ESCAPE !in g.justPressed)
  }

  /** `update()`: dispatch on the current state; any other state is left
      alone and the game keeps running. */
  function Update(g: Game, playerDead: bool, bossDead: bool): (r: (Game, bool))
    ensures !r.1 <==> K_ESCAPE in g.justPressed && g.sm.current in {SM.MENU, SM.GAME_OVER, SM.VICTORY}
    ensures g.sm.current !in {SM.MENU, SM.PLAYING, SM.PAUSED, SM.GAME_OVER, SM.VICTORY} ==> r == (g, true)
  {
    var s := g.sm.current;
    if s == SM.MENU then UpdateMenu(g)
    else if s == SM.PLAYING then UpdatePlaying(g, playerDead, bossDead)
    else if s == SM.PAUSED then UpdatePaused(g)
    else if s == SM.GAME_OVER then UpdateGameOver(g)
    else if s == SM.VICTORY then UpdateVictory(g)
    else (g, true)
  }

  /** One pass of the main loop: events, then (if still running) update. */
  function Step(g: Game, es: seq<Event>, playerDead: bool, bossDead: bool): (r: (Game, bool))
    ensures Quit in es ==> !r.1
  {
    var (g1, ok) := HandleEvents(g, es);
    if !ok then (g1, false) else Update(g1, playerDead, bossDead)
  }

  /** The five states the shell drives, and a level exactly outside the
      menu. */
  predicate Valid(g: Game) {
    g.sm.current in {SM.MENU, SM.PLAYING, SM.PAUSED, SM.GAME_OVER, SM.VICTORY}
    && (g.hasLevel <==> g.sm.current != SM.MENU)
  }

  lemma NewGameValid()
    ensures Valid(NewGame())
  {
  }

  /** Every frame keeps the shell in its five states, with a level exactly
      when not in the menu. */
  lemma StepKeepsValid(g: Game, es: seq<Event>, playerDead: bool, bossDead: bool)
    requires Valid(g)
    ensures Valid(Step(g, es, playerDead, bossDead).0)
  {
    var (g1, ok) := HandleEvents(g, es);
    assert Valid(g1);
    if ok {
      var s := g1.sm.current;
      if s == SM.PLAYING {
        var g2 := UpdatePlaying(g1, playerDead, bossDead).0;
        assert g2.sm.current in {SM.PLAYING, SM.PAUSED, SM.GAME_OVER, SM.VICTORY};
      }
    }
  }

  /** In PLAYING the last applicable change wins: a dead boss beats a dead
      player, which beats ESC. */
  lemma PlayingLastChangeWins(g: Game, playerDead: bool, bossDead: bool)
    requires g.sm.current == SM.PLAYING && g.hasLevel
    ensures var s := Update(g, playerDead, bossDead).0.sm.current;
            s == (if bossDead then SM.VICTORY
                  else if playerDead then SM.GAME_OVER
                  else if K_ESCAPE in g.justPressed then SM.PAUSED
                  else SM.PLAYING)
  {
  }

  /** Pausing and resuming keep the same level. */
  lemma PauseResume(g: Game)
    requires g.sm.current == SM.PLAYING && g.hasLevel && g.justPressed == {K_ESCAPE}
    ensures var p := Update(g, false, false).0;
            p.sm.current == SM.PAUSED
            && Update(p, false, false).0.sm.current == SM.PLAYING
            && Update(p, false, false).0.levelsBuilt == g.levelsBuilt
  {
  }
}

=== FILE: geometry.dfy ===
/** Integer rectangles in screen coordinates (y grows downward), the strict
    overlap test of pygame's `Rect.colliderect`, and Python's `int(...)`
    truncation of a real toward zero. This is the only primitive the two
    controller pipelines share. */
module Geometry {

  /** A rectangle by its top-left corner and size, as pygame stores it. */
  datatype Rect = Rect(x: int, y: int, w: int, h: int) {
    function Left(): int { x }
    function Right(): int { x + w }
    function Top(): int { y }
    function Bottom(): int { y + h }
    function CenterX(): int { x + w / 2 }
    function CenterY(): int { y + h / 2 }
  }

  /** Assigning `rect.left = v`: moves the rectangle, keeps its size. */
  function SetLeft(r: Rect, v: int): (q: Rect)
    ensures q.Left() == v && q.y == r.y && q.w == r.w && q.h == r.h
  {
    r.(x := v)
  }

  /** Assigning `rect.right = v`. */
  function SetRight(r: Rect, v: int): (q: Rect)
    ensures q.Right() == v && q.y == r.y && q.w == r.w && q.h == r.h
  {
    r.(x := v - r.w)
  }

  /** Assigning `rect.top = v`. */
  function SetTop(r: Rect, v: int): (q: Rect)
    ensures q.Top() == v && q.x == r.x && q.w == r.w && q.h == r.h
  {
    r.(y := v)
  }

  /** Assigning `rect.bottom = v`. */
  function SetBottom(r: Rect, v: int): (q: Rect)
    ensures q.Bottom() == v && q.x == r.x && q.w == r.w && q.h == r.h
  {
    r.(y := v - r.h)
  }

  /** Strict interval overlap on both axes. Rectangles that only share an
      edge do not collide, and an empty rectangle collides with nothing. */
  predicate Collide(a: Rect, b: Rect) {
    && a.w > 0 && a.h > 0 && b.w > 0 && b.h > 0
    && a.Left() < b.Right() && b.Left() < a.Right()
    && a.Top() < b.Bottom() && b.Top() < a.Bottom()
  }

  /** `Rect.collidepoint`: the point lies in the half-open box. */
  predicate ContainsPoint(r: Rect, px: int, py: int) {
    r.x <= px < r.x + r.w && r.y <= py < r.y + r.h
  }

  lemma CollideSymmetric(a: Rect, b: Rect)
    ensures Collide(a, b) <==> Collide(b, a)
  {
  }

  /** Two rectangles that touch along a vertical or horizontal edge do not
      collide. */
  lemma EdgeContactIsNotCollision(a: Rect, b: Rect)
    requires a.Right() == b.Left() || b.Right() == a.Left()
          || a.Bottom() == b.Top() || b.Bottom() == a.Top()
    ensures !Collide(a, b)
  {
  }

  /** Python's `int(v)` for a float: truncation toward zero. */
  function Trunc(v: real): (n: int)
    ensures v >= 0.0 ==> n as real <= v < n as real + 1.0
    ensures v < 0.0 ==> n as real - 1.0 < v <= n as real
  {
    if v >= 0.0 then v.Floor else -((-v).Floor)
  }

  /** Truncation never increases magnitude and keeps the sign. */
  lemma TruncTowardZero(v: real)
    ensures 0.0 <= v ==> 0 <= Trunc(v)
    ensures v <= 0.0 ==> Trunc(v) <= 0
    ensures -1.0 < v < 1.0 ==> Trunc(v) == 0
    ensures (if Trunc(v) < 0 then -Trunc(v) else Trunc(v)) as real <= (if v < 0.0 then -v else v)
  {
  }

  /** Truncation is odd: `int(-v) == -int(v)`, unlike floor. */
  lemma TruncOdd(v: real)
    ensures Trunc(-v) == -Trunc(v)
  {
  }

  /** An integer-valued real truncates to itself. */
  lemma TruncOfInt(n: int)
    ensures Trunc(n as real) == n
  {
  }

  function MinR(a: real, b: real): real { if a <= b then a else b }
  function MaxR(a: real, b: real): real { if a >= b then a else b }
  function MinI(a: int, b: int): int { if a <= b then a else b }
  function MaxI(a: int, b: int): int { if a >= b then a else b }
  function AbsR(a: real): real { if a < 0.0 then -a else a }

  /** A fraction `a` in [0, 1] of `d` lies between 0 and `d`. */
  lemma ScaleBetween(d: real, a: real)
    requires 0.0 <= a <= 1.0
    ensures d >= 0.0 ==> 0.0 <= d * a <= d
    ensures d <= 0.0 ==> d <= d * a <= 0.0
  {
  }

  /** `v + gap * a`: from `v`, the fraction `a` of the way across `gap`.
      Both velocity updates (the legacy acceleration and the `aether`
      approach) blend this way; with `0 <= a <= 1` the result stays
      between `v` and `v + gap`. */
  function Blend(v: real, gap: real, a: real): (r: real)
    ensures 0.0 <= a <= 1.0 ==> MinR(v, v + gap) <= r <= MaxR(v, v + gap)
  {
    var z := gap * a;
    if 0.0 <= a <= 1.0 then
      ScaleBetween(gap, a);
      assert gap >= 0.0 ==> 0.0 <= z <= gap;
      assert gap <= 0.0 ==> gap <= z <= 0.0;
      v + z
    else v + z
  }

  /** A blend across no gap stays put, whatever the fraction. */
  lemma BlendNoGap(v: real, gap: real, a: real)
    requires gap == 0.0
    ensures Blend(v, gap, a) == v
  {
  }
}

=== FILE: grid.dfy ===
/** Text layouts (a list of equal or unequal length strings, one per row)
    read cell by cell in row-major order, as both grid parsers do with two
    nested `enumerate` loops. The order matters: it is the insertion order
    of the tiles, which decides which tile wins a collision. */
module Grid {
  import opened Wrappers

  /** The character at row `row`, column `col`. */
  datatype Cell = Cell(row: nat, col: nat, ch: char)

  /** Row-major order on cells. */
  predicate Before(a: Cell, b: Cell) {
    a.row < b.row || (a.row == b.row && a.col < b.col)
  }

  /** `s` lists its elements in strictly increasing order of `lt`. */
  predicate SortedBy<T(!new)>(s: seq<T>, lt: (T, T) -> bool) {
    forall i, j :: 0 <= i < j < |s| ==> lt(s[i], s[j])
  }

  predicate InGrid(grid: seq<string>, c: Cell) {
    c.row < |grid| && c.col < |grid[c.row]| && c.ch == grid[c.row][c.col]
  }

  function RowCells(row: string, r: nat): (cs: seq<Cell>)
    ensures |cs| == |row|
    ensures forall c :: 0 <= c < |row| ==> cs[c] == Cell(r, c, row[c])
  {
    seq(|row|, c requires 0 <= c < |row| => Cell(r, c, row[c]))
  }

  /** Every cell of the grid exactly once, in row-major order. */
  function GridCells(grid: seq<string>): (cs: seq<Cell>)
    ensures forall c :: c in cs <==> InGrid(grid, c)
    ensures SortedBy(cs, Before)
  {
    if |grid| == 0 then []
    else
      var n := |grid| - 1;
      var front := GridCells(grid[..n]);
      var last := RowCells(grid[n], n);
      assert forall c :: c in front ==> c.row < n;
      assert forall c :: InGrid(grid[..n], c) <==> InGrid(grid, c) && c.row < n;
      front + last
  }

  /** The results of `f` on the elements where it gives one, in order:
      what a loop that appends on a match builds. */
  function Collect<A, B(==)>(s: seq<A>, f: A -> Option<B>): (r: seq<B>)
    ensures |r| <= |s|
    ensures forall a :: a in s && f(a).Some? ==> f(a).value in r
    ensures forall b :: b in r ==> exists a :: a in s && f(a) == Some(b)
  {
    if |s| == 0 then []
    else
      var front := Collect(s[..|s| - 1], f);
      var last := s[|s| - 1];
      assert forall a :: a in s ==> a in s[..|s| - 1] || a == last;
      match f(last)
      case Some(b) => front + [b]
      case None => front
  }

  /** If `f` maps `lt`-ordered inputs to `lt2`-ordered outputs, collecting
      keeps the order. */
  lemma {:induction false} CollectSorted<A(!new), B(!new)>(
    s: seq<A>, f: A -> Option<B>, lt: (A, A) -> bool, lt2: (B, B) -> bool)
    requires SortedBy(s, lt)
    requires forall a, a' :: lt(a, a') && f(a).Some? && f(a').Some? ==> lt2(f(a).value, f(a').value)
    ensures SortedBy(Collect(s, f), lt2)
  {
    if |s| > 0 {
      var front := s[..|s| - 1];
      var last := s[|s| - 1];
      CollectSorted(front, f, lt, lt2);
      if f(last).Some? {
        var r := Collect(front, f);
        forall b | b in r
          ensures lt2(b, f(last).value)
        {
          var a :| a in front && f(a) == Some(b);
          var i :| 0 <= i < |front| && front[i] == a;
          assert s[i] == a;
        }
      }
    }
  }

  /** The last element on which `f` gives a result: what a loop that
      overwrites a variable on every match leaves behind. */
  function LastOf<A, B(==)>(s: seq<A>, f: A -> Option<B>): (r: Option<B>)
    ensures r.Some? <==> exists a :: a in s && f(a).Some?
    ensures r.Some? ==> exists i :: 0 <= i < |s| && f(s[i]) == r
                          && forall j :: i < j < |s| ==> f(s[j]).None?
  {
    if |s| == 0 then None
    else
      var last := s[|s| - 1];
      if f(last).Some? then f(last)
      else
        var front := s[..|s| - 1];
        var r := LastOf(front, f);
        assert forall a :: a in s ==> a in front || a == last;
        assert forall j :: 0 <= j < |front| ==> s[j] == front[j];
        r
  }
}

=== FILE: key_input.dfy ===
/** Key-state snapshots and edge detection (aether/core/input.py). A
    snapshot of the keyboard is the set of key codes held down; actions
    map to key codes. */
module KeyInput {

  const K_SPACE: int := 32
  const K_ESCAPE: int := 27
  const K_A: int := 97
  const K_D: int := 100

  /** The action-to-key mapping and the last two snapshots. */
  datatype Input = Input(mapping: map<string, int>, prev: set<int>, curr: set<int>)

  function DefaultMapping(): (m: map<string, int>)
    ensures m.Keys == {"left", "right", "jump", "quit"}
    ensures m["left"] == K_A && m["right"] == K_D && m["jump"] == K_SPACE && m["quit"] == K_ESCAPE
  {
    map["left" := K_A, "right" := K_D, "jump" := K_SPACE, "quit" := K_ESCAPE]
  }

  /** `Input(mapping)`: an empty or missing mapping means the default one;
      both snapshots start as the keyboard state at construction. */
  function NewInput(mapping: map<string, int>, keys: set<int>): (i: Input)
    ensures |mapping| == 0 ==> i.mapping == DefaultMapping()
    ensures |mapping| > 0 ==> i.mapping == mapping
    ensures i.prev == keys && i.curr == keys
  {
    Input(if |mapping| == 0 then DefaultMapping() else mapping, keys, keys)
  }

  /** `poll`: the current snapshot becomes the previous one. */
  function Poll(i: Input, keys: set<int>): (r: Input)
    ensures r.prev == i.curr && r.curr == keys && r.mapping == i.mapping
  {
    i.(prev := i.curr, curr := keys)
  }

  /** `is_down`: the action is mapped and its key is held now. */
  predicate IsDown(i: Input, action: string) {
    action in i.mapping && i.mapping[action] in i.curr
  }

  /** `was_pressed`: the action is mapped, its key is held now and was not
      at the previous poll. */
  predicate WasPressed(i: Input, action: string) {
    action in i.mapping && i.mapping[action] in i.curr && i.mapping[action] !in i.prev
  }

  /** A press is a held key. */
  lemma WasPressedIsDown(i: Input, action: string)
    ensures WasPressed(i, action) ==> IsDown(i, action)
  {
  }

  /** A press is a rising edge: the action is down in the current snapshot
      and was not down in the previous one. */
  lemma PressIsRisingEdge(i: Input, action: string)
    ensures WasPressed(i, action) <==> IsDown(i, action) && !IsDown(i.(curr := i.prev), action)
  {
  }

  /** Unmapped actions are never down and never pressed. */
  lemma UnmappedIsIdle(i: Input, action: string)
    requires action !in i.mapping
    ensures !IsDown(i, action) && !WasPressed(i, action)
  {
  }

  /** Before the first poll nothing counts as pressed. */
  lemma FreshInputHasNoPress(mapping: map<string, int>, keys: set<int>, action: string)
    ensures !WasPressed(NewInput(mapping, keys), action)
  {
  }

  /** After a poll, a press is a key that went down between the two
      snapshots. */
  lemma PressAfterPoll(i: Input, keys: set<int>, action: string)
    ensures WasPressed(Poll(i, keys), action)
            <==> action in i.mapping && i.mapping[action] in keys && i.mapping[action] !in i.curr
  {
  }

  /** Holding the same keys for a second poll reports no press: a press
      lasts one frame. */
  lemma HeldKeysPressOnce(i: Input, keys: set<int>, action: string)
    ensures !WasPressed(Poll(Poll(i, keys), keys), action)
    ensures IsDown(Poll(Poll(i, keys), keys), action) == IsDown(Poll(i, keys), action)
  {
  }
}

=== FILE: layered_world.dfy ===
/** The data-driven layered world (layered_world_demo.py): the one byte per
    tile layer codec, the default room map, the parallax wrap-around and
    the timed particle schedule. Files are byte sequences, and a missing
    file is `None`. */
module LayeredWorld {
  import opened Wrappers
  import opened Geometry
  import opened Lists

  const WIDTH: int := 800
  const HEIGHT: int := 600
  const TILE_SIZE: int := 40
  // The room is the screen in tiles: 800 / 40 by 600 / 40.
  const ROOM_TILES_X: nat := 20
  const ROOM_TILES_Y: nat := 15

  newtype byte = b: int | 0 <= b < 256

  // ---------------------------------------------------------------------
  // Tile layer codec

  /** A grid of `height` rows of `width` cells. */
  predicate Rectangular(m: seq<seq<int>>, width: nat, height: nat) {
    |m| == height && forall y :: 0 <= y < height ==> |m[y]| == width
  }

  predicate RowInByteRange(row: seq<int>) {
    forall i :: 0 <= i < |row| ==> 0 <= row[i] < 256
  }

  predicate InByteRange(m: seq<seq<int>>) {
    forall y :: 0 <= y < |m| ==> RowInByteRange(m[y])
  }

  function ToInts(bs: seq<byte>): (r: seq<int>)
    ensures |r| == |bs| && forall i :: 0 <= i < |bs| ==> r[i] == bs[i] as int
  {
    seq(|bs|, i requires 0 <= i < |bs| => bs[i] as int)
  }

  /** `struct.pack('B', tile_id)` for each tile of a row; an id outside
      0..255 is a `struct.error`. */
  function EncodeRow(row: seq<int>): (r: Option<seq<byte>>)
    ensures r.Some? <==> RowInByteRange(row)
    ensures r.Some? ==> ToInts(r.value) == row
    decreases |row|
  {
    if |row| == 0 then Some([])
    else if !(0 <= row[0] < 256) then None
    else
      match EncodeRow(row[1..])
      case None => None
      case Some(rest) =>
        assert row == [row[0]] + row[1..];
        Some([row[0] as byte] + rest)
  }

  /** `save_tile_layer`: every row's bytes in turn, so the file is the grid
      in row-major order. */
  function EncodeTiles(m: seq<seq<int>>): (r: Option<seq<byte>>)
    ensures r.Some? <==> InByteRange(m)
    decreases |m|
  {
    if |m| == 0 then Some([])
    else
      var a := EncodeRow(m[0]);
      var b := EncodeTiles(m[1..]);
      if a.Some? && b.Some? then Some(a.value + b.value)
      else
        assert !InByteRange(m) by {
          if a.Some? {
            var y :| 0 <= y < |m[1..]| && !RowInByteRange(m[1..][y]);
            assert m[1..][y] == m[y + 1];
          }
        }
        None
  }

  /** The byte count of `rows` rows of `width` cells, by rows. */
  function Area(width: nat, rows: nat): nat {
    if rows == 0 then 0 else width + Area(width, rows - 1)
  }

  lemma {:induction false} AreaIsProduct(width: nat, rows: nat)
    ensures Area(width, rows) == width * rows
  {
    if rows > 0 {
      AreaIsProduct(width, rows - 1);
      assert width * rows == width + width * (rows - 1);
    }
  }

  /** Cell `(y, x)` of a `width`-wide grid is byte `y * width + x` of its
      file. */
  function Offset(width: nat, y: nat, x: nat): nat {
    Area(width, y) + x
  }

  lemma {:induction false} OffsetBound(width: nat, height: nat, y: nat, x: nat)
    requires y < height && x < width
    ensures Offset(width, y, x) < Area(width, height)
    decreases height
  {
    if y < height - 1 {
      OffsetBound(width, height - 1, y, x);
    }
  }

  /** Cell `(y, x)` of a `width`-wide grid is the file's byte
      `Offset(width, y, x)`: the file is the grid in row-major order. */
  lemma {:induction false} EncodeLayout(m: seq<seq<int>>, width: nat, height: nat)
    requires Rectangular(m, width, height) && InByteRange(m)
    ensures |EncodeTiles(m).value| == Area(width, height)
    ensures forall y: nat, x: nat :: y < height && x < width ==>
              Offset(width, y, x) < Area(width, height) && EncodeTiles(m).value[Offset(width, y, x)] as int == m[y][x]
    decreases height
  {
    if height > 0 {
      var rest := m[1..];
      assert Rectangular(rest, width, height - 1) && InByteRange(rest) by {
        forall y | 0 <= y < height - 1 ensures |rest[y]| == width && RowInByteRange(rest[y]) {
          assert rest[y] == m[y + 1];
        }
      }
      EncodeLayout(rest, width, height - 1);
      var a := EncodeRow(m[0]).value;
      var b := EncodeTiles(rest).value;
      var e := EncodeTiles(m).value;
      assert e == a + b;
      assert m == [m[0]] + rest;
      forall y: nat, x: nat | y < height && x < width
        ensures Offset(width, y, x) < Area(width, height) && e[Offset(width, y, x)] as int == m[y][x]
      {
        CellOfRows(e, a, b, m[0], rest, width, y, x);
      }
    }
  }

  /** The layout step: a file that is one encoded row followed by the
      file of the remaining rows is the file of all rows. */
  lemma CellOfRows(e: seq<byte>, a: seq<byte>, b: seq<byte>, row: seq<int>, rest: seq<seq<int>>,
                   width: nat, y: nat, x: nat)
    requires e == a + b && ToInts(a) == row && |a| == width && |b| == Area(width, |rest|)
    requires Rectangular(rest, width, |rest|)
    requires forall y': nat, x': nat :: y' < |rest| && x' < width ==>
               Offset(width, y', x') < Area(width, |rest|) && b[Offset(width, y', x')] as int == rest[y'][x']
    requires y <= |rest| && x < width
    ensures Offset(width, y, x) < Area(width, |rest| + 1) && e[Offset(width, y, x)] as int == ([row] + rest)[y][x]
  {
    if y == 0 {
      assert Offset(width, y, x) == x;
      assert e[x] == a[x];
    } else {
      var o := Offset(width, y - 1, x);
      assert Offset(width, y, x) == width + o;
      assert e[width + o] == b[o];
    }
  }

  /** The row-by-row read of `load_tile_layer`: row `y` is the `width`
      bytes from `y * width` on. */
  function DecodeRows(data: seq<byte>, width: nat, height: nat): (r: seq<seq<int>>)
    requires Area(width, height) <= |data|
    ensures Rectangular(r, width, height)
    ensures forall y: nat, x: nat :: y < height && x < width ==>
              Offset(width, y, x) < |data| && r[y][x] == data[Offset(width, y, x)] as int
    decreases height
  {
    if height == 0 then []
    else
      var rest := DecodeRows(data[width..], width, height - 1);
      var r := [ToInts(data[..width])] + rest;
      forall y: nat, x: nat | y < height && x < width
        ensures Offset(width, y, x) < |data| && r[y][x] == data[Offset(width, y, x)] as int
      {
        DecodeCell(data, width, height, rest, y, x);
      }
      r
  }

  /** One cell of `DecodeRows`: the first row is read from the front of
      the data, any later row from the rest. */
  lemma DecodeCell(data: seq<byte>, width: nat, height: nat, rest: seq<seq<int>>, y: nat, x: nat)
    requires Area(width, height) <= |data| && height > 0
    requires Rectangular(rest, width, height - 1)
    requires forall y: nat, x: nat :: y < height - 1 && x < width ==>
               Offset(width, y, x) < |data| - width && rest[y][x] == data[width..][Offset(width, y, x)] as int
    requires y < height && x < width
    ensures Offset(width, y, x) < |data|
    ensures ([ToInts(data[..width])] + rest)[y][x] == data[Offset(width, y, x)] as int
  {
    OffsetBound(width, height, y, x);
    var r := [ToInts(data[..width])] + rest;
    if y == 0 {
      assert Offset(width, y, x) == x;
      assert r[0] == ToInts(data[..width]);
    } else {
      assert Offset(width, y, x) == width + Offset(width, y - 1, x);
      assert rest[y - 1][x] == data[width..][Offset(width, y - 1, x)] as int;
      assert r[y] == rest[y - 1];
    }
  }

  function Zeros(width: nat, height: nat): (m: seq<seq<int>>)
    ensures Rectangular(m, width, height)
    ensures forall y, x :: 0 <= y < height && 0 <= x < width ==> m[y][x] == 0
  {
    seq(height, _ => seq(width, _ => 0))
  }

  /** `load_tile_layer(file, width, height)`: a missing file reads as all
      zeros; a file shorter than the grid is an `IndexError`; extra bytes
      are ignored. */
  function LoadTileLayer(file: Option<seq<byte>>, width: nat, height: nat): (r: Option<seq<seq<int>>>)
    ensures file.None? ==> r == Some(Zeros(width, height))
    ensures file.Some? ==> (r.None? <==> |file.value| < width * height)
    ensures r.Some? ==> Rectangular(r.value, width, height)
    ensures file.Some? && r.Some? ==>
              forall y: nat, x: nat :: y < height && x < width ==>
                Offset(width, y, x) < |file.value| && r.value[y][x] == file.value[Offset(width, y, x)] as int
  {
    match file
    case None => Some(Zeros(width, height))
    case Some(data) =>
      AreaIsProduct(width, height);
      if |data| < width * height then None else Some(DecodeRows(data, width, height))
  }

  /** Saving a grid of byte-sized ids and loading it with the same size
      gives the grid back. */
  lemma RoundTrip(m: seq<seq<int>>, width: nat, height: nat)
    requires Rectangular(m, width, height) && InByteRange(m)
    ensures LoadTileLayer(EncodeTiles(m), width, height) == Some(m)
  {
    EncodeLayout(m, width, height);
    var e := EncodeTiles(m).value;
    AreaIsProduct(width, height);
    var r := DecodeRows(e, width, height);
    assert LoadTileLayer(Some(e), width, height) == Some(r);
    forall y: nat | y < height ensures r[y] == m[y] {
      forall x: nat | x < width ensures r[y][x] == m[y][x] {
        var o := Offset(width, y, x);
        assert r[y][x] == e[o] as int;
        assert e[o] as int == m[y][x];
      }
    }
    assert r == m;
    assert EncodeTiles(m) == Some(e);
  }

  // ---------------------------------------------------------------------
  // The default room

  /** The demo room: the bottom two rows are ground, with two four-tile
      ledges in rows 8 and 6. */
  function DefaultTile(y: int, x: int): int {
    if y >= ROOM_TILES_Y - 2 || (y == 8 && 3 <= x < 7) || (y == 6 && 10 <= x < 14) then 1 else 0
  }

  function DefaultMap(): (m: seq<seq<int>>)
    ensures Rectangular(m, ROOM_TILES_X, ROOM_TILES_Y)
  {
    seq(ROOM_TILES_Y, y => seq(ROOM_TILES_X, x => DefaultTile(y, x)))
  }

  /** `tilemap[row][x] = v` for every `x` in `lo..hi`. */
  method SetCells(m: seq<seq<int>>, row: nat, lo: nat, hi: nat, v: int) returns (r: seq<seq<int>>)
    requires row < |m| && lo <= hi <= |m[row]|
    ensures |r| == |m| && forall y :: 0 <= y < |m| ==> |r[y]| == |m[y]|
    ensures forall y, x :: 0 <= y < |m| && 0 <= x < |m[y]| ==>
              r[y][x] == (if y == row && lo <= x < hi then v else m[y][x])
  {
    r := m;
    for x := lo to hi
      invariant |r| == |m| && forall y :: 0 <= y < |m| ==> |r[y]| == |m[y]|
      invariant forall y, c :: 0 <= y < |m| && 0 <= c < |m[y]| ==>
                  r[y][c] == (if y == row && lo <= c < x then v else m[y][c])
    {
      r := r[row := r[row][x := v]];
    }
  }

  /** The map `LayeredWorld` writes when the actual layer's file is
      missing: zeros, then the ground rows, then the two ledges. */
  method BuildDefaultMap() returns (m: seq<seq<int>>)
    ensures m == DefaultMap()
    ensures forall y, x :: ROOM_TILES_Y - 2 <= y < ROOM_TILES_Y && 0 <= x < ROOM_TILES_X ==> m[y][x] == 1
    ensures forall x :: 0 <= x < ROOM_TILES_X ==> (m[8][x] == 1 <==> 3 <= x < 7)
    ensures forall x :: 0 <= x < ROOM_TILES_X ==> (m[6][x] == 1 <==> 10 <= x < 14)
    ensures forall y, x :: 0 <= y < ROOM_TILES_Y && 0 <= x < ROOM_TILES_X ==> m[y][x] in {0, 1}
  {
    m := Zeros(ROOM_TILES_X, ROOM_TILES_Y);
    for y := ROOM_TILES_Y - 2 to ROOM_TILES_Y
      invariant Rectangular(m, ROOM_TILES_X, ROOM_TILES_Y)
      invariant forall yy, xx :: 0 <= yy < ROOM_TILES_Y && 0 <= xx < ROOM_TILES_X ==>
                  m[yy][xx] == (if ROOM_TILES_Y - 2 <= yy < y then 1 else 0)
    {
      m := SetCells(m, y, 0, ROOM_TILES_X, 1);
    }
    m := SetCells(m, 8, 3, 7, 1);
    m := SetCells(m, 6, 10, 14, 1);
    var d := DefaultMap();
    forall y | 0 <= y < ROOM_TILES_Y ensures m[y] == d[y] {
      assert forall x :: 0 <= x < ROOM_TILES_X ==> m[y][x] == d[y][x];
    }
  }

  /** A first start writes the default map to the actual layer's file,
      copies that file into the collision layer's through a load, and then
      loads both: the two layers are the default map. */
  lemma FirstStartLayersAgree()
    ensures var actualFile := EncodeTiles(DefaultMap());
            actualFile.Some?
            && LoadTileLayer(actualFile, ROOM_TILES_X, ROOM_TILES_Y) == Some(DefaultMap())
            && EncodeTiles(LoadTileLayer(actualFile, ROOM_TILES_X, ROOM_TILES_Y).value) == actualFile
  {
    var d := DefaultMap();
    assert InByteRange(d) by {
      forall y | 0 <= y < |d| ensures RowInByteRange(d[y]) {
        assert forall x :: 0 <= x < |d[y]| ==> d[y][x] == DefaultTile(y, x);
      }
    }
    RoundTrip(d, ROOM_TILES_X, ROOM_TILES_Y);
  }

  // ---------------------------------------------------------------------
  // Parallax shapes

  /** A drifting shape: its rectangle and horizontal speed (pixels per
      second). */
  datatype Shape = Shape(rect: Rect, vx: real)

  /** Some part of the shape is over the screen's horizontal span. */
  predicate InBand(r: Rect) {
    r.Right() >= 0 && r.Left() <= WIDTH
  }

  /** The wrap of `ParallaxLayer.update`: past the left edge, reappear at
      the right edge; past the right edge, reappear ending at the left
      edge. */
  function Wrap(r: Rect): (q: Rect)
    ensures q.y == r.y && q.w == r.w && q.h == r.h
    ensures r.Right() < 0 ==> q.Left() == WIDTH
    ensures 0 <= r.Right() && r.Left() > WIDTH ==> q.Right() == 0
    ensures InBand(r) ==> q == r
    ensures r.w >= 0 ==> InBand(q)
  {
    var a := if r.Right() < 0 then SetLeft(r, WIDTH) else r;
    if a.Left() > WIDTH then SetRight(a, 0) else a
  }

  /** One shape's update: move by `int(vx * dt)`, then wrap. */
  function ParallaxStep(s: Shape, dt: real): (r: Shape)
    ensures r.vx == s.vx && r.rect.y == s.rect.y && r.rect.w == s.rect.w && r.rect.h == s.rect.h
    ensures s.rect.w >= 0 ==> InBand(r.rect)
    ensures InBand(s.rect.(x := s.rect.x + Trunc(s.vx * dt))) ==> r.rect.x == s.rect.x + Trunc(s.vx * dt)
  {
    s.(rect := Wrap(s.rect.(x := s.rect.x + Trunc(s.vx * dt))))
  }

  function ParallaxUpdate(shapes: seq<Shape>, dt: real): (r: seq<Shape>)
    ensures |r| == |shapes|
    ensures forall i :: 0 <= i < |shapes| ==> r[i] == ParallaxStep(shapes[i], dt)
  {
    seq(|shapes|, i requires 0 <= i < |shapes| => ParallaxStep(shapes[i], dt))
  }

  /** Shapes drift right to left: a shape in the band, moving left, never
      takes the right-edge wrap, and one that leaves on the left comes back
      at the right edge. */
  lemma LeftDriftWrapsAtRightEdge(r: Rect, dx: int)
    requires InBand(r) && dx <= 0 && r.w >= 0
    ensures var m := r.(x := r.x + dx);
            (m.Right() < 0 ==> Wrap(m).Left() == WIDTH) && (m.Right() >= 0 ==> Wrap(m) == m)
  {
  }

  // ---------------------------------------------------------------------
  // Timed particles

  /** A particle event of the particle file. */
  datatype Event = Event(time: real, x: real, y: real, radius: real)

  /** `TimedParticle`: its event and whether it has been spawned. */
  datatype Timed = Timed(spawnTime: real, x: real, y: real, radius: real, spawned: bool)

  /** The layer's scheduled events (sorted by spawn time), its clock, and
      the spawned particles in spawn order, by position in the schedule. */
  datatype ParticleLayer = ParticleLayer(events: seq<Timed>, time: real, spawnedList: seq<nat>)

  predicate SortedBySpawn(es: seq<Timed>) {
    forall i, j :: 0 <= i < j < |es| ==> es[i].spawnTime <= es[j].spawnTime
  }

  /** Insert after every event that is due no later, as a stable sort
      does. */
  function InsertBySpawn(es: seq<Timed>, e: Timed): (r: seq<Timed>)
    requires SortedBySpawn(es)
    ensures SortedBySpawn(r) && |r| == |es| + 1
    ensures multiset(r) == multiset(es) + multiset{e}
  {
    if |es| == 0 then [e]
    else if es[|es| - 1].spawnTime <= e.spawnTime then es + [e]
    else
      var front := es[..|es| - 1];
      var last := es[|es| - 1];
      assert es == front + [last];
      var r0 := InsertBySpawn(front, e);
      BoundedByLast(es, r0, e);
      var r := r0 + [last];
      assert multiset(r) == multiset(front) + multiset{e} + multiset{last};
      r
  }

  /** Every event of a permutation of a sorted schedule's front plus an
      earlier event is due no later than the schedule's last event. */
  lemma BoundedByLast(es: seq<Timed>, r0: seq<Timed>, e: Timed)
    requires SortedBySpawn(es) && |es| > 0 && e.spawnTime < es[|es| - 1].spawnTime
    requires multiset(r0) == multiset(es[..|es| - 1]) + multiset{e}
    ensures forall i :: 0 <= i < |r0| ==> r0[i].spawnTime <= es[|es| - 1].spawnTime
  {
    var front := es[..|es| - 1];
    forall i | 0 <= i < |r0| ensures r0[i].spawnTime <= es[|es| - 1].spawnTime {
      assert r0[i] in multiset(r0);
      if r0[i] != e {
        assert r0[i] in multiset(front);
        var j :| 0 <= j < |front| && front[j] == r0[i];
        assert es[j] == front[j];
      }
    }
  }

  /** `sorted(..., key=spawn_time)` as an insertion sort. */
  function SortBySpawn(es: seq<Timed>): (r: seq<Timed>)
    ensures SortedBySpawn(r) && multiset(r) == multiset(es)
    decreases |es|
  {
    if |es| == 0 then []
    else
      var front := es[..|es| - 1];
      assert es == front + [es[|es| - 1]];
      InsertBySpawn(SortBySpawn(front), es[|es| - 1])
  }

  /** `ParticleLayer(event_list)`: every event as an unspawned particle,
      sorted by spawn time, at time 0 with nothing spawned. */
  function NewParticleLayer(evs: seq<Event>): (l: ParticleLayer)
    ensures SortedBySpawn(l.events) && |l.events| == |evs|
    ensures multiset(l.events) == multiset(seq(|evs|, i requires 0 <= i < |evs| => Fresh(evs[i])))
    ensures forall k :: 0 <= k < |l.events| ==> !l.events[k].spawned
    ensures l.time == 0.0 && l.spawnedList == []
  {
    var ts := seq(|evs|, i requires 0 <= i < |evs| => Fresh(evs[i]));
    var sorted := SortBySpawn(ts);
    assert forall k :: 0 <= k < |sorted| ==> !sorted[k].spawned by {
      forall k | 0 <= k < |sorted| ensures !sorted[k].spawned {
        assert sorted[k] in multiset(ts);
        var i :| 0 <= i < |ts| && ts[i] == sorted[k];
      }
    }
    assert |sorted| == |multiset(sorted)| == |multiset(ts)| == |ts|;
    ParticleLayer(sorted, 0.0, [])
  }

  function Fresh(e: Event): (t: Timed)
    ensures !t.spawned && t.spawnTime == e.time
  {
    Timed(e.time, e.x, e.y, e.radius, false)
  }

  /** The schedule positions from `i` on that are due at time `t` and not
      yet spawned, in schedule order. */
  function Due(es: seq<Timed>, t: real, i: nat): (r: seq<nat>)
    ensures forall k :: k in r <==> i <= k < |es| && !es[k].spawned && t >= es[k].spawnTime
    ensures forall a, b :: 0 <= a < b < |r| ==> r[a] < r[b]
    decreases |es| - i
  {
    if i >= |es| then []
    else
      var rest := Due(es, t, i + 1);
      if !es[i].spawned && t >= es[i].spawnTime then
        assert forall b :: 0 <= b < |rest| ==> rest[b] in rest;
        [i] + rest
      else rest
  }

  /** `ParticleLayer.update(dt)`, without the particles' fading: the clock
      advances, then every unspawned event now due is spawned, in schedule
      order. */
  function UpdateParticles(l: ParticleLayer, dt: real): (r: ParticleLayer)
    ensures r.time == l.time + dt && |r.events| == |l.events|
    ensures |r.spawnedList| >= |l.spawnedList|
    ensures forall k :: 0 <= k < |l.events| ==>
              r.events[k] == l.events[k].(spawned := l.events[k].spawned || r.time >= l.events[k].spawnTime)
    ensures r.spawnedList[..|l.spawnedList|] == l.spawnedList
    ensures forall k :: k in r.spawnedList[|l.spawnedList|..] <==>
              0 <= k < |l.events| && !l.events[k].spawned && r.time >= l.events[k].spawnTime
  {
    var t := l.time + dt;
    var es := seq(|l.events|, k requires 0 <= k < |l.events| =>
                l.events[k].(spawned := l.events[k].spawned || t >= l.events[k].spawnTime));
    var added := Due(l.events, t, 0);
    assert (l.spawnedList + added)[|l.spawnedList|..] == added;
    ParticleLayer(es, t, l.spawnedList + added)
  }

  /** The spawned list holds each spawned event exactly once. */
  predicate Consistent(l: ParticleLayer) {
    NoDup(l.spawnedList)
    && (forall k :: k in l.spawnedList ==> k < |l.events| && l.events[k].spawned)
    && (forall k :: 0 <= k < |l.events| && l.events[k].spawned ==> k in l.spawnedList)
  }

  lemma NewLayerConsistent(evs: seq<Event>)
    ensures Consistent(NewParticleLayer(evs))
  {
  }

  /** An event is spawned at most once: updates keep the spawned list
      free of repeats and in step with the flags. */
  lemma UpdateKeepsConsistent(l: ParticleLayer, dt: real)
    requires Consistent(l)
    ensures Consistent(UpdateParticles(l, dt))
  {
    var r := UpdateParticles(l, dt);
    var old_ := l.spawnedList;
    var added := r.spawnedList[|old_|..];
    assert r.spawnedList == old_ + added;
    assert NoDup(added) by {
      var due := Due(l.events, r.time, 0);
      assert added == due;
    }
    forall i, j | 0 <= i < j < |r.spawnedList| ensures r.spawnedList[i] != r.spawnedList[j] {
      if j >= |old_| && i < |old_| {
        assert r.spawnedList[i] in old_;
        assert r.spawnedList[j] in added;
      } else if i >= |old_| {
        assert r.spawnedList[i] == added[i - |old_|] && r.spawnedList[j] == added[j - |old_|];
      }
    }
  }

  /** With the clock never running backward, after one update an event is
      spawned exactly when its time has come. */
  lemma SpawnedIffDue(l: ParticleLayer, dt: real)
    requires dt >= 0.0
    requires forall k :: 0 <= k < |l.events| && l.events[k].spawned ==> l.events[k].spawnTime <= l.time
    ensures var r := UpdateParticles(l, dt);
            forall k :: 0 <= k < |r.events| ==> (r.events[k].spawned <==> r.events[k].spawnTime <= r.time)
  {
  }

  /** In a sorted schedule whose spawn flags match the clock, the spawned
      events are a prefix of the schedule. */
  lemma SpawnedPrefix(l: ParticleLayer)
    requires SortedBySpawn(l.events)
    requires forall k :: 0 <= k < |l.events| ==> (l.events[k].spawned <==> l.events[k].spawnTime <= l.time)
    ensures forall i, j :: 0 <= i < j < |l.events| && l.events[j].spawned ==> l.events[i].spawned
  {
  }

  /** An event whose time has come is spawned by the next update and is
      listed once. */
  lemma DueEventSpawnsOnce(l: ParticleLayer, dt: real, k: nat)
    requires Consistent(l) && k < |l.events| && !l.events[k].spawned
    requires l.time + dt >= l.events[k].spawnTime
    ensures UpdateParticles(l, dt).events[k].spawned
    ensures multiset(UpdateParticles(l, dt).spawnedList)[k] == 1
  {
    var r := UpdateParticles(l, dt);
    UpdateKeepsConsistent(l, dt);
    assert k in r.spawnedList[|l.spawnedList|..];
    NoDupCount(r.spawnedList, k);
  }

  lemma {:induction false} NoDupCount(s: seq<nat>, v: nat)
    requires NoDup(s) && v in s
    ensures multiset(s)[v] == 1
    decreases |s|
  {
    if s[0] == v {
      assert v !in s[1..];
      assert s == [s[0]] + s[1..];
    } else {
      assert NoDup(s[1..]);
      NoDupCount(s[1..], v);
      assert s == [s[0]] + s[1..];
    }
  }
}

=== FILE: level.dfy ===
/** The legacy level (level.py): the level state, the non-tile part of
    `handle_collisions` (enemies, melee, collectibles, boss), the tutorial
    stage machine, the camera clamp and the per-frame `update` order. */
module Level {
  import opened Wrappers
  import opened Geometry
  import opened Grid
  import opened LevelSetup
  import C = LegacyCollision
  import A = LevelActors
  import P = Player
  import S = Settings
  import T = TutorialLevel
  import Lists

  const CONTACT_DAMAGE: real := 0.1
  const BOSS_CONTACT_DAMAGE: real := 0.2
  const BOSS_DASH_DAMAGE: int := 2

  /** `tutorial_stage`: the level starts in the fire section. */
  datatype Stage = FireSection | WindSection

  datatype Level = Level(
    grid: seq<string>,
    tiles: seq<Tile>,
    player: Option<P.Player>,
    enemies: seq<A.SimpleEnemy>,
    collectibles: seq<Collectible>,
    boss: Option<A.Boss>,
    region: string,
    transition: Option<(int, int)>,
    bossActivated: bool,
    stage: Stage,
    cameraX: int, cameraY: int)

  /** The layout a level is built from. */
  function LevelGrid(data: seq<string>): (g: seq<string>)
    ensures g == (if |data| == 0 then T.TUTORIAL_LEVEL else data) && |g| > 0
  {
    if |data| == 0 then T.TUTORIAL_LEVEL else data
  }

  /** `Level(surface, level_data)`: an empty layout means the tutorial level. */
  function NewLevel(data: seq<string>): (l: Level)
    ensures l.grid == (if |data| == 0 then T.TUTORIAL_LEVEL else data) && |l.grid| > 0
    ensures l.tiles == Tiles(l.grid)
    ensures l.region == "fire" && l.stage == FireSection && !l.bossActivated
    ensures l.cameraX == 0 && l.cameraY == 0
    ensures l.player.Some? ==> l.player.value.kit.currentRegion == Some("fire")
  {
    var grid := LevelGrid(data);
    var layout := SetupLevel(grid, "fire");
    Level(grid, layout.tiles, layout.player, layout.enemies, layout.collectibles, layout.boss,
          "fire", layout.transition, false, FireSection, 0, 0)
  }

  // ---------------------------------------------------------------------
  // Enemies

  function TouchedEnemies(r: Rect, es: seq<A.SimpleEnemy>): seq<A.SimpleEnemy> {
    Collect(es, (e: A.SimpleEnemy) => if Collide(r, e.rect) then Some(e) else None)
  }

  /** 0.1 damage per enemy the player overlaps. */
  function EnemyContacts(health: real, r: Rect, es: seq<A.SimpleEnemy>): (h: real)
    ensures h == health - CONTACT_DAMAGE * (|TouchedEnemies(r, es)| as real)
    ensures h <= health
    decreases |es|
  {
    if |es| == 0 then health
    else
      var h := EnemyContacts(health, r, es[..|es| - 1]);
      if Collide(r, es[|es| - 1].rect) then h - CONTACT_DAMAGE else h
  }

  /** The melee box is live only on the frame of the attack. */
  predicate MeleeHits(p: P.Player, e: A.SimpleEnemy) {
    p.combat.meleeAttacking && p.combat.meleeAttackRect.Some?
    && Collide(p.combat.meleeAttackRect.value, e.rect)
  }

  /** An enemy after the melee check: hit ones lose MELEE_ATTACK_DAMAGE and
      are removed once their health is at most 0. */
  function MeleeOutcome(p: P.Player): A.SimpleEnemy -> Option<A.SimpleEnemy> {
    (e: A.SimpleEnemy) =>
      if MeleeHits(p, e) then
        var h := e.(health := e.health - S.MELEE_ATTACK_DAMAGE);
        if h.health <= 0 then None else Some(h)
      else Some(e)
  }

  /** A live hit removes exactly the enemies whose health is at most the
      melee damage and lowers the others' health by it; an enemy the box
      misses is kept as it is. */
  lemma MeleeOutcomeKills(p: P.Player, e: A.SimpleEnemy)
    ensures !MeleeHits(p, e) ==> MeleeOutcome(p)(e) == Some(e)
    ensures MeleeHits(p, e) ==>
      (MeleeOutcome(p)(e).None? <==> e.health <= S.MELEE_ATTACK_DAMAGE)
    ensures MeleeHits(p, e) && MeleeOutcome(p)(e).Some? ==>
      MeleeOutcome(p)(e).value.health == e.health - S.MELEE_ATTACK_DAMAGE
      && MeleeOutcome(p)(e).value.rect == e.rect
  {
  }

  function ResolveMelee(p: P.Player, es: seq<A.SimpleEnemy>): (r: seq<A.SimpleEnemy>)
    ensures forall e :: e in es && !MeleeHits(p, e) ==> e in r
    ensures forall e :: e in es && MeleeHits(p, e) && e.health > S.MELEE_ATTACK_DAMAGE ==>
      e.(health := e.health - S.MELEE_ATTACK_DAMAGE) in r
    ensures forall e :: e in r ==> exists d :: d in es && MeleeOutcome(p)(d) == Some(e)
    ensures forall e :: e in r ==> e.health > 0 || (e in es && !MeleeHits(p, e))
    ensures |r| <= |es|
  {
    var f := MeleeOutcome(p);
    var r := Collect(es, f);
    forall e | e in es && !MeleeHits(p, e)
      ensures e in r
    {
      assert f(e) == Some(e);
    }
    forall e | e in es && MeleeHits(p, e) && e.health > S.MELEE_ATTACK_DAMAGE
      ensures e.(health := e.health - S.MELEE_ATTACK_DAMAGE) in r
    {
      assert f(e) == Some(e.(health := e.health - S.MELEE_ATTACK_DAMAGE));
    }
    forall e | e in r
      ensures e.health > 0 || (e in es && !MeleeHits(p, e))
    {
      var d :| d in es && f(d) == Some(e);
    }
    r
  }

  // ---------------------------------------------------------------------
  // Collectibles

  const FIRE_ORB_ABILITIES: seq<string> := ["fire_dash", "fire_projectile", "fire_aura"]
  const AIR_ORB_ABILITIES: seq<string> := ["air_jump", "air_dash", "air_glide"]

  /** The abilities an orb can grant in the level's region. */
  function OrbAbilities(region: string): (r: seq<string>)
    ensures |r| > 0
  {
    if region == "fire" then FIRE_ORB_ABILITIES
    else if region == "air" then AIR_ORB_ABILITIES
    else ["fire_dash"]
  }

  /** `collect_item`. `pick` stands for the value `random.choice` draws. */
  function CollectItem(p: P.Player, item: Item, region: string, pick: nat): (r: P.Player)
    ensures item.Fragment? ==> r == P.CollectFragment(p, item.region)
    ensures item.AbilityOrb? ==>
      r == P.UnlockAbility(p, OrbAbilities(region)[pick % |OrbAbilities(region)|], false)
    ensures r.body == p.body && r.jump == p.jump && r.combat == p.combat
  {
    match item
    case Fragment(reg) => P.CollectFragment(p, reg)
    case AbilityOrb =>
      var choices := OrbAbilities(region);
      P.UnlockAbility(p, choices[pick % |choices|], false)
  }

  /** The items of the collectibles a rectangle overlaps, in list order. */
  function Overlapped(rect: Rect, cs: seq<Collectible>): seq<Item> {
    Collect(cs, (c: Collectible) => if Collide(rect, c.rect) then Some(c.item) else None)
  }

  /** Collecting items one after another. Every ability orb calls
      `random.choice` afresh: `draws(k)` is the value drawn for the k-th
      orb of the frame. */
  function CollectAll(p: P.Player, items: seq<Item>, region: string, draws: nat -> nat): (r: P.Player)
    ensures r.body == p.body && r.jump == p.jump && r.combat == p.combat
    decreases |items|
  {
    if |items| == 0 then p
    else
      var front := items[..|items| - 1];
      CollectItem(CollectAll(p, front, region, draws), items[|items| - 1], region,
                  draws(multiset(front)[AbilityOrb]))
  }

  /** The collectible loop: every item the player overlaps is collected, in
      list order, and removed; the others stay, in order. */
  function CollectItems(p: P.Player, cs: seq<Collectible>, region: string, draws: nat -> nat)
    : (r: (P.Player, seq<Collectible>))
    ensures r.0 == CollectAll(p, Overlapped(p.body.rect, cs), region, draws)
    ensures r.1 == Collect(cs, (c: Collectible) => if Collide(p.body.rect, c.rect) then None else Some(c))
    ensures forall c :: c in r.1 <==> c in cs && !Collide(p.body.rect, c.rect)
    ensures r.0.body == p.body && r.0.jump == p.jump && r.0.combat == p.combat
    decreases |cs|
  {
    if |cs| == 0 then (p, [])
    else
      var front := cs[..|cs| - 1];
      var c := cs[|cs| - 1];
      var q := CollectItems(p, front, region, draws);
      assert forall u :: u in cs <==> u in front || u == c;
      var before := Overlapped(p.body.rect, front);
      if Collide(q.0.body.rect, c.rect) then
        var items := Overlapped(p.body.rect, cs);
        assert items == before + [c.item];
        assert items[..|items| - 1] == before;
        (CollectItem(q.0, c.item, region, draws(multiset(before)[AbilityOrb])), q.1)
      else
        assert Overlapped(p.body.rect, cs) == before;
        (q.0, q.1 + [c])
  }

  /** Every overlapped fragment of a region counts once for that region;
      orbs and fragments of other regions leave its count alone. */
  lemma {:induction false} CollectedFragmentsCount(p: P.Player, items: seq<Item>, region: string,
                                                   draws: nat -> nat, g: string)
    ensures P.FragmentCount(CollectAll(p, items, region, draws).kit, g)
         == P.FragmentCount(p.kit, g) + multiset(items)[Fragment(g)]
    decreases |items|
  {
    if |items| > 0 {
      var front := items[..|items| - 1];
      CollectedFragmentsCount(p, front, region, draws, g);
      CollectOneMoreFragment(p, items, region, draws, g);
    }
  }

  /** Collecting the last item adds one to a region's count exactly when it
      is a fragment of that region, as it does to the item count. */
  lemma CollectOneMoreFragment(p: P.Player, items: seq<Item>, region: string,
                               draws: nat -> nat, g: string)
    requires |items| > 0
    ensures var front, one := items[..|items| - 1], if items[|items| - 1] == Fragment(g) then 1 else 0;
      && P.FragmentCount(CollectAll(p, items, region, draws).kit, g)
         == P.FragmentCount(CollectAll(p, front, region, draws).kit, g) + one
      && multiset(items)[Fragment(g)] == multiset(front)[Fragment(g)] + one
  {
    var front, x := items[..|items| - 1], items[|items| - 1];
    assert items == front + [x];
    CollectAllSnoc(p, front, x, region, draws);
    CollectItemFragmentCount(CollectAll(p, front, region, draws), x, region,
                             draws(multiset(front)[AbilityOrb]), g);
  }

  /** One collected item adds one to a region's count exactly when it is a
      fragment of that region. */
  lemma CollectItemFragmentCount(p: P.Player, x: Item, region: string, pick: nat, g: string)
    ensures P.FragmentCount(CollectItem(p, x, region, pick).kit, g)
         == P.FragmentCount(p.kit, g) + (if x == Fragment(g) then 1 else 0)
  {
  }

  /** Collecting one more item continues from the items before it; an orb
      takes the draw numbered by the orbs before it. */
  lemma CollectAllSnoc(p: P.Player, items: seq<Item>, x: Item, region: string, draws: nat -> nat)
    ensures CollectAll(p, items + [x], region, draws)
         == CollectItem(CollectAll(p, items, region, draws), x, region, draws(multiset(items)[AbilityOrb]))
  {
    assert (items + [x])[..|items|] == items;
  }

  /** The ability an orb unlocks when `k` is the value drawn for it. */
  function Drawn(region: string, k: nat): (a: string)
    ensures a in OrbAbilities(region)
  {
    OrbAbilities(region)[k % |OrbAbilities(region)|]
  }

  /** The first orb of a frame takes the first draw. */
  lemma FirstOrbFirstDraw(p: P.Player, region: string, draws: nat -> nat)
    requires p.kit.unlockedAbilities == []
    ensures CollectAll(p, [AbilityOrb], region, draws).kit.unlockedAbilities == [Drawn(region, draws(0))]
  {
    var none: seq<Item> := [];
    CollectAllSnoc(p, none, AbilityOrb, region, draws);
    assert none + [AbilityOrb] == [AbilityOrb];
  }

  /** Two orbs overlapped in the same frame take two draws, so two
      different values unlock two different abilities at once, in order. */
  lemma TwoOrbsTwoDraws(p: P.Player, region: string, draws: nat -> nat)
    requires p.kit.unlockedAbilities == []
    requires Drawn(region, draws(0)) != Drawn(region, draws(1))
    ensures CollectAll(p, [AbilityOrb, AbilityOrb], region, draws).kit.unlockedAbilities
         == [Drawn(region, draws(0)), Drawn(region, draws(1))]
  {
    FirstOrbFirstDraw(p, region, draws);
    CollectAllSnoc(p, [AbilityOrb], AbilityOrb, region, draws);
    assert [AbilityOrb] + [AbilityOrb] == [AbilityOrb, AbilityOrb];
    assert multiset([AbilityOrb])[AbilityOrb] == 1;
  }

  // ---------------------------------------------------------------------
  // Boss

  /** Touching the boss costs 0.2 health; touching it while dashing also
      costs the boss 2. A melee hit costs the boss MELEE_ATTACK_DAMAGE. */
  function BossCollisions(p: P.Player, b: Option<A.Boss>): (r: (P.Player, Option<A.Boss>))
    ensures b.None? ==> r == (p, b)
    ensures r.1.Some? <==> b.Some?
    ensures b.Some? ==>
      var touch := Collide(p.body.rect, b.value.rect);
      var melee := p.combat.meleeAttacking && p.combat.meleeAttackRect.Some?
                   && Collide(p.combat.meleeAttackRect.value, b.value.rect);
      && r.0.combat.health == (if touch then p.combat.health - BOSS_CONTACT_DAMAGE else p.combat.health)
      && r.1.value.health == b.value.health
           - (if touch && p.body.dashTimer > 0 then BOSS_DASH_DAMAGE else 0)
           - (if melee then S.MELEE_ATTACK_DAMAGE else 0)
      && r.1.value.rect == b.value.rect
    ensures b.Some? ==> r.1.value == b.value.(health := r.1.value.health)
    ensures r.0 == p.(combat := p.combat.(health := r.0.combat.health))
  {
    match b
    case None => (p, b)
    case Some(boss) =>
      var touch := Collide(p.body.rect, boss.rect);
      var p1 := if touch then p.(combat := p.combat.(health := p.combat.health - BOSS_CONTACT_DAMAGE)) else p;
      var b1 := if touch && p.body.dashTimer > 0 then boss.(health := boss.health - BOSS_DASH_DAMAGE) else boss;
      var b2 := if p1.combat.meleeAttacking && p1.combat.meleeAttackRect.Some?
                   && Collide(p1.combat.meleeAttackRect.value, b1.rect)
                then b1.(health := b1.health - S.MELEE_ATTACK_DAMAGE) else b1;
      (p1, Some(b2))
  }

  // ---------------------------------------------------------------------
  // handle_collisions

  /** The whole collision step. Without a player nothing happens. The attack
      flags are cleared at the end, so a melee box hits on one frame only. */
  function HandleCollisions(l: Level, draws: nat -> nat): (r: Level)
    ensures l.player.None? ==> r == l
    ensures r.player.Some? <==> l.player.Some?
    ensures l.player.Some? ==>
      var q := r.player.value;
      && !(q.body.onGround && q.body.onCeiling)
      && (q.jump.atEdge ==> q.body.onGround)
      && !q.combat.meleeAttacking && !q.combat.rangedAttacking
      && q.body == C.ResolveTiles(l.player.value, l.tiles).body
      && q.jump == C.ResolveTiles(l.player.value, l.tiles).jump
      && (forall c :: c in r.collectibles <==> c in l.collectibles && !Collide(q.body.rect, c.rect))
      && |r.enemies| <= |l.enemies|
    ensures l.player.Some? ==>
      var p1 := C.ResolveTiles(l.player.value, l.tiles);
      var h := EnemyContacts(p1.combat.health, p1.body.rect, l.enemies);
      var p2 := p1.(combat := p1.combat.(health := h));
      var q := r.player.value;
      && r.enemies == ResolveMelee(p2, l.enemies)
      && q.combat.health
         == (if l.boss.Some? && Collide(p1.body.rect, l.boss.value.rect) then h - BOSS_CONTACT_DAMAGE else h)
      && q.kit == CollectAll(p2, Overlapped(p1.body.rect, l.collectibles), l.region, draws).kit
      && r.boss == BossCollisions(p2, l.boss).1
    ensures l.player.Some? ==>
      r.player.value.combat == C.ResolveTiles(l.player.value, l.tiles).combat.(
        health := r.player.value.combat.health, meleeAttacking := false, rangedAttacking := false)
    ensures r.tiles == l.tiles && r.grid == l.grid && r.stage == l.stage && r.region == l.region
    ensures r.transition == l.transition && r.bossActivated == l.bossActivated
  {
    match l.player
    case None => l
    case Some(p) =>
      var p1 := C.ResolveTiles(p, l.tiles);
      var p2 := p1.(combat := p1.combat.(health := EnemyContacts(p1.combat.health, p1.body.rect, l.enemies)));
      var t := ItemsAndBoss(p2, l.collectibles, l.boss, l.region, draws);
      l.(player := Some(t.0), enemies := ResolveMelee(p2, l.enemies), collectibles := t.1, boss := t.2)
  }

  /** The tail of the collision step, after enemy contacts and the melee
      check: collectibles, the boss, and clearing the attack flags. */
  function ItemsAndBoss(p: P.Player, cs: seq<Collectible>, boss: Option<A.Boss>, region: string,
                        draws: nat -> nat): (r: (P.Player, seq<Collectible>, Option<A.Boss>))
    ensures r.0.body == p.body && r.0.jump == p.jump
    ensures r.0.kit == CollectAll(p, Overlapped(p.body.rect, cs), region, draws).kit
    ensures r.0.combat == p.combat.(meleeAttacking := false, rangedAttacking := false,
                                    health := BossCollisions(p, boss).0.combat.health)
    ensures forall c :: c in r.1 <==> c in cs && !Collide(p.body.rect, c.rect)
    ensures r.2 == BossCollisions(p, boss).1
  {
    var items := CollectItems(p, cs, region, draws);
    BossSeesBodyAndCombat(items.0, p, boss);
    var bossStep := BossCollisions(items.0, boss);
    (bossStep.0.(combat := bossStep.0.combat.(meleeAttacking := false, rangedAttacking := false)), items.1, bossStep.1)
  }

  /** The boss step reads only the player's body and combat state. */
  lemma BossSeesBodyAndCombat(a: P.Player, b: P.Player, boss: Option<A.Boss>)
    requires a.body == b.body && a.combat == b.combat
    ensures BossCollisions(a, boss).1 == BossCollisions(b, boss).1
    ensures BossCollisions(a, boss).0.combat == BossCollisions(b, boss).0.combat
  {
  }

  // ---------------------------------------------------------------------
  // Transitions, tutorial progress, camera

  function TransitionRect(pt: (int, int)): Rect {
    Rect(pt.0, pt.1, S.TILE_SIZE, S.TILE_SIZE)
  }

  predicate TransitionFires(l: Level) {
    && l.transition.Some? && l.player.Some?
    && Collide(l.player.value.body.rect, TransitionRect(l.transition.value))
    && l.stage == FireSection
  }

  /** `check_transitions` and `transition_to_wind`: touching the transition
      square during the fire section switches the level and the player to
      the air region. */
  function CheckTransitions(l: Level): (r: Level)
    ensures TransitionFires(l) ==>
      && r.region == "air" && r.stage == WindSection
      && r.player == Some(P.SetRegion(l.player.value, Some("air")))
    ensures !TransitionFires(l) ==> r == l
    ensures r.player.Some? <==> l.player.Some?
    ensures r.player.Some? ==> r.player.value.body == l.player.value.body && r.player.value.jump == l.player.value.jump
    ensures r.grid == l.grid && r.tiles == l.tiles && r.transition == l.transition
    ensures r.collectibles == l.collectibles && r.bossActivated == l.bossActivated
  {
    if TransitionFires(l) then
      l.(region := "air", stage := WindSection, player := Some(P.SetRegion(l.player.value, Some("air"))))
    else l
  }

  /** The transition happens once: the wind section never re-enters it. */
  lemma TransitionOnce(l: Level)
    ensures CheckTransitions(CheckTransitions(l)) == CheckTransitions(l)
  {
  }

  /** `check_tutorial_progress`. In the fire section the source reads the
      player's abilities, which fails without a player: `None` models that
      failure. In the wind section the boss fight starts once every
      collectible is gone. */
  function CheckTutorialProgress(l: Level): (r: Option<Level>)
    ensures r.None? <==> l.stage == FireSection && l.player.None?
    ensures r.Some? ==> r.value == l.(bossActivated := r.value.bossActivated)
    ensures r.Some? ==>
      (r.value.bossActivated <==> l.bossActivated || (l.stage == WindSection && |l.collectibles| == 0))
  {
    match l.stage
    case FireSection => if l.player.None? then None else Some(l)
    case WindSection =>
      if !l.bossActivated && |l.collectibles| == 0 then Some(l.(bossActivated := true)) else Some(l)
  }

  /** Clamp `v` into [lo, 0] the way `max(lo, min(0, v))` does. */
  function ClampCamera(lo: int, v: int): (c: int)
    ensures lo <= 0 ==> lo <= c <= 0
    ensures lo <= v <= 0 ==> c == v
    ensures lo > 0 ==> c == lo
  {
    MaxI(lo, MinI(0, v))
  }

  /** `update_camera`: centre the player, clamped to the level's extent,
      whose width is that of its first row. */
  function UpdateCamera(l: Level): (r: Level)
    requires |l.grid| > 0
    ensures l.player.None? ==> r == l
    ensures l.player.Some? ==>
      var pr := l.player.value.body.rect;
      var lw := |l.grid[0]| * S.TILE_SIZE;
      var lh := |l.grid| * S.TILE_SIZE;
      && (lw >= S.SCREEN_WIDTH ==> S.SCREEN_WIDTH - lw <= r.cameraX <= 0)
      && (lh >= S.SCREEN_HEIGHT ==> S.SCREEN_HEIGHT - lh <= r.cameraY <= 0)
      && (S.SCREEN_WIDTH - lw <= S.SCREEN_WIDTH / 2 - pr.CenterX() <= 0 ==>
            r.cameraX == S.SCREEN_WIDTH / 2 - pr.CenterX())
      && (S.SCREEN_HEIGHT - lh <= S.SCREEN_HEIGHT / 2 - pr.CenterY() <= 0 ==>
            r.cameraY == S.SCREEN_HEIGHT / 2 - pr.CenterY())
    ensures r == l.(cameraX := r.cameraX, cameraY := r.cameraY)
  {
    match l.player
    case None => l
    case Some(p) =>
      var targetX := S.SCREEN_WIDTH / 2 - p.body.rect.CenterX();
      var targetY := S.SCREEN_HEIGHT / 2 - p.body.rect.CenterY();
      var lw := |l.grid[0]| * S.TILE_SIZE;
      var lh := |l.grid| * S.TILE_SIZE;
      l.(cameraX := ClampCamera(S.SCREEN_WIDTH - lw, targetX), cameraY := ClampCamera(S.SCREEN_HEIGHT - lh, targetY))
  }

  // ---------------------------------------------------------------------
  // The frame

  function MapEnemies(es: seq<A.SimpleEnemy>): (r: seq<A.SimpleEnemy>)
    ensures |r| == |es| && forall i :: 0 <= i < |es| ==> r[i] == A.UpdateEnemy(es[i])
  {
    seq(|es|, i requires 0 <= i < |es| => A.UpdateEnemy(es[i]))
  }

  /** What the frame order guarantees about the player after a frame: the
      coyote bookkeeping has seen this frame's contact flags. */
  predicate Settled(q: P.Player) {
    && q.jump.wasOnGround == q.body.onGround
    && (q.body.onGround ==> q.jump.coyoteTimer == 0)
    && !(q.body.onGround && q.body.onCeiling)
  }

  /** Collisions then coyote time. */
  function CollideAndCoyote(l: Level, draws: nat -> nat): (r: Level)
    ensures r.player.Some? <==> l.player.Some?
    ensures r.player.Some? ==> Settled(r.player.value)
    ensures r.grid == l.grid && r.stage == l.stage
  {
    var l2 := HandleCollisions(l, draws);
    if l2.player.Some? then l2.(player := Some(P.UpdateCoyoteTime(l2.player.value))) else l2
  }

  /** The player, enemy and boss updates of a frame. */
  function UpdateActors(l: Level, keys: P.Keys, now: int): (r: Level)
    ensures r.grid == l.grid && r.stage == l.stage && (r.player.Some? <==> l.player.Some?)
    ensures l.player.Some? ==> r.player.value == P.Update(l.player.value, keys, now)
    ensures r.enemies == MapEnemies(l.enemies)
    ensures (r.boss.Some? <==> l.boss.Some?) && (l.boss.Some? ==> r.boss.value == A.UpdateBoss(l.boss.value))
    ensures r == l.(player := r.player, enemies := r.enemies, boss := r.boss)
  {
    l.(player := if l.player.Some? then Some(P.Update(l.player.value, keys, now)) else None,
       enemies := MapEnemies(l.enemies),
       boss := if l.boss.Some? then Some(A.UpdateBoss(l.boss.value)) else None)
  }

  /** The actor step keeps every enemy on its patrol and the boss on its
      sweep. */
  lemma UpdateActorsKeepsPatrols(l: Level, keys: P.Keys, now: int, x0: int)
    requires forall e :: e in l.enemies ==> A.Patrolling(e)
    requires l.boss.Some? ==> A.Sweeping(l.boss.value, x0)
    ensures forall e :: e in UpdateActors(l, keys, now).enemies ==> A.Patrolling(e)
    ensures UpdateActors(l, keys, now).boss.Some? ==> A.Sweeping(UpdateActors(l, keys, now).boss.value, x0)
  {
    var r := UpdateActors(l, keys, now);
    forall e | e in r.enemies
      ensures A.Patrolling(e)
    {
      var i :| 0 <= i < |r.enemies| && r.enemies[i] == e;
      A.UpdateKeepsPatrolling(l.enemies[i]);
    }
    if l.boss.Some? {
      A.UpdateKeepsSweeping(l.boss.value, x0);
    }
  }

  /** `Level.update`: player update, enemies and boss, collisions, coyote
      time (after collisions, so it sees the fresh contact flags),
      transitions, tutorial progress and camera. `None` is the failure of
      `check_tutorial_progress` without a player. */
  function Update(l: Level, keys: P.Keys, now: int, draws: nat -> nat): (r: Option<Level>)
    requires |l.grid| > 0
    ensures r.None? <==> l.player.None? && l.stage == FireSection
    ensures r.Some? ==> |r.value.grid| > 0 && (r.value.player.Some? <==> l.player.Some?)
    ensures r.Some? && r.value.player.Some? ==> Settled(r.value.player.value)
  {
    var l1 := UpdateActors(l, keys, now);
    var l3 := CollideAndCoyote(l1, draws);
    AfterCollisions(l3)
  }

  /** Transitions, tutorial progress and camera: none of them moves the
      player or touches its jump bookkeeping. */
  function AfterCollisions(l: Level): (r: Option<Level>)
    requires |l.grid| > 0
    ensures r.None? <==> l.player.None? && l.stage == FireSection
    ensures r.Some? ==> |r.value.grid| > 0 && (r.value.player.Some? <==> l.player.Some?)
    ensures r.Some? && r.value.player.Some? ==>
              r.value.player.value.body == l.player.value.body && r.value.player.value.jump == l.player.value.jump
  {
    var l4 := CheckTransitions(l);
    match CheckTutorialProgress(l4)
    case None => None
    case Some(l5) => Some(UpdateCamera(l5))
  }

  /** The player's kinematic part of a frame. */
  function PlayerFrame(p: P.Player, ts: seq<Tile>, keys: P.Keys, now: int): P.Player {
    P.UpdateCoyoteTime(C.ResolveTiles(P.Update(p, keys, now), ts))
  }

  /** A ground jump leaves the player airborne with a full coyote window:
      `update_coyote_time` sees grounded-last-frame and airborne-now and
      re-arms the timer, so a second jump is available in mid-air for
      COYOTE_TIME frames. */
  lemma CoyoteRearmedAfterGroundJump(p: P.Player, ts: seq<Tile>, keys: P.Keys, now: int)
    requires p.body.onGround && p.jump.wasOnGround && !p.jump.jumpPressed
    requires keys.jump && P.NoActions(keys)
    ensures !PlayerFrame(p, ts, keys, now).body.onGround
    ensures PlayerFrame(p, ts, keys, now).jump.coyoteTimer == S.COYOTE_TIME
  {
    P.GroundJumpFromRest(p, keys, now);
    var u := P.Update(p, keys, now);
    assert u.body.vy == P.MIN_JUMP_SPEED;
    C.RisingNeverLands(u, ts);
  }
}

=== FILE: level_actors.dfy ===
/** The two non-player actors of the legacy level (level.py): the patrolling
    `SimpleEnemy` and the `TutorialBoss`, which reverses on a timer. */
module LevelActors {
  import opened Geometry

  const ENEMY_SIZE: int := 32
  const ENEMY_SPEED: int := 2
  const PATROL_DISTANCE: int := 100
  const ENEMY_HEALTH: int := 75

  datatype SimpleEnemy = SimpleEnemy(
    rect: Rect, speed: int, direction: int, startX: int, patrolDistance: int, health: int)

  /** An enemy with its top-left corner at (x, y), walking right. */
  function NewSimpleEnemy(x: int, y: int): (e: SimpleEnemy)
    ensures e.rect == Rect(x, y, ENEMY_SIZE, ENEMY_SIZE) && e.startX == x
    ensures e.direction == 1 && e.health == ENEMY_HEALTH
  {
    SimpleEnemy(Rect(x, y, ENEMY_SIZE, ENEMY_SIZE), ENEMY_SPEED, 1, x, PATROL_DISTANCE, ENEMY_HEALTH)
  }

  /** Step, then head right at the left turning point and left at the
      right one (the direction is set, not flipped). */
  function UpdateEnemy(e: SimpleEnemy): (r: SimpleEnemy)
    ensures r.rect == e.rect.(x := e.rect.x + e.speed * e.direction)
    ensures r.rect.x <= e.startX - e.patrolDistance ==> r.direction == 1
    ensures e.startX - e.patrolDistance < r.rect.x && r.rect.x >= e.startX + e.patrolDistance ==> r.direction == -1
    ensures e.startX - e.patrolDistance < r.rect.x < e.startX + e.patrolDistance ==> r.direction == e.direction
    ensures r.startX == e.startX && r.patrolDistance == e.patrolDistance && r.speed == e.speed
    ensures r.health == e.health
  {
    var moved := e.rect.(x := e.rect.x + e.speed * e.direction);
    var d := if moved.x <= e.startX - e.patrolDistance then 1
             else if moved.x >= e.startX + e.patrolDistance then -1
             else e.direction;
    e.(rect := moved, direction := d)
  }

  /** Reachable patrol states: the enemy stays within `patrol_distance` of
      its start column on an even offset, walking in direction +1 or -1,
      and at either end it faces back inside. */
  predicate Patrolling(e: SimpleEnemy) {
    && e.speed == ENEMY_SPEED && e.patrolDistance == PATROL_DISTANCE
    && (e.direction == 1 || e.direction == -1)
    && e.startX - e.patrolDistance <= e.rect.x <= e.startX + e.patrolDistance
    && (e.rect.x - e.startX) % 2 == 0
    && (e.rect.x == e.startX - e.patrolDistance ==> e.direction == 1)
    && (e.rect.x == e.startX + e.patrolDistance ==> e.direction == -1)
  }

  lemma NewEnemyPatrolling(x: int, y: int)
    ensures Patrolling(NewSimpleEnemy(x, y))
  {
  }

  lemma UpdateKeepsPatrolling(e: SimpleEnemy)
    requires Patrolling(e)
    ensures Patrolling(UpdateEnemy(e))
  {
  }

  const BOSS_SIZE: int := 64
  const BOSS_HEALTH: int := 200
  const BOSS_SPEED: int := 1
  /** Frames between two reversals. */
  const BOSS_ATTACK_COOLDOWN: int := 120

  datatype Boss = Boss(rect: Rect, health: int, speed: int, direction: int, attackTimer: int)

  /** A boss centred on (cx, cy). */
  function NewBoss(cx: int, cy: int): (b: Boss)
    ensures b.rect.CenterX() == cx && b.rect.CenterY() == cy
    ensures b.rect.w == BOSS_SIZE && b.rect.h == BOSS_SIZE
    ensures b.health == BOSS_HEALTH && b.direction == 1 && b.attackTimer == 0
  {
    Boss(Rect(cx - BOSS_SIZE / 2, cy - BOSS_SIZE / 2, BOSS_SIZE, BOSS_SIZE), BOSS_HEALTH, BOSS_SPEED, 1, 0)
  }

  /** Step, count a frame, and reverse when the count reaches the cooldown. */
  function UpdateBoss(b: Boss): (r: Boss)
    ensures r.rect == b.rect.(x := b.rect.x + b.speed * b.direction)
    ensures b.attackTimer + 1 >= BOSS_ATTACK_COOLDOWN ==> r.direction == -b.direction && r.attackTimer == 0
    ensures b.attackTimer + 1 < BOSS_ATTACK_COOLDOWN ==> r.direction == b.direction && r.attackTimer == b.attackTimer + 1
    ensures r.health == b.health && r.speed == b.speed
  {
    var moved := b.rect.(x := b.rect.x + b.speed * b.direction);
    var t := b.attackTimer + 1;
    if t >= BOSS_ATTACK_COOLDOWN then b.(rect := moved, direction := -b.direction, attackTimer := 0)
    else b.(rect := moved, attackTimer := t)
  }

  /** The boss sweeps back and forth over the 120 pixels to the right of
      its starting column `x0`: its position is determined by the
      direction and the frame counter. */
  predicate Sweeping(b: Boss, x0: int) {
    && b.speed == BOSS_SPEED
    && 0 <= b.attackTimer < BOSS_ATTACK_COOLDOWN
    && (b.direction == 1 ==> b.rect.x == x0 + b.attackTimer)
    && (b.direction == -1 ==> b.rect.x == x0 + BOSS_ATTACK_COOLDOWN - b.attackTimer)
    && (b.direction == 1 || b.direction == -1)
  }

  lemma NewBossSweeping(cx: int, cy: int)
    ensures Sweeping(NewBoss(cx, cy), cx - BOSS_SIZE / 2)
  {
  }

  /** Every update keeps the sweep, so the boss never leaves
      [x0, x0 + 120]. */
  lemma UpdateKeepsSweeping(b: Boss, x0: int)
    requires Sweeping(b, x0)
    ensures Sweeping(UpdateBoss(b), x0)
    ensures x0 <= UpdateBoss(b).rect.x <= x0 + BOSS_ATTACK_COOLDOWN
  {
  }
}

=== FILE: level_collision.dfy ===
/** The tile part of `Level.handle_collisions` (level.py): contact flags
    reset, the horizontal pass, gravity, the vertical pass, the edge probe
    and the special-tile effects. Tiles are visited in list order (the
    row-major load order). The loops have no `break`; the first blocking
    platform still decides the outcome because resolving it zeroes the
    velocity component that every later resolution needs. */
module LegacyCollision {
  import opened Wrappers
  import opened Geometry
  import opened Grid
  import opened LevelSetup
  import P = Player
  import S = Settings

  const EDGE_CHECK_DISTANCE: int := 8
  const EDGE_PROBE_HEIGHT: int := 4
  const LAVA_DAMAGE: real := 0.1

  /** Only platform tiles block movement. */
  predicate Blocks(t: Tile, r: Rect) {
    t.kind == Platform && Collide(r, t.rect)
  }

  /** The first platform, in list order, overlapping `r`. */
  function FirstBlocking(r: Rect, ts: seq<Tile>): (o: Option<Tile>)
    ensures o.None? <==> forall t :: t in ts ==> !Blocks(t, r)
    ensures o.Some? ==> exists i :: 0 <= i < |ts| && ts[i] == o.value && Blocks(ts[i], r)
                          && forall j :: 0 <= j < i ==> !Blocks(ts[j], r)
  {
    if |ts| == 0 then None
    else if Blocks(ts[0], r) then Some(ts[0])
    else
      var o := FirstBlocking(r, ts[1..]);
      assert forall t :: t in ts ==> t == ts[0] || t in ts[1..];
      if o.Some? then
        var i :| 0 <= i < |ts[1..]| && ts[1..][i] == o.value && Blocks(ts[1..][i], r)
                 && forall j :: 0 <= j < i ==> !Blocks(ts[1..][j], r);
        assert forall j :: 0 <= j < i + 1 ==> !Blocks(ts[j], r) by {
          forall j | 0 <= j < i + 1 ensures !Blocks(ts[j], r) {
            if j > 0 { assert ts[j] == ts[1..][j - 1]; }
          }
        }
        o
      else o
  }

  /** Step 0: every contact flag, the energy flag and the edge flag cleared. */
  function ResetContacts(p: P.Player): (r: P.Player)
    ensures !r.body.onGround && !r.body.onCeiling && !r.body.onLeft && !r.body.onRight
    ensures !r.combat.onEnergyTile && !r.jump.atEdge
    ensures r.body == p.body.(onGround := false, onCeiling := false, onLeft := false, onRight := false)
    ensures r.jump == p.jump.(atEdge := false) && r.kit == p.kit
    ensures r.combat == p.combat.(onEnergyTile := false)
  {
    p.(body := p.body.(onGround := false, onCeiling := false, onLeft := false, onRight := false),
       combat := p.combat.(onEnergyTile := false),
       jump := p.jump.(atEdge := false))
  }

  // ---------------------------------------------------------------------
  // Horizontal pass

  /** One iteration of the horizontal loop. */
  function HStep(p: P.Player, t: Tile): (r: P.Player)
    ensures !Blocks(t, p.body.rect) || p.body.vx == 0.0 ==> r == p
    ensures Blocks(t, p.body.rect) && p.body.vx > 0.0 ==>
      r.body.rect.Right() == t.rect.Left() && r.body.onRight && r.body.vx == 0.0
    ensures Blocks(t, p.body.rect) && p.body.vx < 0.0 ==>
      r.body.rect.Left() == t.rect.Right() && r.body.onLeft && r.body.vx == 0.0
    ensures r.body.rect.y == p.body.rect.y && r.body.rect.w == p.body.rect.w && r.body.rect.h == p.body.rect.h
    ensures r.body.vy == p.body.vy && r.body.onGround == p.body.onGround && r.body.onCeiling == p.body.onCeiling
    ensures r.body.facingRight == p.body.facingRight
    ensures r.jump == p.jump && r.combat == p.combat && r.kit == p.kit
  {
    if Blocks(t, p.body.rect) then
      if p.body.vx > 0.0 then
        p.(body := p.body.(rect := SetRight(p.body.rect, t.rect.Left()), onRight := true, vx := 0.0))
      else if p.body.vx < 0.0 then
        p.(body := p.body.(rect := SetLeft(p.body.rect, t.rect.Right()), onLeft := true, vx := 0.0))
      else p
    else p
  }

  /** The horizontal `for tile in self.tiles` loop. Either no tile stops
      the player or the horizontal speed ends at 0; the loop moves the
      player only sideways and touches no vertical state. */
  function HScan(p: P.Player, ts: seq<Tile>): (r: P.Player)
    ensures r == p || r.body.vx == 0.0
    ensures r.body.rect.y == p.body.rect.y && r.body.rect.w == p.body.rect.w && r.body.rect.h == p.body.rect.h
    ensures r.body.vy == p.body.vy && r.body.onGround == p.body.onGround && r.body.onCeiling == p.body.onCeiling
    ensures r.body.facingRight == p.body.facingRight
    ensures r.jump == p.jump && r.combat == p.combat && r.kit == p.kit
    ensures r == p.(body := p.body.(rect := p.body.rect.(x := r.body.rect.x), vx := r.body.vx,
                                    onLeft := r.body.onLeft, onRight := r.body.onRight))
    decreases |ts|
  {
    if |ts| == 0 then p else HScan(HStep(p, ts[0]), ts[1..])
  }

  /** Once the horizontal speed is 0 the loop changes nothing. */
  lemma {:induction false} HScanIdle(p: P.Player, ts: seq<Tile>)
    requires p.body.vx == 0.0
    ensures HScan(p, ts) == p
    decreases |ts|
  {
    if |ts| > 0 {
      HScanIdle(p, ts[1..]);
    }
  }

  /** The player stopped by the first platform in list order that blocks
      it, or left where it is when none does. */
  function HClamp(p: P.Player, ts: seq<Tile>): P.Player {
    match FirstBlocking(p.body.rect, ts)
    case None => p
    case Some(t) => HStep(p, t)
  }

  /** The loop resolves exactly the first blocking platform. */
  lemma {:induction false} HScanIsFirstHit(p: P.Player, ts: seq<Tile>)
    ensures HScan(p, ts) == HClamp(p, ts)
    decreases |ts|
  {
    if |ts| > 0 {
      if Blocks(ts[0], p.body.rect) {
        HScanIdle(HStep(p, ts[0]), ts[1..]);
      } else {
        HScanIsFirstHit(p, ts[1..]);
      }
    }
  }

  /** `self.rect.x += int(self.direction.x)`. */
  function MoveX(p: P.Player): P.Player {
    p.(body := p.body.(rect := p.body.rect.(x := p.body.rect.x + Trunc(p.body.vx))))
  }

  /** Move by `int(direction.x)`, then resolve. */
  function HorizontalPass(p: P.Player, ts: seq<Tile>): (r: P.Player)
    ensures r.body.vy == p.body.vy && r.body.rect.y == p.body.rect.y
    ensures r.body.onGround == p.body.onGround && r.body.onCeiling == p.body.onCeiling
    ensures r.body.facingRight == p.body.facingRight && r.body.rect.h == p.body.rect.h
    ensures r.jump == p.jump && r.combat == p.combat && r.kit == p.kit
    ensures r == HClamp(MoveX(p), ts)
  {
    HScanIsFirstHit(MoveX(p), ts);
    HScan(MoveX(p), ts)
  }

  // ---------------------------------------------------------------------
  // Gravity and the vertical pass

  /** `direction.y += gravity`, capped at the maximum fall speed. */
  function ApplyGravity(p: P.Player): (r: P.Player)
    ensures r.body.vy <= S.MAX_FALL_SPEED
    ensures p.body.vy + S.GRAVITY <= S.MAX_FALL_SPEED ==> r.body.vy == p.body.vy + S.GRAVITY
    ensures p.body.vy + S.GRAVITY > S.MAX_FALL_SPEED ==> r.body.vy == S.MAX_FALL_SPEED
    ensures r == p.(body := p.body.(vy := r.body.vy))
  {
    var v := p.body.vy + S.GRAVITY;
    p.(body := p.body.(vy := if v > S.MAX_FALL_SPEED then S.MAX_FALL_SPEED else v))
  }

  /** One iteration of the vertical loop. */
  function VStep(p: P.Player, t: Tile): (r: P.Player)
    ensures !Blocks(t, p.body.rect) || p.body.vy == 0.0 ==> r == p
    ensures Blocks(t, p.body.rect) && p.body.vy > 0.0 ==>
      r.body.rect.Bottom() == t.rect.Top() && r.body.onGround && r.body.vy == 0.0
      && r.body.onCeiling == p.body.onCeiling
    ensures Blocks(t, p.body.rect) && p.body.vy < 0.0 ==>
      r.body.rect.Top() == t.rect.Bottom() && r.body.onCeiling && r.body.vy == 0.0
      && r.body.onGround == p.body.onGround
    ensures r.body.rect.x == p.body.rect.x && r.body.rect.w == p.body.rect.w && r.body.rect.h == p.body.rect.h
    ensures r.body.vx == p.body.vx && r.body.facingRight == p.body.facingRight
    ensures r.jump == p.jump && r.combat == p.combat && r.kit == p.kit
  {
    if Blocks(t, p.body.rect) then
      if p.body.vy > 0.0 then
        p.(body := p.body.(rect := SetBottom(p.body.rect, t.rect.Top()), onGround := true, vy := 0.0))
      else if p.body.vy < 0.0 then
        p.(body := p.body.(rect := SetTop(p.body.rect, t.rect.Bottom()), onCeiling := true, vy := 0.0))
      else p
    else p
  }

  /** The vertical `for tile in self.tiles` loop. Either no tile stops
      the player or the vertical speed ends at 0; the loop moves the player
      only up or down and touches no horizontal state. */
  function VScan(p: P.Player, ts: seq<Tile>): (r: P.Player)
    ensures r == p || r.body.vy == 0.0
    ensures r.body.rect.x == p.body.rect.x && r.body.rect.w == p.body.rect.w && r.body.rect.h == p.body.rect.h
    ensures r.body.vx == p.body.vx && r.body.facingRight == p.body.facingRight
    ensures r.jump == p.jump && r.combat == p.combat && r.kit == p.kit
    ensures r == p.(body := p.body.(rect := p.body.rect.(y := r.body.rect.y), vy := r.body.vy,
                                    onGround := r.body.onGround, onCeiling := r.body.onCeiling))
    decreases |ts|
  {
    if |ts| == 0 then p else VScan(VStep(p, ts[0]), ts[1..])
  }

  lemma {:induction false} VScanIdle(p: P.Player, ts: seq<Tile>)
    requires p.body.vy == 0.0
    ensures VScan(p, ts) == p
    decreases |ts|
  {
    if |ts| > 0 {
      VScanIdle(p, ts[1..]);
    }
  }

  /** The player stopped by the first platform in list order that blocks
      it vertically, or left where it is when none does. */
  function VClamp(p: P.Player, ts: seq<Tile>): P.Player {
    match FirstBlocking(p.body.rect, ts)
    case None => p
    case Some(t) => VStep(p, t)
  }

  /** The vertical loop resolves exactly the first blocking platform. */
  lemma {:induction false} VScanIsFirstHit(p: P.Player, ts: seq<Tile>)
    ensures VScan(p, ts) == VClamp(p, ts)
    decreases |ts|
  {
    if |ts| > 0 {
      if Blocks(ts[0], p.body.rect) {
        VScanIdle(VStep(p, ts[0]), ts[1..]);
      } else {
        VScanIsFirstHit(p, ts[1..]);
      }
    }
  }

  /** `self.rect.y += int(self.direction.y)`. */
  function MoveY(p: P.Player): P.Player {
    p.(body := p.body.(rect := p.body.rect.(y := p.body.rect.y + Trunc(p.body.vy))))
  }

  /** Gravity, move by `int(direction.y)`, then resolve. Landing and
      bumping the head exclude each other when both flags start clear. */
  function VerticalPass(p: P.Player, ts: seq<Tile>): (r: P.Player)
    ensures !p.body.onGround && !p.body.onCeiling ==> !(r.body.onGround && r.body.onCeiling)
    ensures r.body.onGround && !p.body.onGround ==> r.body.vy == 0.0
    ensures r.body.vx == p.body.vx && r.body.rect.x == p.body.rect.x
    ensures r.body.facingRight == p.body.facingRight && r.body.rect.w == p.body.rect.w
    ensures r.jump == p.jump && r.combat == p.combat && r.kit == p.kit
    ensures r == VClamp(MoveY(ApplyGravity(p)), ts)
  {
    var moved := MoveY(ApplyGravity(p));
    VScanIsFirstHit(moved, ts);
    VScan(moved, ts)
  }

  // ---------------------------------------------------------------------
  // Edge probe and special tiles

  /** An 8x4 box at the feet, just beyond the side the player faces. */
  function EdgeProbe(p: P.Player): (r: Rect)
    ensures r.w == EDGE_CHECK_DISTANCE && r.h == EDGE_PROBE_HEIGHT
    ensures r.y == p.body.rect.Bottom() - 2
    ensures p.body.facingRight ==> r.Left() == p.body.rect.Right()
    ensures !p.body.facingRight ==> r.Right() == p.body.rect.Left()
  {
    if p.body.facingRight then
      Rect(p.body.rect.Right(), p.body.rect.Bottom() - 2, EDGE_CHECK_DISTANCE, EDGE_PROBE_HEIGHT)
    else
      Rect(p.body.rect.Left() - EDGE_CHECK_DISTANCE, p.body.rect.Bottom() - 2, EDGE_CHECK_DISTANCE, EDGE_PROBE_HEIGHT)
  }

  /** Only when grounded: at an edge iff no platform overlaps the probe. */
  function DetectEdge(p: P.Player, ts: seq<Tile>): (r: P.Player)
    ensures p.body.onGround ==> (r.jump.atEdge <==> forall t :: t in ts ==> !Blocks(t, EdgeProbe(p)))
    ensures !p.body.onGround ==> r == p
    ensures r.body == p.body && r.combat == p.combat && r.kit == p.kit
    ensures r.jump == p.jump.(atEdge := r.jump.atEdge)
  {
    if p.body.onGround then p.(jump := p.jump.(atEdge := FirstBlocking(EdgeProbe(p), ts).None?))
    else p
  }

  /** Lava tiles overlapping `r`, in list order. */
  function LavaUnder(r: Rect, ts: seq<Tile>): seq<Tile> {
    Collect(ts, (t: Tile) => if t.kind == Lava && Collide(r, t.rect) then Some(t) else None)
  }

  /** The special-tile loop: 0.1 damage per overlapped lava tile, and the
      energy flag when any energy tile is overlapped. Any tile kind is
      examined; only lava and energy have an effect. */
  function TileEffects(p: P.Player, ts: seq<Tile>): (r: P.Player)
    ensures r.combat.health == p.combat.health - LAVA_DAMAGE * (|LavaUnder(p.body.rect, ts)| as real)
    ensures r.combat.onEnergyTile <==>
      p.combat.onEnergyTile || exists t :: t in ts && t.kind == EnergyTile && Collide(p.body.rect, t.rect)
    ensures r.body == p.body && r.jump == p.jump && r.kit == p.kit
    ensures r.combat == p.combat.(health := r.combat.health, onEnergyTile := r.combat.onEnergyTile)
    decreases |ts|
  {
    if |ts| == 0 then p
    else
      var front := ts[..|ts| - 1];
      var t := ts[|ts| - 1];
      var q := TileEffects(p, front);
      assert forall u :: u in ts <==> u in front || u == t;
      if Collide(q.body.rect, t.rect) && t.kind == Lava then
        q.(combat := q.combat.(health := q.combat.health - LAVA_DAMAGE))
      else if Collide(q.body.rect, t.rect) && t.kind == EnergyTile then
        q.(combat := q.combat.(onEnergyTile := true))
      else q
  }

  /** Steps 0-2 of `handle_collisions`: clear the contacts, then the
      horizontal and the vertical pass. The player never ends on floor and
      ceiling at once, lands only at rest and is not yet at an edge. */
  function Settle(p: P.Player, ts: seq<Tile>): (r: P.Player)
    ensures !(r.body.onGround && r.body.onCeiling) && !r.jump.atEdge
    ensures r.body.onGround ==> r.body.vy == 0.0
    ensures r.kit == p.kit && r.jump == p.jump.(atEdge := false)
    ensures r.combat == p.combat.(onEnergyTile := false)
  {
    VerticalPass(HorizontalPass(ResetContacts(p), ts), ts)
  }

  /** Step 3 of `handle_collisions`: edge detection, then the special-tile
      loop, on an already settled player. */
  function EdgeAndEffects(p: P.Player, ts: seq<Tile>): (r: P.Player)
    ensures r.body == p.body
    ensures r.jump.atEdge ==> r.body.onGround || p.jump.atEdge
    ensures r.body.onGround ==> (r.jump.atEdge <==> forall t :: t in ts ==> !Blocks(t, EdgeProbe(r)))
    ensures r.kit == p.kit && r.jump == p.jump.(atEdge := r.jump.atEdge)
    ensures r.combat == p.combat.(health := r.combat.health, onEnergyTile := r.combat.onEnergyTile)
  {
    TileEffects(DetectEdge(p, ts), ts)
  }

  /** Steps 0-3 of `handle_collisions` for the player. */
  function ResolveTiles(p: P.Player, ts: seq<Tile>): (r: P.Player)
    ensures !(r.body.onGround && r.body.onCeiling)
    ensures r.jump.atEdge ==> r.body.onGround
    ensures r.body.onGround ==> (r.jump.atEdge <==> forall t :: t in ts ==> !Blocks(t, EdgeProbe(r)))
    ensures r.body.onGround ==> r.body.vy == 0.0
    ensures r.kit == p.kit && r.jump == p.jump.(atEdge := r.jump.atEdge)
    ensures r.combat == p.combat.(health := r.combat.health, onEnergyTile := r.combat.onEnergyTile)
  {
    EdgeAndEffects(Settle(p, ts), ts)
  }

  /** Only a falling body lands: after a frame that starts moving up
      (including the frame of a jump) the player is not grounded. */
  lemma RisingNeverLands(p: P.Player, ts: seq<Tile>)
    requires p.body.vy + S.GRAVITY < 0.0
    ensures !ResolveTiles(p, ts).body.onGround
  {
    var p1 := HorizontalPass(ResetContacts(p), ts);
    RisingVerticalPass(p1, ts);
    var p2 := VerticalPass(p1, ts);
    assert Settle(p, ts) == p2;
    assert ResolveTiles(p, ts).body.onGround == p2.body.onGround;
  }

  lemma RisingVerticalPass(p: P.Player, ts: seq<Tile>)
    requires !p.body.onGround && p.body.vy + S.GRAVITY < 0.0
    ensures !VerticalPass(p, ts).body.onGround
  {
    var g := ApplyGravity(p);
    var moved := g.(body := g.body.(rect := g.body.rect.(y := g.body.rect.y + Trunc(g.body.vy))));
    VScanIsFirstHit(moved, ts);
  }

  /** A player at rest exactly on top of a platform is not grounded in that
      frame: gravity adds 0.8, `int(0.8)` is 0, the rect does not move and
      the touching platform does not collide. The next frame moves it one
      pixel into the platform and lands it again, so `on_ground` alternates
      while standing still. */
  lemma RestingContactNotGrounded(p: P.Player, ts: seq<Tile>)
    requires p.body.vx == 0.0 && p.body.vy == 0.0
    requires forall t :: t in ts ==> !Blocks(t, p.body.rect)
    ensures var r := ResolveTiles(p, ts);
      !r.body.onGround && r.body.vy == S.GRAVITY && r.body.rect == p.body.rect
  {
    var p0 := ResetContacts(p);
    HScanIsFirstHit(p0, ts);
    var p1 := HorizontalPass(p0, ts);
    assert p1 == p0;
    var g := ApplyGravity(p1);
    assert Trunc(g.body.vy) == 0;
    assert g.body.rect == p.body.rect;
    VScanIsFirstHit(g, ts);
    var p2 := VerticalPass(p1, ts);
    assert p2 == g;
    var p3 := DetectEdge(p2, ts);
    assert p3.body == g.body;
  }
}

=== FILE: level_setup.dfy ===
/** `Level.setup_level` (level.py): the layout grid read in row-major order
    into tiles, enemies, collectibles, the boss, the transition point and
    the player's spawn, with the spawn moved onto the platform below. */
module LevelSetup {
  import opened Wrappers
  import opened Geometry
  import opened Grid
  import S = Settings
  import A = LevelActors
  import P = Player

  datatype TileKind = Platform | Lava | WindArea | EnergyTile

  datatype Tile = Tile(rect: Rect, kind: TileKind)

  datatype Item = Fragment(region: string) | AbilityOrb

  datatype Collectible = Collectible(rect: Rect, item: Item)

  const ITEM_SIZE: int := 24

  /** The tile square of a cell. */
  function CellRect(c: Cell): (r: Rect)
    ensures r.w == S.TILE_SIZE && r.h == S.TILE_SIZE
    ensures r.x == c.col * S.TILE_SIZE && r.y == c.row * S.TILE_SIZE
  {
    Rect(c.col * S.TILE_SIZE, c.row * S.TILE_SIZE, S.TILE_SIZE, S.TILE_SIZE)
  }

  /** One coordinate lies in the band of tile `k` exactly when floor
      division by the tile size gives `k`. */
  lemma {:induction false} TileBand(p: int, k: int)
    ensures k * S.TILE_SIZE <= p < k * S.TILE_SIZE + S.TILE_SIZE <==> p / S.TILE_SIZE == k
  {
    var q, m := p / 64, p % 64;
    assert p == 64 * q + m && 0 <= m < 64;
    assert q < k ==> 64 * q + 64 <= 64 * k;
    assert q > k ==> 64 * k + 64 <= 64 * q;
  }

  /** A point lies in a cell's tile square exactly when its floor division
      by the tile size names that cell: the squares tile the plane. */
  lemma CellRectCoversCell(c: Cell, px: int, py: int)
    ensures ContainsPoint(CellRect(c), px, py) <==>
      px / S.TILE_SIZE == c.col && py / S.TILE_SIZE == c.row
  {
    TileBand(px, c.col);
    TileBand(py, c.row);
  }

  function KindOf(ch: char): (k: Option<TileKind>)
    ensures k.Some? <==> ch in {'X', 'L', 'W', 'N'}
  {
    match ch
    case 'X' => Some(Platform)
    case 'L' => Some(Lava)
    case 'W' => Some(WindArea)
    case 'N' => Some(EnergyTile)
    case _ => None
  }

  function TileOf(c: Cell): Option<Tile> {
    match KindOf(c.ch)
    case Some(k) => Some(Tile(CellRect(c), k))
    case None => None
  }

  /** Row-major order on tile positions. */
  predicate RowMajor(a: Tile, b: Tile) {
    a.rect.y < b.rect.y || (a.rect.y == b.rect.y && a.rect.x < b.rect.x)
  }

  /** `t` is the tile some cell of the grid produces. */
  predicate FromGrid(grid: seq<string>, t: Tile) {
    && t.rect.w == S.TILE_SIZE && t.rect.h == S.TILE_SIZE
    && t.rect.x >= 0 && t.rect.y >= 0
    && t.rect.x % S.TILE_SIZE == 0 && t.rect.y % S.TILE_SIZE == 0
    && t.rect.y / S.TILE_SIZE < |grid|
    && t.rect.x / S.TILE_SIZE < |grid[t.rect.y / S.TILE_SIZE]|
    && KindOf(grid[t.rect.y / S.TILE_SIZE][t.rect.x / S.TILE_SIZE]) == Some(t.kind)
  }

  /** One tile per X/L/W/N cell, at (col*64, row*64), and nothing else,
      in row-major order. */
  function Tiles(grid: seq<string>): (ts: seq<Tile>)
    ensures forall t :: t in ts ==> FromGrid(grid, t)
    ensures forall r, c :: 0 <= r < |grid| && 0 <= c < |grid[r]| && KindOf(grid[r][c]).Some? ==>
      Tile(Rect(c * S.TILE_SIZE, r * S.TILE_SIZE, S.TILE_SIZE, S.TILE_SIZE), KindOf(grid[r][c]).value) in ts
    ensures SortedBy(ts, RowMajor)
  {
    var cs := GridCells(grid);
    var ts := Collect(cs, TileOf);
    CollectSorted(cs, TileOf, Before, RowMajor);
    forall r, c | 0 <= r < |grid| && 0 <= c < |grid[r]| && KindOf(grid[r][c]).Some?
      ensures Tile(Rect(c * S.TILE_SIZE, r * S.TILE_SIZE, S.TILE_SIZE, S.TILE_SIZE), KindOf(grid[r][c]).value) in ts
    {
      assert InGrid(grid, Cell(r, c, grid[r][c]));
    }
    forall t | t in ts
      ensures FromGrid(grid, t)
    {
      var cell :| cell in cs && TileOf(cell) == Some(t);
      assert t.rect.x / S.TILE_SIZE == cell.col;
      assert t.rect.y / S.TILE_SIZE == cell.row;
    }
    ts
  }

  function EnemyOf(c: Cell): Option<A.SimpleEnemy> {
    if c.ch == 'E' then Some(A.NewSimpleEnemy(c.col * S.TILE_SIZE, c.row * S.TILE_SIZE)) else None
  }

  /** A 24x24 item centred in the cell. */
  function ItemRect(c: Cell): (r: Rect)
    ensures r.CenterX() == CellRect(c).CenterX() && r.CenterY() == CellRect(c).CenterY()
    ensures r.w == ITEM_SIZE && r.h == ITEM_SIZE
  {
    var cx := c.col * S.TILE_SIZE + S.TILE_SIZE / 2;
    var cy := c.row * S.TILE_SIZE + S.TILE_SIZE / 2;
    Rect(cx - ITEM_SIZE / 2, cy - ITEM_SIZE / 2, ITEM_SIZE, ITEM_SIZE)
  }

  /** Fragments carry the level's region at load time. */
  function CollectibleOf(region: string): Cell -> Option<Collectible> {
    (c: Cell) => if c.ch == 'F' then Some(Collectible(ItemRect(c), Fragment(region)))
         else if c.ch == 'A' then Some(Collectible(ItemRect(c), AbilityOrb))
         else None
  }

  function BossOf(c: Cell): Option<A.Boss> {
    if c.ch == 'B' then Some(A.NewBoss(c.col * S.TILE_SIZE + S.TILE_SIZE / 2, c.row * S.TILE_SIZE + S.TILE_SIZE / 2))
    else None
  }

  /** The top-left corner of a cell holding `ch`. */
  function MarkerOf(ch: char): Cell -> Option<(int, int)> {
    (c: Cell) => if c.ch == ch then Some((c.col * S.TILE_SIZE, c.row * S.TILE_SIZE)) else None
  }

  /** The first platform tile, in list order, containing the point. */
  function PlatformAt(ts: seq<Tile>, px: int, py: int): (r: Option<Tile>)
    ensures r.Some? ==> r.value in ts && r.value.kind == Platform && ContainsPoint(r.value.rect, px, py)
    ensures r.None? <==> forall t :: t in ts ==> !(t.kind == Platform && ContainsPoint(t.rect, px, py))
  {
    if |ts| == 0 then None
    else if ts[0].kind == Platform && ContainsPoint(ts[0].rect, px, py) then Some(ts[0])
    else PlatformAt(ts[1..], px, py)
  }

  /** Where the player is created for a `P` cell at (px, py): standing on
      the platform whose square contains the point just below the cell's
      bottom-centre, or at the cell itself when there is none. */
  function SpawnPosition(ts: seq<Tile>, px: int, py: int): (pos: (int, int))
    ensures PlatformAt(ts, px + S.TILE_SIZE / 2, py + S.TILE_SIZE).Some? ==>
      var t := PlatformAt(ts, px + S.TILE_SIZE / 2, py + S.TILE_SIZE).value;
      pos.0 + P.WIDTH / 2 == t.rect.CenterX() && pos.1 + P.HEIGHT == t.rect.Top()
    ensures PlatformAt(ts, px + S.TILE_SIZE / 2, py + S.TILE_SIZE).None? ==> pos == (px, py)
  {
    match PlatformAt(ts, px + S.TILE_SIZE / 2, py + S.TILE_SIZE)
    case Some(t) => (t.rect.CenterX() - 16, t.rect.Top() - 48)
    case None => (px, py)
  }

  datatype Layout = Layout(
    tiles: seq<Tile>,
    enemies: seq<A.SimpleEnemy>,
    collectibles: seq<Collectible>,
    boss: Option<A.Boss>,
    transition: Option<(int, int)>,
    player: Option<P.Player>)

  /** `setup_level`. The last P, B and T cell wins; the collectibles and
      the transition point are described by `Collectibles` and
      `TransitionPoint`. */
  function SetupLevel(grid: seq<string>, region: string): (l: Layout)
    ensures l.tiles == Tiles(grid)
    ensures forall e :: e in l.enemies <==> exists c :: c in GridCells(grid) && EnemyOf(c) == Some(e)
    ensures l.enemies == Collect(GridCells(grid), EnemyOf)
    ensures l.boss.Some? <==> exists r, c :: 0 <= r < |grid| && 0 <= c < |grid[r]| && grid[r][c] == 'B'
    ensures l.player.Some? <==> exists r, c :: 0 <= r < |grid| && 0 <= c < |grid[r]| && grid[r][c] == 'P'
    ensures l.player.Some? ==> l.player.value.kit.currentRegion == Some(region)
    ensures l.collectibles == Collectibles(grid, region)
    ensures l.transition == TransitionPoint(grid)
    ensures l.player.Some? ==> exists i :: PlacedAtCell(grid, l.tiles, l.player.value, i)
  {
    var cs := GridCells(grid);
    var ts := Tiles(grid);
    var boss := LastOf(cs, BossOf);
    LastOfCharIff(grid, 'B', BossOf);
    Layout(ts, Collect(cs, EnemyOf), Collectibles(grid, region), boss, TransitionPoint(grid),
           PlayerAtSpawn(grid, ts, region))
  }

  /** The player stands where `SpawnPosition` puts it for cell `i`, the
      last P cell of the layout. */
  predicate PlacedAtCell(grid: seq<string>, ts: seq<Tile>, q: P.Player, i: int) {
    && LastCharAt(grid, 'P', i)
    && var c := GridCells(grid)[i];
       var pos := SpawnPosition(ts, c.col * S.TILE_SIZE, c.row * S.TILE_SIZE);
       q.body.rect == Rect(pos.0, pos.1, P.WIDTH, P.HEIGHT)
  }

  /** The spawn part of `setup_level`: a player exactly when the layout
      has a P cell, placed for the last one and set to the region. */
  function PlayerAtSpawn(grid: seq<string>, ts: seq<Tile>, region: string): (p: Option<P.Player>)
    ensures p.Some? <==> exists r, c :: 0 <= r < |grid| && 0 <= c < |grid[r]| && grid[r][c] == 'P'
    ensures p.Some? ==> p.value.kit.currentRegion == Some(region)
    ensures p.Some? ==> exists i :: PlacedAtCell(grid, ts, p.value, i)
  {
    LastOfCharIff(grid, 'P', MarkerOf('P'));
    SpawnAtLastMarker(grid, ts, region);
    SpawnPlayer(LastOf(GridCells(grid), MarkerOf('P')), ts, region)
  }

  /** The player made at the last P marker stands where `SpawnPosition`
      puts it for that cell. */
  lemma SpawnAtLastMarker(grid: seq<string>, ts: seq<Tile>, region: string)
    ensures var p := SpawnPlayer(LastOf(GridCells(grid), MarkerOf('P')), ts, region);
            p.Some? ==> exists i :: PlacedAtCell(grid, ts, p.value, i)
  {
    var cs := GridCells(grid);
    var spawn := LastOf(cs, MarkerOf('P'));
    if spawn.Some? {
      LastMarkerCell(grid, 'P');
      var i :| LastCharAt(grid, 'P', i) && spawn.value == (cs[i].col * S.TILE_SIZE, cs[i].row * S.TILE_SIZE);
      assert PlacedAtCell(grid, ts, SpawnPlayer(spawn, ts, region).value, i);
    }
  }

  /** The fragments and orbs of the layout, in row-major order: a fragment
      of the level's region for every F cell and an ability orb for every
      A cell, each centred in its cell. */
  function Collectibles(grid: seq<string>, region: string): (items: seq<Collectible>)
    ensures forall it :: it in items <==>
      exists c :: c in GridCells(grid)
        && ((c.ch == 'F' && it == Collectible(ItemRect(c), Fragment(region)))
            || (c.ch == 'A' && it == Collectible(ItemRect(c), AbilityOrb)))
    ensures items == Collect(GridCells(grid), CollectibleOf(region))
  {
    var cs := GridCells(grid);
    var f := CollectibleOf(region);
    assert forall c :: c in cs && c.ch == 'F' ==> f(c) == Some(Collectible(ItemRect(c), Fragment(region)));
    assert forall c :: c in cs && c.ch == 'A' ==> f(c) == Some(Collectible(ItemRect(c), AbilityOrb));
    Collect(cs, f)
  }

  /** The transition point: the top-left corner of the last T cell, and
      present exactly when the layout holds a T. */
  function TransitionPoint(grid: seq<string>): (t: Option<(int, int)>)
    ensures t.Some? <==> exists r, c :: 0 <= r < |grid| && 0 <= c < |grid[r]| && grid[r][c] == 'T'
    ensures t.Some? ==>
      exists c :: c in GridCells(grid) && c.ch == 'T' && t.value == (c.col * S.TILE_SIZE, c.row * S.TILE_SIZE)
  {
    LastOfCharIff(grid, 'T', MarkerOf('T'));
    LastOf(GridCells(grid), MarkerOf('T'))
  }

  /** The player made at the spawn marker, if any, set to the level's
      region. */
  function SpawnPlayer(spawn: Option<(int, int)>, ts: seq<Tile>, region: string): (p: Option<P.Player>)
    ensures p.Some? <==> spawn.Some?
    ensures p.Some? ==> p.value.kit.currentRegion == Some(region)
    ensures p.Some? ==>
      var pos := SpawnPosition(ts, spawn.value.0, spawn.value.1);
      p.value.body.rect == Rect(pos.0, pos.1, P.WIDTH, P.HEIGHT)
  {
    match spawn
    case Some(s) =>
      var pos := SpawnPosition(ts, s.0, s.1);
      Some(P.SetRegion(P.NewPlayer(pos.0, pos.1), Some(region)))
    case None => None
  }

  /** Cell `i` of the row-major walk is the last cell holding `ch`. */
  predicate LastCharAt(grid: seq<string>, ch: char, i: int) {
    && 0 <= i < |GridCells(grid)| && GridCells(grid)[i].ch == ch
    && forall j :: i < j < |GridCells(grid)| ==> GridCells(grid)[j].ch != ch
  }

  /** A found marker is the top-left corner of the last cell holding it. */
  lemma LastMarkerCell(grid: seq<string>, ch: char)
    ensures LastOf(GridCells(grid), MarkerOf(ch)).Some? ==>
      exists i :: (&& LastCharAt(grid, ch, i)
                   && LastOf(GridCells(grid), MarkerOf(ch)).value
                      == (GridCells(grid)[i].col * S.TILE_SIZE, GridCells(grid)[i].row * S.TILE_SIZE))
  {
    var cs := GridCells(grid);
    var f := MarkerOf(ch);
    if LastOf(cs, f).None? { return; }
    var i :| 0 <= i < |cs| && f(cs[i]) == LastOf(cs, f) && forall j :: i < j < |cs| ==> f(cs[j]).None?;
    forall j | i < j < |cs|
      ensures cs[j].ch != ch
    {
      assert f(cs[j]).None?;
    }
    assert LastCharAt(grid, ch, i);
  }

  /** A marker function fires exactly on cells holding `ch`; then its last
      match exists iff the grid holds `ch` somewhere. */
  lemma LastOfCharIff<B>(grid: seq<string>, ch: char, f: Cell -> Option<B>)
    requires forall c: Cell :: f(c).Some? <==> c.ch == ch
    ensures LastOf(GridCells(grid), f).Some? <==>
      exists r, c :: 0 <= r < |grid| && 0 <= c < |grid[r]| && grid[r][c] == ch
  {
    var cs := GridCells(grid);
    if exists r, c :: 0 <= r < |grid| && 0 <= c < |grid[r]| && grid[r][c] == ch {
      var r, c :| 0 <= r < |grid| && 0 <= c < |grid[r]| && grid[r][c] == ch;
      assert InGrid(grid, Cell(r, c, ch));
      assert Cell(r, c, ch) in cs;
    }
  }

  /** A multiple of 64 whose 64-wide span contains a point of cell `k`'s
      span is the start of cell `k`. */
  lemma AlignedSpan(x: int, p: int, k: int)
    requires x % S.TILE_SIZE == 0 && x <= p < x + S.TILE_SIZE
    requires k * S.TILE_SIZE <= p < k * S.TILE_SIZE + S.TILE_SIZE
    ensures x == k * S.TILE_SIZE
  {
    var q := x / S.TILE_SIZE;
    assert x == q * S.TILE_SIZE;
  }

  /** The only tile square containing the point below a cell's
      bottom-centre is the square of the cell below it. */
  lemma PlatformBelowIsCellBelow(grid: seq<string>, r: nat, c: nat, t: Tile)
    requires FromGrid(grid, t)
    requires ContainsPoint(t.rect, c * S.TILE_SIZE + S.TILE_SIZE / 2, r * S.TILE_SIZE + S.TILE_SIZE)
    ensures t.rect == Rect(c * S.TILE_SIZE, (r + 1) * S.TILE_SIZE, S.TILE_SIZE, S.TILE_SIZE)
    ensures t.rect.y / S.TILE_SIZE == r + 1 && t.rect.x / S.TILE_SIZE == c
  {
    AlignedSpan(t.rect.x, c * S.TILE_SIZE + S.TILE_SIZE / 2, c);
    AlignedSpan(t.rect.y, r * S.TILE_SIZE + S.TILE_SIZE, r + 1);
  }

  /** With a platform cell directly below the `P` cell, the player stands on
      it: feet on the tile's top edge, centred on its column. */
  lemma SpawnOnPlatformBelow(grid: seq<string>, r: nat, c: nat)
    requires r + 1 < |grid| && c < |grid[r + 1]| && grid[r + 1][c] == 'X'
    ensures SpawnPosition(Tiles(grid), c * S.TILE_SIZE, r * S.TILE_SIZE)
         == (c * S.TILE_SIZE + S.TILE_SIZE / 2 - P.WIDTH / 2, (r + 1) * S.TILE_SIZE - P.HEIGHT)
  {
    var ts := Tiles(grid);
    var below := Tile(Rect(c * S.TILE_SIZE, (r + 1) * S.TILE_SIZE, S.TILE_SIZE, S.TILE_SIZE), Platform);
    assert KindOf(grid[r + 1][c]) == Some(Platform);
    assert below in ts;
    SpawnAtCell(grid, ts, r, c, below);
  }

  lemma SpawnAtCell(grid: seq<string>, ts: seq<Tile>, r: nat, c: nat, below: Tile)
    requires forall t :: t in ts ==> FromGrid(grid, t)
    requires below in ts && below == Tile(Rect(c * S.TILE_SIZE, (r + 1) * S.TILE_SIZE, S.TILE_SIZE, S.TILE_SIZE), Platform)
    ensures SpawnPosition(ts, c * S.TILE_SIZE, r * S.TILE_SIZE)
         == (c * S.TILE_SIZE + S.TILE_SIZE / 2 - P.WIDTH / 2, (r + 1) * S.TILE_SIZE - P.HEIGHT)
  {
    var px, py := c * S.TILE_SIZE + S.TILE_SIZE / 2, r * S.TILE_SIZE + S.TILE_SIZE;
    assert ContainsPoint(below.rect, px, py);
    var found := PlatformAt(ts, px, py);
    PlatformBelowIsCellBelow(grid, r, c, found.value);
  }

  /** Without a platform below, the player is created at the `P` cell. */
  lemma SpawnInAirWithoutPlatform(grid: seq<string>, r: nat, c: nat)
    requires !(r + 1 < |grid| && c < |grid[r + 1]| && grid[r + 1][c] == 'X')
    ensures SpawnPosition(Tiles(grid), c * S.TILE_SIZE, r * S.TILE_SIZE) == (c * S.TILE_SIZE, r * S.TILE_SIZE)
  {
    NoPlatformBelow(grid, Tiles(grid), r, c);
  }

  lemma NoPlatformBelow(grid: seq<string>, ts: seq<Tile>, r: nat, c: nat)
    requires forall t :: t in ts ==> FromGrid(grid, t)
    requires !(r + 1 < |grid| && c < |grid[r + 1]| && grid[r + 1][c] == 'X')
    ensures SpawnPosition(ts, c * S.TILE_SIZE, r * S.TILE_SIZE) == (c * S.TILE_SIZE, r * S.TILE_SIZE)
  {
    var px, py := c * S.TILE_SIZE + S.TILE_SIZE / 2, r * S.TILE_SIZE + S.TILE_SIZE;
    if PlatformAt(ts, px, py).Some? {
      var t := PlatformAt(ts, px, py).value;
      PlatformBelowIsCellBelow(grid, r, c, t);
      assert false;
    }
  }
}

=== FILE: lists.dfy ===
/** Python list operations shared by several modules: `in`-guarded append,
    `list.index` and `list.remove`. */
module Lists {

  predicate NoDup<T(==)>(s: seq<T>) {
    forall i, j :: 0 <= i < j < |s| ==> s[i] != s[j]
  }

  /** Appending to a list unless the item is already present. */
  function AddUnique<T(==,!new)>(s: seq<T>, a: T): (r: seq<T>)
    ensures a in r
    ensures forall b :: b in r <==> b in s || b == a
    ensures NoDup(s) ==> NoDup(r)
    ensures |s| <= |r| <= |s| + 1 && r[..|s|] == s
    ensures a in s ==> r == s
  {
    if a in s then s else s + [a]
  }

  /** `list.index`: the position of the first occurrence of `v`. */
  function IndexOf<T(==)>(s: seq<T>, v: T): (i: nat)
    requires v in s
    ensures i < |s| && s[i] == v
    ensures forall j :: 0 <= j < i ==> s[j] != v
  {
    if s[0] == v then 0 else 1 + IndexOf(s[1..], v)
  }

  /** In a list without repeats, the index of an element is its position. */
  lemma IndexOfNoDup<T>(s: seq<T>, i: nat)
    requires NoDup(s) && i < |s|
    ensures IndexOf(s, s[i]) == i
  {
    var k := IndexOf(s, s[i]);
    assert !(k < i) && !(i < k);
  }

  /** `list.remove`: drops the first occurrence only. */
  function RemoveFirst<T(==)>(s: seq<T>, v: T): (r: seq<T>)
    requires v in s
    ensures |r| == |s| - 1
    ensures multiset(r) == multiset(s) - multiset{v}
    ensures var i := IndexOf(s, v); r[..i] == s[..i] && r[i..] == s[i + 1..]
  {
    var i := IndexOf(s, v);
    assert s == s[..i] + [v] + s[i + 1..];
    s[..i] + s[i + 1..]
  }
}

=== FILE: player.dfy ===
/** The legacy player (player.py): input handling with acceleration and
    friction, wall sliding, jump edge detection and buffering, coyote time,
    ground and wall jumps, variable jump height, per-frame timers, energy,
    the ability and inventory bookkeeping, and the ability effects that
    change kinematic state. Timers count frames; wall-clock cooldowns take
    the current time in milliseconds as a parameter. The sprite's many
    attributes are grouped into four records. */
module Player {
  import opened Wrappers
  import opened Geometry
  import opened Lists
  import S = Settings

  // ---------------------------------------------------------------------
  // Tuning constants set in Player.__init__

  const WIDTH: int := 32
  const HEIGHT: int := 48
  const MAX_SPEED: real := 8.0
  const ACCELERATION: real := 0.5
  const AIR_CONTROL: real := 0.7
  const FRICTION: real := 0.85
  const AIR_FRICTION: real := 0.95
  const WALL_SLIDE_SPEED: real := 2.0
  const WALL_JUMP_FORCE: real := 12.0
  const WALL_JUMP_HORIZONTAL_FORCE: real := 6.0
  /** Frames. */
  const WALL_JUMP_COOLDOWN: int := 10
  /** Frames. */
  const JUMP_BUFFER_TIME: int := 5
  const JUMP_SPEED: real := S.PLAYER_JUMP_STRENGTH
  /** -9.6: the bound applied while the jump key is held. */
  const MIN_JUMP_SPEED: real := S.PLAYER_JUMP_STRENGTH * 0.6
  /** Frames. */
  const DASH_DURATION: int := 20
  const MAX_HEALTH: real := 100.0
  /** Milliseconds between two activations of the same ability. */
  const ABILITY_COOLDOWN: int := 1000
  const MELEE_VISUAL_FRAMES: int := 10
  const TELEPORT_DISTANCE: int := 100
  /** At most this many abilities are offered at once. */
  const MAX_ACTIVE_ABILITIES: int := 3

  /** The key and mouse state read by `get_input`. */
  datatype Keys = Keys(
    left: bool, right: bool, jump: bool,
    ability1: bool, ability2: bool, ability3: bool,
    mouseLeft: bool, mouseRight: bool)

  /** Position, velocity (the `direction` vector), speed and contacts. */
  datatype Body = Body(
    rect: Rect, vx: real, vy: real, speed: int, dashTimer: int,
    onGround: bool, onCeiling: bool, onLeft: bool, onRight: bool,
    facingRight: bool)

  /** Jump, coyote, edge and wall bookkeeping. */
  datatype Jumping = Jumping(
    coyoteTimer: int, wasOnGround: bool, atEdge: bool, wasAtEdge: bool,
    jumpBufferTimer: int, jumpPressed: bool, jumpJustPressed: bool, isJumping: bool,
    wallJumpTimer: int, wallSliding: bool, wallDirection: int)

  /** Health, energy and the two attacks. */
  datatype Combat = Combat(
    health: real, energy: int, onEnergyTile: bool, energyRegenTimer: int,
    lastMeleeTime: int, meleeAttacking: bool, meleeAttackRect: Option<Rect>,
    meleeVisualTimer: int, lastRangedTime: int, rangedAttacking: bool)

  /** Region, abilities and crystal progress. */
  datatype Kit = Kit(
    currentRegion: Option<string>,
    unlockedAbilities: seq<string>, permanentAbilities: seq<string>,
    abilityCooldowns: map<string, int>,
    crystalFragments: map<string, int>, elementalCrystals: seq<string>)

  datatype Player = Player(body: Body, jump: Jumping, combat: Combat, kit: Kit)

  /** Every frame counter of the player is non-negative. */
  predicate TimersValid(p: Player) {
    && p.jump.coyoteTimer >= 0 && p.jump.jumpBufferTimer >= 0 && p.jump.wallJumpTimer >= 0
    && p.body.dashTimer >= 0 && p.combat.meleeVisualTimer >= 0 && p.combat.energyRegenTimer >= 0
  }

  /** A fresh player with its top-left corner at (x, y). */
  function NewPlayer(x: int, y: int): (p: Player)
    ensures p.body.rect == Rect(x, y, WIDTH, HEIGHT)
    ensures p.body.vx == 0.0 && p.body.vy == 0.0 && p.body.speed == S.PLAYER_SPEED
    ensures !p.body.onGround && p.body.facingRight
    ensures p.jump.coyoteTimer == 0 && p.jump.jumpBufferTimer == 0 && !p.jump.jumpPressed
    ensures TimersValid(p)
    ensures p.combat.health == MAX_HEALTH && p.combat.energy == S.MAX_ENERGY
    ensures p.kit.currentRegion == None && p.kit.unlockedAbilities == [] && p.kit.permanentAbilities == []
    ensures p.kit.crystalFragments == map[] && p.kit.elementalCrystals == []
  {
    Player(
      Body(Rect(x, y, WIDTH, HEIGHT), 0.0, 0.0, S.PLAYER_SPEED, 0, false, false, false, false, true),
      Jumping(0, false, false, false, 0, false, false, false, 0, false, 0),
      Combat(MAX_HEALTH, S.MAX_ENERGY, false, 0, 0, false, None, 0, 0, false),
      Kit(None, [], [], map[], map[], []))
  }

  // ---------------------------------------------------------------------
  // Abilities and inventory

  predicate StartsWith(s: string, prefix: string) {
    |prefix| <= |s| && s[..|prefix|] == prefix
  }

  /** `if self.current_region:`, None and "" are both falsy. */
  predicate RegionActive(k: Kit) {
    k.currentRegion.Some? && k.currentRegion.value != ""
  }

  /** Entering a region clears the regional abilities. */
  function SetRegion(p: Player, region: Option<string>): (r: Player)
    ensures r.kit.currentRegion == region && r.kit.unlockedAbilities == []
    ensures r.kit.permanentAbilities == p.kit.permanentAbilities
    ensures r == p.(kit := p.kit.(currentRegion := region, unlockedAbilities := []))
  {
    p.(kit := p.kit.(currentRegion := region, unlockedAbilities := []))
  }

  /** Unlock `ability` in the permanent or the regional list, never
      creating a duplicate and leaving the other list alone. */
  function UnlockAbility(p: Player, ability: string, permanent: bool): (r: Player)
    ensures permanent ==>
      (r.kit.permanentAbilities == AddUnique(p.kit.permanentAbilities, ability)
       && r.kit.unlockedAbilities == p.kit.unlockedAbilities)
    ensures !permanent ==>
      (r.kit.unlockedAbilities == AddUnique(p.kit.unlockedAbilities, ability)
       && r.kit.permanentAbilities == p.kit.permanentAbilities)
    ensures NoDup(p.kit.permanentAbilities) && NoDup(p.kit.unlockedAbilities)
            ==> NoDup(r.kit.permanentAbilities) && NoDup(r.kit.unlockedAbilities)
    ensures r.body == p.body && r.jump == p.jump && r.combat == p.combat
    ensures r.kit.currentRegion == p.kit.currentRegion
    ensures r.kit == p.kit.(permanentAbilities := r.kit.permanentAbilities,
                            unlockedAbilities := r.kit.unlockedAbilities)
  {
    if permanent then p.(kit := p.kit.(permanentAbilities := AddUnique(p.kit.permanentAbilities, ability)))
    else p.(kit := p.kit.(unlockedAbilities := AddUnique(p.kit.unlockedAbilities, ability)))
  }

  predicate CanUseAbility(k: Kit, ability: string) {
    if ability in k.permanentAbilities then true
    else if RegionActive(k) && StartsWith(ability, k.currentRegion.value) then
      ability in k.unlockedAbilities
    else false
  }

  /** `unlock_ability` followed by `can_use_ability`: a permanent unlock is
      usable everywhere; a regional one only while its name starts with
      the active region, unless it was already permanent. */
  lemma UnlockThenUsable(p: Player, ability: string, permanent: bool)
    ensures permanent ==> CanUseAbility(UnlockAbility(p, ability, true).kit, ability)
    ensures !permanent ==>
      (CanUseAbility(UnlockAbility(p, ability, false).kit, ability)
       <==> ability in p.kit.permanentAbilities
            || (RegionActive(p.kit) && StartsWith(ability, p.kit.currentRegion.value)))
  {
  }

  /** The names of `s` that start with `prefix`, in order. */
  function FilterPrefix(s: seq<string>, prefix: string): (r: seq<string>)
    ensures forall a :: a in r <==> a in s && StartsWith(a, prefix)
    ensures |r| <= |s|
  {
    if |s| == 0 then []
    else if StartsWith(s[0], prefix) then [s[0]] + FilterPrefix(s[1..], prefix)
    else FilterPrefix(s[1..], prefix)
  }

  function RegionalAbilities(k: Kit): (r: seq<string>)
    ensures forall a :: a in r <==>
      RegionActive(k) && a in k.unlockedAbilities && StartsWith(a, k.currentRegion.value)
  {
    if RegionActive(k) then FilterPrefix(k.unlockedAbilities, k.currentRegion.value) else []
  }

  /** Permanent abilities first, then the unlocked ones of the current
      region, cut to three. */
  function GetAvailableAbilities(k: Kit): (r: seq<string>)
    ensures |r| <= MAX_ACTIVE_ABILITIES
    ensures |r| == MinI(MAX_ACTIVE_ABILITIES, |k.permanentAbilities| + |RegionalAbilities(k)|)
    ensures forall i :: 0 <= i < |r| && i < |k.permanentAbilities| ==> r[i] == k.permanentAbilities[i]
    ensures forall i :: |k.permanentAbilities| <= i < |r| ==>
      r[i] == RegionalAbilities(k)[i - |k.permanentAbilities|]
  {
    var all := k.permanentAbilities + RegionalAbilities(k);
    all[..MinI(MAX_ACTIVE_ABILITIES, |all|)]
  }

  /** Everything offered by `get_available_abilities` passes
      `can_use_ability`, so `use_ability`'s second check never refuses. */
  lemma AvailableAbilitiesAreUsable(k: Kit, a: string)
    requires a in GetAvailableAbilities(k)
    ensures CanUseAbility(k, a)
  {
    var r := GetAvailableAbilities(k);
    var i :| 0 <= i < |r| && r[i] == a;
    if i >= |k.permanentAbilities| {
      assert a in RegionalAbilities(k);
    }
  }

  /** After entering a region only permanent abilities are offered. */
  lemma SetRegionOffersOnlyPermanent(p: Player, region: Option<string>)
    ensures GetAvailableAbilities(SetRegion(p, region).kit)
         == p.kit.permanentAbilities[..MinI(MAX_ACTIVE_ABILITIES, |p.kit.permanentAbilities|)]
  {
    var k := SetRegion(p, region).kit;
    assert RegionalAbilities(k) == [] by {
      if RegionActive(k) {
        assert FilterPrefix([], k.currentRegion.value) == [];
      }
    }
    assert k.permanentAbilities + [] == k.permanentAbilities;
  }

  /** Mark a crystal complete; a region is listed at most once. */
  function CompleteCrystal(p: Player, region: string): (r: Player)
    ensures r.kit.elementalCrystals == AddUnique(p.kit.elementalCrystals, region)
    ensures r == p.(kit := p.kit.(elementalCrystals := r.kit.elementalCrystals))
  {
    p.(kit := p.kit.(elementalCrystals := AddUnique(p.kit.elementalCrystals, region)))
  }

  lemma CompleteCrystalIdempotent(p: Player, region: string)
    ensures CompleteCrystal(CompleteCrystal(p, region), region) == CompleteCrystal(p, region)
  {
  }

  function FragmentCount(k: Kit, region: string): int {
    if region in k.crystalFragments then k.crystalFragments[region] else 0
  }

  /** One more fragment of `region` (a missing entry counts as 0); at
      FRAGMENTS_NEEDED the crystal is completed. */
  function CollectFragment(p: Player, region: string): (r: Player)
    ensures region in r.kit.crystalFragments
    ensures r.kit.crystalFragments[region] == FragmentCount(p.kit, region) + 1
    ensures forall k :: k != region ==>
      (k in r.kit.crystalFragments <==> k in p.kit.crystalFragments)
      && (k in p.kit.crystalFragments ==> r.kit.crystalFragments[k] == p.kit.crystalFragments[k])
    ensures forall c :: c in r.kit.elementalCrystals <==>
      c in p.kit.elementalCrystals
      || (c == region && FragmentCount(p.kit, region) + 1 >= S.FRAGMENTS_NEEDED)
    ensures NoDup(p.kit.elementalCrystals) ==> NoDup(r.kit.elementalCrystals)
    ensures r.body == p.body && r.jump == p.jump && r.combat == p.combat
    ensures r.kit == p.kit.(crystalFragments := r.kit.crystalFragments, elementalCrystals := r.kit.elementalCrystals)
  {
    var count := FragmentCount(p.kit, region) + 1;
    var q := p.(kit := p.kit.(crystalFragments := p.kit.crystalFragments[region := count]));
    if count >= S.FRAGMENTS_NEEDED then CompleteCrystal(q, region) else q
  }

  /** Collecting FRAGMENTS_NEEDED fragments of a fresh region completes it. */
  lemma FiveFragmentsCompleteCrystal(p: Player, region: string)
    requires region !in p.kit.crystalFragments
    ensures var q := CollectFragment(CollectFragment(CollectFragment(CollectFragment(p, region), region), region), region);
      region !in q.kit.elementalCrystals || region in p.kit.elementalCrystals
    ensures region in CollectFragment(CollectFragment(CollectFragment(CollectFragment(CollectFragment(
              p, region), region), region), region), region).kit.elementalCrystals
  {
    var q1 := CollectFragment(p, region);
    var q2 := CollectFragment(q1, region);
    var q3 := CollectFragment(q2, region);
    var q4 := CollectFragment(q3, region);
    assert FragmentCount(q4.kit, region) == 4;
  }

  // ---------------------------------------------------------------------
  // Ability effects (only those that change state; the others print)

  function FireDash(p: Player): (r: Player)
    ensures r.body.vx == (if p.body.facingRight then 20.0 else -20.0)
    ensures r.body.speed == S.PLAYER_SPEED * 3 && r.body.dashTimer == DASH_DURATION
    ensures r.body == p.body.(vx := r.body.vx, speed := r.body.speed, dashTimer := r.body.dashTimer)
    ensures r.jump == p.jump && r.combat == p.combat && r.kit == p.kit
  {
    p.(body := p.body.(vx := if p.body.facingRight then 20.0 else -20.0,
                       speed := S.PLAYER_SPEED * 3, dashTimer := DASH_DURATION))
  }

  /** Heal by 20, never above the maximum. */
  function WaterHeal(p: Player): (r: Player)
    ensures p.combat.health <= MAX_HEALTH ==> p.combat.health <= r.combat.health <= MAX_HEALTH
    ensures r.combat.health <= p.combat.health + 20.0
    ensures p.combat.health + 20.0 <= MAX_HEALTH ==> r.combat.health == p.combat.health + 20.0
    ensures r == p.(combat := p.combat.(health := r.combat.health))
  {
    p.(combat := p.combat.(health := MinR(MAX_HEALTH, p.combat.health + 20.0)))
  }

  function AirJump(p: Player): (r: Player)
    ensures !p.body.onGround ==> r.body.vy == JUMP_SPEED * 0.8
    ensures p.body.onGround ==> r == p
    ensures r == p.(body := p.body.(vy := r.body.vy))
  {
    if !p.body.onGround then p.(body := p.body.(vy := JUMP_SPEED * 0.8)) else p
  }

  function AirDash(p: Player): (r: Player)
    ensures !p.body.onGround ==> r.body.vx == (if p.body.facingRight then 8.0 else -8.0)
    ensures p.body.onGround ==> r == p
    ensures r == p.(body := p.body.(vx := r.body.vx))
  {
    if !p.body.onGround then p.(body := p.body.(vx := if p.body.facingRight then 8.0 else -8.0)) else p
  }

  /** Halves a downward speed; upward motion is untouched. */
  function AirGlide(p: Player): (r: Player)
    ensures p.body.vy > 0.0 ==> 0.0 < r.body.vy < p.body.vy && r.body.vy * 2.0 == p.body.vy
    ensures p.body.vy <= 0.0 ==> r == p
    ensures r == p.(body := p.body.(vy := r.body.vy))
  {
    if p.body.vy > 0.0 then p.(body := p.body.(vy := p.body.vy * 0.5)) else p
  }

  /** Jump 100 pixels ahead, clamped so the sprite stays on screen. */
  function SpaceTeleport(p: Player): (r: Player)
    ensures r.body.rect.x >= 0
    ensures p.body.rect.w <= S.SCREEN_WIDTH ==> r.body.rect.Right() <= S.SCREEN_WIDTH
    ensures var target := p.body.rect.x + (if p.body.facingRight then TELEPORT_DISTANCE else -TELEPORT_DISTANCE);
            0 <= target <= S.SCREEN_WIDTH - p.body.rect.w ==> r.body.rect.x == target
    ensures r.body.rect == p.body.rect.(x := r.body.rect.x)
    ensures r == p.(body := p.body.(rect := r.body.rect))
  {
    var newX := p.body.rect.x + (if p.body.facingRight then TELEPORT_DISTANCE else -TELEPORT_DISTANCE);
    p.(body := p.body.(rect := p.body.rect.(x := MaxI(0, MinI(newX, S.SCREEN_WIDTH - p.body.rect.w)))))
  }

  /** What an ability effect may change: the body (a dash re-arms the dash
      counter) and health; never jump state, energy, attacks or the kit. */
  predicate AbilityFrame(p: Player, r: Player) {
    && r.jump == p.jump && r.kit == p.kit
    && r.combat == p.combat.(health := r.combat.health)
    && (r.body.dashTimer == p.body.dashTimer || r.body.dashTimer == DASH_DURATION)
  }

  /** The abilities whose handler changes the player; every other name,
      known or not, reaches a print-only stub or no branch at all. */
  const EFFECT_ABILITIES: set<string> :=
    {"fire_dash", "water_heal", "air_jump", "air_dash", "air_glide", "space_teleport"}

  /** The dispatch of `activate_ability` after the cooldown check; names
      without a modelled effect change nothing. */
  function ApplyAbility(p: Player, ability: string): (r: Player)
    ensures AbilityFrame(p, r)
    ensures ability == "fire_dash" ==> r == FireDash(p)
    ensures ability == "water_heal" ==> r == WaterHeal(p)
    ensures ability == "air_jump" ==> r == AirJump(p)
    ensures ability == "air_dash" ==> r == AirDash(p)
    ensures ability == "air_glide" ==> r == AirGlide(p)
    ensures ability == "space_teleport" ==> r == SpaceTeleport(p)
    ensures ability !in EFFECT_ABILITIES ==> r == p
  {
    if ability == "fire_dash" then FireDash(p)
    else if ability == "water_heal" then WaterHeal(p)
    else if ability == "air_jump" then AirJump(p)
    else if ability == "air_dash" then AirDash(p)
    else if ability == "air_glide" then AirGlide(p)
    else if ability == "space_teleport" then SpaceTeleport(p)
    else p
  }

  /** An ability fires unless it fired less than a second ago. */
  predicate AbilityReady(k: Kit, ability: string, now: int) {
    !(ability in k.abilityCooldowns && now - k.abilityCooldowns[ability] < ABILITY_COOLDOWN)
  }

  /** Firing records `now` as the ability's last use. */
  function ActivateAbility(p: Player, ability: string, now: int): (r: Player)
    ensures !AbilityReady(p.kit, ability, now) ==> r == p
    ensures AbilityReady(p.kit, ability, now) ==>
      && ability in r.kit.abilityCooldowns && r.kit.abilityCooldowns[ability] == now
      && r == ApplyAbility(p.(kit := p.kit.(abilityCooldowns := p.kit.abilityCooldowns[ability := now])), ability)
  {
    if !AbilityReady(p.kit, ability, now) then p
    else ApplyAbility(p.(kit := p.kit.(abilityCooldowns := p.kit.abilityCooldowns[ability := now])), ability)
  }

  /** A second activation within the cooldown is refused. */
  lemma ActivateTwiceWithinCooldown(p: Player, ability: string, now: int, later: int)
    requires AbilityReady(p.kit, ability, now)
    requires now <= later < now + ABILITY_COOLDOWN
    ensures ActivateAbility(ActivateAbility(p, ability, now), ability, later)
         == ActivateAbility(p, ability, now)
  {
  }

  /** `use_ability(n)` for key n in 1..3. */
  function UseAbility(p: Player, n: int, now: int): (r: Player)
    requires 1 <= n
    ensures r.jump == p.jump && r.combat == p.combat.(health := r.combat.health)
    ensures r.body.dashTimer == p.body.dashTimer || r.body.dashTimer == DASH_DURATION
    ensures n > |GetAvailableAbilities(p.kit)| ==> r == p
    ensures n <= |GetAvailableAbilities(p.kit)| ==>
      r == ActivateAbility(p, GetAvailableAbilities(p.kit)[n - 1], now)
  {
    var available := GetAvailableAbilities(p.kit);
    if n <= |available| then
      var ability := available[n - 1];
      AvailableAbilitiesAreUsable(p.kit, ability);
      if CanUseAbility(p.kit, ability) then ActivateAbility(p, ability, now) else p
    else p
  }

  // ---------------------------------------------------------------------
  // Attacks (cooldowns in milliseconds; the projectile itself is not modelled)

  function MeleeAttack(p: Player, now: int): (r: Player)
    ensures now - p.combat.lastMeleeTime < S.MELEE_ATTACK_COOLDOWN ==> r == p
    ensures now - p.combat.lastMeleeTime >= S.MELEE_ATTACK_COOLDOWN ==>
      && r.combat.meleeAttacking && r.combat.lastMeleeTime == now
      && r.combat.meleeVisualTimer == MELEE_VISUAL_FRAMES
      && r.combat.meleeAttackRect.Some?
      && var a := r.combat.meleeAttackRect.value;
         && a.y == p.body.rect.y && a.w == S.MELEE_ATTACK_RANGE && a.h == p.body.rect.h
         && (if p.body.facingRight then a.Left() == p.body.rect.Right() else a.Right() == p.body.rect.Left())
    ensures r.body == p.body && r.jump == p.jump && r.kit == p.kit
    ensures r.combat == p.combat.(lastMeleeTime := r.combat.lastMeleeTime, meleeAttackRect := r.combat.meleeAttackRect,
                                  meleeAttacking := r.combat.meleeAttacking, meleeVisualTimer := r.combat.meleeVisualTimer)
  {
    if now - p.combat.lastMeleeTime < S.MELEE_ATTACK_COOLDOWN then p
    else
      var rc := p.body.rect;
      var ax := if p.body.facingRight then rc.Right() else rc.Left() - S.MELEE_ATTACK_RANGE;
      p.(combat := p.combat.(lastMeleeTime := now,
                             meleeAttackRect := Some(Rect(ax, rc.y, S.MELEE_ATTACK_RANGE, rc.h)),
                             meleeAttacking := true, meleeVisualTimer := MELEE_VISUAL_FRAMES))
  }

  /** A second melee attack within the cooldown of one that landed is
      refused; once the cooldown has passed, the next one lands again. */
  lemma MeleeTwiceWithinCooldown(p: Player, now: int, later: int)
    requires now - p.combat.lastMeleeTime >= S.MELEE_ATTACK_COOLDOWN
    ensures MeleeAttack(p, now).combat.meleeAttacking && MeleeAttack(p, now).combat.lastMeleeTime == now
    ensures now <= later < now + S.MELEE_ATTACK_COOLDOWN ==>
              MeleeAttack(MeleeAttack(p, now), later) == MeleeAttack(p, now)
    ensures later >= now + S.MELEE_ATTACK_COOLDOWN ==>
              MeleeAttack(MeleeAttack(p, now), later).combat.lastMeleeTime == later
  {
  }

  /** Spends energy on a shot; refused while cooling down or short of energy. */
  function RangedAttack(p: Player, now: int): (r: Player)
    ensures p.combat.energy >= 0 ==> r.combat.energy >= 0
    ensures (now - p.combat.lastRangedTime < S.RANGED_ATTACK_COOLDOWN
             || p.combat.energy < S.RANGED_ATTACK_ENERGY_COST) ==> r == p
    ensures !(now - p.combat.lastRangedTime < S.RANGED_ATTACK_COOLDOWN
              || p.combat.energy < S.RANGED_ATTACK_ENERGY_COST) ==>
      && r.combat.energy == p.combat.energy - S.RANGED_ATTACK_ENERGY_COST
      && r.combat.lastRangedTime == now && r.combat.rangedAttacking
    ensures r.body == p.body && r.jump == p.jump && r.kit == p.kit
    ensures r.combat == p.combat.(lastRangedTime := r.combat.lastRangedTime, energy := r.combat.energy,
                                  rangedAttacking := r.combat.rangedAttacking)
  {
    if now - p.combat.lastRangedTime < S.RANGED_ATTACK_COOLDOWN then p
    else if p.combat.energy < S.RANGED_ATTACK_ENERGY_COST then p
    else p.(combat := p.combat.(lastRangedTime := now,
                               energy := p.combat.energy - S.RANGED_ATTACK_ENERGY_COST,
                               rangedAttacking := true))
  }

  /** A second shot within the cooldown of one that fired is refused. */
  lemma RangedTwiceWithinCooldown(p: Player, now: int, later: int)
    requires now - p.combat.lastRangedTime >= S.RANGED_ATTACK_COOLDOWN
    requires p.combat.energy >= S.RANGED_ATTACK_ENERGY_COST
    requires now <= later < now + S.RANGED_ATTACK_COOLDOWN
    ensures RangedAttack(p, now).combat.rangedAttacking
    ensures RangedAttack(RangedAttack(p, now), later) == RangedAttack(p, now)
  {
  }

  // ---------------------------------------------------------------------
  // get_input, step by step

  function TargetSpeed(k: Keys): (t: real)
    ensures -MAX_SPEED <= t <= MAX_SPEED
    ensures t < 0.0 <==> k.left
    ensures t > 0.0 <==> !k.left && k.right
  {
    if k.left then -MAX_SPEED else if k.right then MAX_SPEED else 0.0
  }

  /** Left wins over right; with neither pressed the facing is kept. */
  function Facing(p: Player, k: Keys): bool {
    if k.left then false else if k.right then true else p.body.facingRight
  }

  /** Wall sliding: airborne, touching a wall and pushing into it. The
      slide caps the downward speed. */
  function WallSlide(p: Player, k: Keys): (r: Player)
    ensures r.jump.wallSliding <==>
      !p.body.onGround && ((k.left && p.body.onLeft) || (k.right && p.body.onRight))
    ensures r.jump.wallSliding ==>
      r.jump.wallDirection == (if p.body.onLeft then -1 else 1) && r.body.vy == MinR(p.body.vy, WALL_SLIDE_SPEED)
    ensures !r.jump.wallSliding ==> r.body.vy == p.body.vy && r.jump.wallDirection == p.jump.wallDirection
    ensures r.body == p.body.(vy := r.body.vy)
    ensures r.jump == p.jump.(wallSliding := r.jump.wallSliding, wallDirection := r.jump.wallDirection)
    ensures r.combat == p.combat && r.kit == p.kit
  {
    var b := p.body;
    if !b.onGround && (b.onLeft || b.onRight) && ((k.left && b.onLeft) || (k.right && b.onRight)) then
      p.(body := b.(vy := MinR(b.vy, WALL_SLIDE_SPEED)),
         jump := p.jump.(wallSliding := true, wallDirection := if b.onLeft then -1 else 1))
    else p.(jump := p.jump.(wallSliding := false))
  }

  /** Blend toward the target speed (unless already within 0.1), then apply
      ground or air friction. */
  function Accelerate(vx: real, target: real, onGround: bool): (r: real)
    ensures AbsR(r) <= MaxR(AbsR(vx), AbsR(target))
    ensures target == 0.0 && vx != 0.0 ==> AbsR(r) < AbsR(vx)
    ensures AbsR(target - vx) <= 0.1 ==> r == vx * (if onGround then FRICTION else AIR_FRICTION)
  {
    var gain := if onGround then ACCELERATION else ACCELERATION * AIR_CONTROL;
    var friction := if onGround then FRICTION else AIR_FRICTION;
    if AbsR(target - vx) > 0.1 then
      var v := Blend(vx, target - vx, gain);
      DampShrinks(v, friction);
      v * friction
    else
      DampShrinks(vx, friction);
      vx * friction
  }

  /** Friction strictly below 1 shrinks any non-zero speed. */
  lemma DampShrinks(v: real, f: real)
    requires 0.0 < f < 1.0
    ensures AbsR(v * f) <= AbsR(v)
    ensures v != 0.0 ==> AbsR(v * f) < AbsR(v)
  {
  }

  /** Walking never pushes the horizontal speed past MAX_SPEED. */
  lemma AccelerateWithinMaxSpeed(vx: real, k: Keys, onGround: bool)
    requires AbsR(vx) <= MAX_SPEED
    ensures AbsR(Accelerate(vx, TargetSpeed(k), onGround)) <= MAX_SPEED
  {
  }

  /** The jump key's rising edge arms the buffer (overwriting it); the key
      state is remembered for the next frame. */
  function ReadJumpKey(p: Player, down: bool): (r: Player)
    ensures r.jump.jumpJustPressed <==> down && !p.jump.jumpPressed
    ensures r.jump.jumpJustPressed ==> r.jump.jumpBufferTimer == JUMP_BUFFER_TIME
    ensures !r.jump.jumpJustPressed ==> r.jump.jumpBufferTimer == p.jump.jumpBufferTimer
    ensures r.jump.jumpPressed == down
    ensures r.jump == p.jump.(jumpJustPressed := r.jump.jumpJustPressed,
                              jumpBufferTimer := r.jump.jumpBufferTimer, jumpPressed := down)
    ensures r.body == p.body && r.combat == p.combat && r.kit == p.kit
  {
    var j := p.jump;
    var j1 := if down && !j.jumpPressed then j.(jumpJustPressed := true, jumpBufferTimer := JUMP_BUFFER_TIME)
              else j.(jumpJustPressed := false);
    p.(jump := j1.(jumpPressed := down))
  }

  /** Holding the key does not re-arm the buffer on the next frame. */
  lemma HeldJumpKeyArmsOnce(p: Player)
    ensures !ReadJumpKey(ReadJumpKey(p, true), true).jump.jumpJustPressed
  {
  }

  predicate CanGroundJump(p: Player) {
    p.body.onGround || p.jump.coyoteTimer > 0
  }

  /** A ground or coyote jump; acts only when grounded or within coyote
      time, otherwise nothing changes. */
  function Jump(p: Player): (r: Player)
    ensures CanGroundJump(p) ==>
      r.body.vy == JUMP_SPEED && r.jump.coyoteTimer == 0 && r.jump.isJumping
    ensures !CanGroundJump(p) ==> r == p
    ensures r.body == p.body.(vy := r.body.vy)
    ensures r.jump == p.jump.(coyoteTimer := r.jump.coyoteTimer, isJumping := r.jump.isJumping)
    ensures r.combat == p.combat && r.kit == p.kit
  {
    if CanGroundJump(p) then
      p.(body := p.body.(vy := JUMP_SPEED), jump := p.jump.(coyoteTimer := 0, isJumping := true))
    else p
  }

  /** In the air a jump consumes the coyote window: a second one does nothing. */
  lemma AirJumpNotRepeatable(p: Player)
    requires !p.body.onGround
    ensures Jump(Jump(p)) == Jump(p)
  {
  }

  predicate CanWallJump(p: Player) {
    p.jump.wallSliding && p.jump.wallJumpTimer <= 0
  }

  /** Push off the wall being slid on: up, and away from that wall. */
  function WallJump(p: Player): (r: Player)
    ensures CanWallJump(p) ==>
      && r.body.vy == -WALL_JUMP_FORCE
      && r.body.vx == -(p.jump.wallDirection as real) * WALL_JUMP_HORIZONTAL_FORCE
      && r.jump.wallJumpTimer == WALL_JUMP_COOLDOWN && !r.jump.wallSliding
    ensures !CanWallJump(p) ==> r == p
    ensures r.body == p.body.(vx := r.body.vx, vy := r.body.vy)
    ensures r.jump == p.jump.(wallJumpTimer := r.jump.wallJumpTimer, wallSliding := r.jump.wallSliding)
    ensures r.combat == p.combat && r.kit == p.kit
  {
    if CanWallJump(p) then
      p.(body := p.body.(vy := -WALL_JUMP_FORCE,
                         vx := -(p.jump.wallDirection as real) * WALL_JUMP_HORIZONTAL_FORCE),
         jump := p.jump.(wallJumpTimer := WALL_JUMP_COOLDOWN, wallSliding := false))
    else p
  }

  /** A wall jump cannot be chained without sliding again. */
  lemma WallJumpNotRepeatable(p: Player)
    ensures WallJump(WallJump(p)) == WallJump(p)
  {
  }

  datatype JumpKind = NoJump | GroundJump | WallJumped

  predicate JumpRequested(p: Player) {
    p.jump.jumpJustPressed || p.jump.jumpBufferTimer > 0
  }

  function ClearBuffer(p: Player): Player {
    p.(jump := p.jump.(jumpBufferTimer := 0))
  }

  /** A requested jump tries the ground/coyote jump first and the wall jump
      only otherwise; whichever fires clears the buffer. */
  function JumpDispatch(p: Player): (r: (Player, JumpKind))
    ensures r.1 == GroundJump <==> JumpRequested(p) && CanGroundJump(p)
    ensures r.1 == WallJumped <==> JumpRequested(p) && !CanGroundJump(p) && CanWallJump(p)
    ensures r.1 == GroundJump ==> r.0 == ClearBuffer(Jump(p))
    ensures r.1 == WallJumped ==> r.0 == ClearBuffer(WallJump(p))
    ensures r.1 == NoJump ==> r.0 == p
    ensures TimersValid(p) ==> TimersValid(r.0)
    ensures r.0.body.rect == p.body.rect && r.0.combat == p.combat && r.0.kit == p.kit
    ensures r.0.jump.jumpPressed == p.jump.jumpPressed
  {
    if JumpRequested(p) then
      if CanGroundJump(p) then (ClearBuffer(Jump(p)), GroundJump)
      else if CanWallJump(p) then (ClearBuffer(WallJump(p)), WallJumped)
      else (p, NoJump)
    else (p, NoJump)
  }

  /** Variable jump height. While the key is held during a rising jump the
      vertical speed is bounded by `max(vy, MIN_JUMP_SPEED)`; releasing the
      key or starting to fall ends the jump. */
  function VariableJump(p: Player): (r: Player)
    ensures p.jump.jumpPressed && p.jump.isJumping && p.body.vy < 0.0 ==>
      r.body.vy == MaxR(p.body.vy, MIN_JUMP_SPEED) && r.jump.isJumping
    ensures !p.jump.jumpPressed || p.body.vy >= 0.0 ==> !r.jump.isJumping && r.body.vy == p.body.vy
    ensures p.jump.jumpPressed && !p.jump.isJumping && p.body.vy < 0.0 ==> r == p
    ensures r.body == p.body.(vy := r.body.vy)
    ensures r.jump == p.jump.(isJumping := r.jump.isJumping)
    ensures r.combat == p.combat && r.kit == p.kit
  {
    if p.jump.jumpPressed && p.jump.isJumping && p.body.vy < 0.0 then
      p.(body := p.body.(vy := MaxR(p.body.vy, MIN_JUMP_SPEED)))
    else if !p.jump.jumpPressed || p.body.vy >= 0.0 then p.(jump := p.jump.(isJumping := false))
    else p
  }

  /** While a jump is in progress the ascent is never faster than 9.6. */
  lemma VariableJumpBoundsAscent(p: Player)
    requires VariableJump(p).jump.isJumping
    ensures MIN_JUMP_SPEED <= VariableJump(p).body.vy < 0.0
  {
  }

  /** Facing, wall slide and horizontal acceleration. */
  function Steer(p: Player, k: Keys): (r: Player)
    ensures r.body.facingRight == Facing(p, k)
    ensures r.body.vx == Accelerate(p.body.vx, TargetSpeed(k), p.body.onGround)
    ensures r.body.rect == p.body.rect && r.body.onGround == p.body.onGround
    ensures r.jump == WallSlide(p, k).jump && r.combat == p.combat && r.kit == p.kit
  {
    var p1 := p.(body := p.body.(facingRight := Facing(p, k)));
    var p2 := WallSlide(p1, k);
    p2.(body := p2.body.(vx := Accelerate(p2.body.vx, TargetSpeed(k), p2.body.onGround)))
  }

  /** The movement part of `get_input`: steering, jump edge and buffer,
      jump dispatch, variable height. */
  function Move(p: Player, k: Keys): (r: Player)
    ensures TimersValid(p) ==> TimersValid(r)
    ensures r.jump.jumpPressed == k.jump
    ensures r.body.rect == p.body.rect && r.combat == p.combat && r.kit == p.kit
  {
    var p3 := Steer(p, k);
    var p4 := ReadJumpKey(p3, k.jump);
    var p5 := JumpDispatch(p4).0;
    VariableJump(p5)
  }

  /** The action part of `get_input`: the three ability keys, then melee
      and ranged attacks. */
  function Act(p: Player, k: Keys, now: int): (r: Player)
    ensures TimersValid(p) ==> TimersValid(r)
    ensures r.jump == p.jump
    ensures p.combat.energy >= 0 ==> r.combat.energy >= 0
    ensures !k.ability1 && !k.ability2 && !k.ability3 && !k.mouseLeft && !k.mouseRight ==> r == p
  {
    var p1 := if k.ability1 then UseAbility(p, 1, now) else p;
    var p2 := if k.ability2 then UseAbility(p1, 2, now) else p1;
    var p3 := if k.ability3 then UseAbility(p2, 3, now) else p2;
    var p4 := if k.mouseLeft then MeleeAttack(p3, now) else p3;
    if k.mouseRight then RangedAttack(p4, now) else p4
  }

  function GetInput(p: Player, k: Keys, now: int): (r: Player)
    ensures TimersValid(p) ==> TimersValid(r)
    ensures r.jump.jumpPressed == k.jump
  {
    Act(Move(p, k), k, now)
  }

  predicate NoActions(k: Keys) {
    !k.ability1 && !k.ability2 && !k.ability3 && !k.mouseLeft && !k.mouseRight
  }

  /** Pressing jump while grounded jumps in that frame, and because the key
      is still held the same call bounds the impulse: the vertical speed
      leaves `get_input` at MIN_JUMP_SPEED (-9.6), not at JUMP_SPEED (-16). */
  lemma GroundJumpFromRest(p: Player, k: Keys, now: int)
    requires p.body.onGround && !p.jump.jumpPressed && k.jump && NoActions(k)
    ensures var r := GetInput(p, k, now);
      r.body.vy == MIN_JUMP_SPEED && r.jump.isJumping && r.jump.coyoteTimer == 0 && r.jump.jumpBufferTimer == 0
  {
  }

  /** A key that was already down last frame never raises the buffer. */
  lemma HeldKeyNeverArmsBuffer(p: Player, k: Keys, now: int)
    requires p.jump.jumpPressed && k.jump && p.jump.jumpBufferTimer >= 0
    ensures GetInput(p, k, now).jump.jumpBufferTimer <= p.jump.jumpBufferTimer
  {
  }

  // ---------------------------------------------------------------------
  // Per-frame timers

  /** A frame timer: counts down by at most one per frame, never crosses 0
      from above, and rests once it is not positive. */
  function Countdown(t: int): (r: int)
    ensures t >= 0 ==> 0 <= r <= t
    ensures t - 1 <= r <= t
    ensures r == t <==> t <= 0
  {
    if t > 0 then t - 1 else t
  }

  /** Energy tiles refill one unit per frame (the regen cooldown is 0),
      never past the maximum; off a tile the regen counter resets. */
  function UpdateEnergy(p: Player): (r: Player)
    ensures p.combat.energy <= S.MAX_ENERGY ==> r.combat.energy <= S.MAX_ENERGY
    ensures p.combat.energyRegenTimer >= 0 && p.combat.onEnergyTile && p.combat.energy < S.MAX_ENERGY
            ==> r.combat.energy == p.combat.energy + S.ENERGY_REGEN_RATE
    ensures !(p.combat.onEnergyTile && p.combat.energy < S.MAX_ENERGY) ==> r.combat.energy == p.combat.energy
    ensures p.combat.energyRegenTimer >= 0 ==> r.combat.energyRegenTimer == 0
    ensures r.combat == p.combat.(energy := r.combat.energy, energyRegenTimer := r.combat.energyRegenTimer)
    ensures r.body == p.body && r.jump == p.jump && r.kit == p.kit
  {
    var c := p.combat;
    if c.onEnergyTile && c.energy < S.MAX_ENERGY then
      var t := c.energyRegenTimer + 1;
      if t >= S.ENERGY_REGEN_COOLDOWN then
        p.(combat := c.(energy := MinI(S.MAX_ENERGY, c.energy + S.ENERGY_REGEN_RATE), energyRegenTimer := 0))
      else p.(combat := c.(energyRegenTimer := t))
    else p.(combat := c.(energyRegenTimer := 0))
  }

  /** The dash counter ticks down; the tick that reaches 0 restores the speed. */
  function DashTick(p: Player): (r: Player)
    ensures r.body.dashTimer == Countdown(p.body.dashTimer)
    ensures p.body.dashTimer == 1 ==> r.body.speed == S.PLAYER_SPEED
    ensures p.body.dashTimer != 1 ==> r.body.speed == p.body.speed
    ensures r.body == p.body.(dashTimer := r.body.dashTimer, speed := r.body.speed)
    ensures r.jump == p.jump && r.combat == p.combat && r.kit == p.kit
  {
    if p.body.dashTimer > 0 then
      var d := p.body.dashTimer - 1;
      if d == 0 then p.(body := p.body.(dashTimer := d, speed := S.PLAYER_SPEED))
      else p.(body := p.body.(dashTimer := d))
    else p
  }

  /** `Player.update`: input, then the buffer, wall-jump, energy, dash and
      melee-visual counters. */
  function Update(p: Player, k: Keys, now: int): (r: Player)
    ensures TimersValid(p) ==> TimersValid(r)
    ensures var q := GetInput(p, k, now);
      && r.jump == q.jump.(jumpBufferTimer := Countdown(q.jump.jumpBufferTimer),
                           wallJumpTimer := Countdown(q.jump.wallJumpTimer))
      && r.body == q.body.(dashTimer := Countdown(q.body.dashTimer), speed := r.body.speed)
      && (q.body.dashTimer == 1 ==> r.body.speed == S.PLAYER_SPEED)
      && (q.body.dashTimer != 1 ==> r.body.speed == q.body.speed)
      && r.kit == q.kit
    ensures var q := GetInput(p, k, now);
      && r.combat.meleeVisualTimer == Countdown(q.combat.meleeVisualTimer)
      && r.combat.energy == UpdateEnergy(q).combat.energy
      && r.combat.energyRegenTimer == UpdateEnergy(q).combat.energyRegenTimer
      && r.combat == q.combat.(energy := r.combat.energy, energyRegenTimer := r.combat.energyRegenTimer,
                               meleeVisualTimer := r.combat.meleeVisualTimer)
  {
    Tick(GetInput(p, k, now))
  }

  /** The counters `update` runs after `get_input`. */
  function Tick(q: Player): (r: Player)
    ensures TimersValid(q) ==> TimersValid(r)
    ensures r.jump == q.jump.(jumpBufferTimer := Countdown(q.jump.jumpBufferTimer),
                              wallJumpTimer := Countdown(q.jump.wallJumpTimer))
    ensures r.body == q.body.(dashTimer := Countdown(q.body.dashTimer), speed := r.body.speed)
    ensures q.body.dashTimer == 1 ==> r.body.speed == S.PLAYER_SPEED
    ensures q.body.dashTimer != 1 ==> r.body.speed == q.body.speed
    ensures r.kit == q.kit
    ensures r.combat.meleeVisualTimer == Countdown(q.combat.meleeVisualTimer)
    ensures r.combat.energy == UpdateEnergy(q).combat.energy
    ensures r.combat.energyRegenTimer == UpdateEnergy(q).combat.energyRegenTimer
    ensures r.combat == q.combat.(energy := r.combat.energy, energyRegenTimer := r.combat.energyRegenTimer,
                                  meleeVisualTimer := r.combat.meleeVisualTimer)
  {
    var q1 := q.(jump := q.jump.(jumpBufferTimer := Countdown(q.jump.jumpBufferTimer),
                                 wallJumpTimer := Countdown(q.jump.wallJumpTimer)));
    var q2 := UpdateEnergy(q1);
    var q3 := DashTick(q2);
    q3.(combat := q3.combat.(meleeVisualTimer := Countdown(q3.combat.meleeVisualTimer)))
  }

  /** Coyote time, run after collisions: armed to COYOTE_TIME on leaving
      the ground, zero while grounded, otherwise counting down to 0. */
  function UpdateCoyoteTime(p: Player): (r: Player)
    ensures p.jump.wasOnGround && !p.body.onGround ==> r.jump.coyoteTimer == S.COYOTE_TIME
    ensures p.body.onGround ==> r.jump.coyoteTimer == 0
    ensures !p.jump.wasOnGround && !p.body.onGround ==> r.jump.coyoteTimer == Countdown(p.jump.coyoteTimer)
    ensures r.jump.wasOnGround == p.body.onGround
    ensures r.jump == p.jump.(coyoteTimer := r.jump.coyoteTimer, wasOnGround := r.jump.wasOnGround)
    ensures r.body == p.body && r.combat == p.combat && r.kit == p.kit
  {
    var c := if p.jump.wasOnGround && !p.body.onGround then S.COYOTE_TIME
             else if p.body.onGround then 0
             else Countdown(p.jump.coyoteTimer);
    p.(jump := p.jump.(coyoteTimer := c, wasOnGround := p.body.onGround))
  }

  /** n airborne frames of coyote bookkeeping. */
  function AirborneFrames(p: Player, n: nat): Player
    decreases n
  {
    if n == 0 then p else AirborneFrames(UpdateCoyoteTime(p.(body := p.body.(onGround := false))), n - 1)
  }

  lemma {:induction false} CoyoteCountdown(p: Player, n: nat)
    requires !p.jump.wasOnGround && p.jump.coyoteTimer >= 0
    ensures AirborneFrames(p, n).jump.coyoteTimer == MaxI(0, p.jump.coyoteTimer - n)
    ensures !AirborneFrames(p, n).jump.wasOnGround
    decreases n
  {
    if n > 0 {
      CoyoteCountdown(UpdateCoyoteTime(p.(body := p.body.(onGround := false))), n - 1);
    }
  }

  /** Leaving the ground opens an 8-frame window: after the transition frame
      and n further airborne frames the timer reads max(0, 8 - n). */
  lemma {:induction false} CoyoteWindow(p: Player, n: nat)
    requires p.jump.wasOnGround && !p.body.onGround
    ensures AirborneFrames(UpdateCoyoteTime(p), n).jump.coyoteTimer == MaxI(0, S.COYOTE_TIME - n)
  {
    CoyoteCountdown(UpdateCoyoteTime(p), n);
  }
}

=== FILE: progression.dfy ===
/** Region progression bookkeeping (game_progression.py): regional and
    permanent abilities, crystal fragments, completed crystals and
    regions, difficulty and the next region. Saving and loading are not
    modelled; a Python `KeyError` or `ValueError` is a `None` result. */
module Progression {
  import opened Wrappers
  import S = Settings
  import opened Geometry
  import opened Lists

  /** The five regions, in `get_next_region`'s order. */
  const REGION_ORDER: seq<string> := ["fire", "water", "earth", "air", "space"]

  datatype Progression = Progression(
    currentRegion: string,
    completedRegions: seq<string>,
    unlockedAbilities: map<string, seq<string>>,
    permanentAbilities: seq<string>,
    crystalFragments: map<string, int>,
    completedCrystals: seq<string>,
    currentLevel: int,
    hiddenLevelsCompleted: seq<string>,
    bossesDefeated: seq<string>)

  function EmptyLists(): (m: map<string, seq<string>>)
    ensures m.Keys == set r | r in REGION_ORDER
    ensures forall r :: r in m ==> m[r] == []
  {
    map["fire" := [], "water" := [], "earth" := [], "air" := [], "space" := []]
  }

  function ZeroCounts(): (m: map<string, int>)
    ensures m.Keys == set r | r in REGION_ORDER
    ensures forall r :: r in m ==> m[r] == 0
  {
    map["fire" := 0, "water" := 0, "earth" := 0, "air" := 0, "space" := 0]
  }

  /** `GameProgression()`: in the fire region at level 1, nothing collected
      or completed. */
  function NewProgression(): (p: Progression)
    ensures p.currentRegion == "fire" && p.currentLevel == 1
    ensures p.completedRegions == [] && p.completedCrystals == []
    ensures p.permanentAbilities == [] && p.hiddenLevelsCompleted == [] && p.bossesDefeated == []
    ensures p.unlockedAbilities == EmptyLists() && p.crystalFragments == ZeroCounts()
  {
    Progression("fire", [], EmptyLists(), [], ZeroCounts(), [], 1, [], [])
  }

  /** The state part of `reset_game`: the same values as a new game, from
      any state. */
  function ResetGame(p: Progression): (r: Progression)
    ensures r == NewProgression()
    ensures Valid(r)
  {
    Progression("fire", [], EmptyLists(), [], ZeroCounts(), [], 1, [], [])
  }

  /** What the operations keep: every list without repeats, one ability list
      and one fragment count per region. */
  predicate Valid(p: Progression) {
    NoDup(p.completedRegions) && NoDup(p.permanentAbilities) && NoDup(p.completedCrystals)
    && p.unlockedAbilities.Keys == (set r | r in REGION_ORDER)
    && p.crystalFragments.Keys == (set r | r in REGION_ORDER)
    && (forall r :: r in p.unlockedAbilities ==> NoDup(p.unlockedAbilities[r]))
  }

  lemma NewProgressionValid()
    ensures Valid(NewProgression())
  {
  }

  /** `unlock_ability(region, ability, permanent)`: added once to the
      permanent list, or to the region's list; an unknown region is a
      `KeyError` only for a regional unlock. */
  function UnlockAbility(p: Progression, region: string, ability: string, permanent: bool): (r: Option<Progression>)
    ensures r.None? <==> !permanent && region !in p.unlockedAbilities
    ensures r.Some? && permanent ==>
              r.value == p.(permanentAbilities := AddUnique(p.permanentAbilities, ability))
    ensures r.Some? && !permanent ==>
              r.value.unlockedAbilities == p.unlockedAbilities[region := AddUnique(p.unlockedAbilities[region], ability)]
              && r.value == p.(unlockedAbilities := r.value.unlockedAbilities)
    ensures r.Some? && Valid(p) ==> Valid(r.value)
  {
    if permanent then Some(p.(permanentAbilities := AddUnique(p.permanentAbilities, ability)))
    else if region !in p.unlockedAbilities then None
    else
      var l := p.unlockedAbilities[region := AddUnique(p.unlockedAbilities[region], ability)];
      assert l.Keys == p.unlockedAbilities.Keys;
      Some(p.(unlockedAbilities := l))
  }

  /** Unlocking the same ability twice changes nothing the second time. */
  lemma UnlockIdempotent(p: Progression, region: string, ability: string, permanent: bool)
    requires UnlockAbility(p, region, ability, permanent).Some?
    ensures var q := UnlockAbility(p, region, ability, permanent).value;
            UnlockAbility(q, region, ability, permanent) == Some(q)
  {
    var q := UnlockAbility(p, region, ability, permanent).value;
    if !permanent {
      assert ability in q.unlockedAbilities[region];
      assert q.unlockedAbilities[region := q.unlockedAbilities[region]] == q.unlockedAbilities;
    }
  }

  /** `complete_crystal(region)`: listed once. */
  function CompleteCrystal(p: Progression, region: string): (r: Progression)
    ensures region in r.completedCrystals
    ensures forall c :: c in r.completedCrystals <==> c in p.completedCrystals || c == region
    ensures NoDup(p.completedCrystals) ==> NoDup(r.completedCrystals)
    ensures r == p.(completedCrystals := r.completedCrystals)
  {
    p.(completedCrystals := AddUnique(p.completedCrystals, region))
  }

  /** `complete_region(region)`: listed once. */
  function CompleteRegion(p: Progression, region: string): (r: Progression)
    ensures region in r.completedRegions
    ensures forall c :: c in r.completedRegions <==> c in p.completedRegions || c == region
    ensures NoDup(p.completedRegions) ==> NoDup(r.completedRegions)
    ensures |p.completedRegions| > 0 ==> r.completedRegions[0] == p.completedRegions[0]
    ensures r == p.(completedRegions := r.completedRegions)
  {
    p.(completedRegions := AddUnique(p.completedRegions, region))
  }

  lemma CompleteIdempotent(p: Progression, region: string)
    ensures CompleteCrystal(CompleteCrystal(p, region), region) == CompleteCrystal(p, region)
    ensures CompleteRegion(CompleteRegion(p, region), region) == CompleteRegion(p, region)
  {
  }

  /** `collect_fragment(region)`: that region's count goes up by one, the
      others stay; at FRAGMENTS_NEEDED the crystal is completed. An unknown
      region is a `KeyError`. */
  function CollectFragment(p: Progression, region: string): (r: Option<Progression>)
    ensures r.None? <==> region !in p.crystalFragments
    ensures r.Some? ==> r.value.crystalFragments == p.crystalFragments[region := p.crystalFragments[region] + 1]
    ensures r.Some? ==> (forall c :: c in r.value.completedCrystals <==>
                           c in p.completedCrystals || (c == region && p.crystalFragments[region] + 1 >= S.FRAGMENTS_NEEDED))
    ensures r.Some? && Valid(p) ==> Valid(r.value)
    ensures r.Some? ==> r.value.unlockedAbilities == p.unlockedAbilities && r.value.completedRegions == p.completedRegions
    ensures r.Some? ==> r.value == p.(crystalFragments := r.value.crystalFragments,
                                      completedCrystals := r.value.completedCrystals)
  {
    if region !in p.crystalFragments then None
    else
      var n := p.crystalFragments[region] + 1;
      var q := p.(crystalFragments := p.crystalFragments[region := n]);
      assert q.crystalFragments.Keys == p.crystalFragments.Keys;
      Some(if n >= S.FRAGMENTS_NEEDED then CompleteCrystal(q, region) else q)
  }

  /** From a new game, the fifth fragment of a region completes its crystal
      and the fourth does not. */
  lemma FifthFragmentCompletes(region: string)
    requires region in REGION_ORDER
    ensures var p0 := NewProgression();
            var p4 := CollectFragment(CollectFragment(CollectFragment(CollectFragment(p0, region).value, region).value, region).value, region).value;
            region !in p4.completedCrystals
            && region in CollectFragment(p4, region).value.completedCrystals
  {
    var p0 := NewProgression();
    var p1 := CollectFragment(p0, region).value;
    var p2 := CollectFragment(p1, region).value;
    var p3 := CollectFragment(p2, region).value;
    var p4 := CollectFragment(p3, region).value;
    assert p4.crystalFragments[region] == 4;
  }

  /** `get_available_abilities(region)`: permanent abilities, then the
      region's, at most three. An unknown region is a `KeyError`. */
  function GetAvailableAbilities(p: Progression, region: string): (r: Option<seq<string>>)
    ensures r.None? <==> region !in p.unlockedAbilities
    ensures r.Some? ==> |r.value| == MinI(3, |p.permanentAbilities| + |p.unlockedAbilities[region]|)
    ensures r.Some? ==> forall i :: 0 <= i < |r.value| ==>
              r.value[i] == (if i < |p.permanentAbilities| then p.permanentAbilities[i]
                             else p.unlockedAbilities[region][i - |p.permanentAbilities|])
  {
    if region !in p.unlockedAbilities then None
    else
      var all := p.permanentAbilities + p.unlockedAbilities[region];
      Some(all[..MinI(3, |all|)])
  }

  /** Python's `a in b` on strings: `a` occurs in `b` as a contiguous
      piece (the empty string occurs everywhere). */
  predicate Substring(a: string, b: string)
    decreases |b|
  {
    if |a| > |b| then false
    else b[..|a|] == a || (|b| > 0 && Substring(a, b[1..]))
  }

  /** Every contiguous piece of `b` passes the substring test. */
  lemma {:induction false} PieceIsSubstring(b: string, i: nat, j: nat)
    requires i <= j <= |b|
    ensures Substring(b[i..j], b)
    decreases i
  {
    var a := b[i..j];
    if i > 0 {
      PieceIsSubstring(b[1..], i - 1, j - 1);
      assert b[1..][i - 1..j - 1] == a;
      assert Substring(a, b[1..]);
      assert |a| <= |b| && |b| > 0;
    } else {
      assert b[..|a|] == a;
    }
  }

  /** `x in ELEMENT_WEAKNESSES.get(key, [])`: a substring test against the
      weakness string of a known element, and False against `[]`. */
  predicate InWeakness(x: string, key: string) {
    match S.ElementWeakness(key)
    case Some(w) => Substring(x, w)
    case None => false
  }

  /** `get_region_difficulty(region)`: compared with the first completed
      region, easier (0.7) if the region is in its weakness, harder (1.3)
      if it is in the region's weakness, normal otherwise and when nothing
      is completed. */
  function GetRegionDifficulty(p: Progression, region: string): (d: real)
    ensures |p.completedRegions| == 0 ==> d == 1.0
    ensures |p.completedRegions| > 0 ==>
              d == (if InWeakness(region, p.completedRegions[0]) then 0.7
                    else if InWeakness(p.completedRegions[0], region) then 1.3
                    else 1.0)
    ensures d in {0.7, 1.0, 1.3}
  {
    if |p.completedRegions| == 0 then 1.0
    else
      var start := p.completedRegions[0];
      if InWeakness(region, start) then 0.7
      else if InWeakness(start, region) then 1.3
      else 1.0
  }

  /** Starting from fire, water is easier and air is harder. */
  lemma FireStartDifficulty(p: Progression)
    requires |p.completedRegions| > 0 && p.completedRegions[0] == "fire"
    ensures GetRegionDifficulty(p, "water") == 0.7
    ensures GetRegionDifficulty(p, "air") == 1.3
    ensures GetRegionDifficulty(p, "earth") == 1.0
  {
    var water, fire := "water", "fire";
    assert Substring("water", water) by {
      assert water[..5] == "water";
    }
    assert !Substring("air", water) by {
      assert water[..3][0] != "air"[0];
      assert water[1..][..3][1] != "air"[1];
      assert water[2..][..3][0] != "air"[0];
      assert water[1..][1..] == water[2..] && water[2..][1..] == water[3..];
    }
    assert Substring("fire", fire) by {
      assert fire[..4] == "fire";
    }
    assert !Substring("earth", water) by {
      assert water[..5] != "earth";
    }
    assert !Substring("fire", "air");
  }

  /** The substring test makes any piece of the weakness name count: with a
      known element first completed, the empty name and a prefix such as
      "wat" both read as the easier region. */
  lemma SubstringReadsPiecesAsEasier(p: Progression)
    requires |p.completedRegions| > 0 && p.completedRegions[0] == "fire"
    ensures GetRegionDifficulty(p, "") == 0.7
    ensures GetRegionDifficulty(p, "wat") == 0.7
  {
    PieceIsSubstring("water", 0, 0);
    PieceIsSubstring("water", 0, 3);
    assert "water"[0..0] == "" && "water"[0..3] == "wat";
  }

  /** `get_next_region()`: "fire" before anything is completed; otherwise
      the successor of the current region in REGION_ORDER, or no region
      after the last. The outer `None` is the `ValueError` of a current
      region outside the order. */
  function GetNextRegion(p: Progression): (r: Option<Option<string>>)
    ensures |p.completedRegions| == 0 ==> r == Some(Some("fire"))
    ensures |p.completedRegions| > 0 && p.currentRegion !in REGION_ORDER ==> r.None?
    ensures |p.completedRegions| > 0 && p.currentRegion in REGION_ORDER ==>
              r.Some? && (r.value.None? <==> p.currentRegion == REGION_ORDER[|REGION_ORDER| - 1])
    ensures r.Some? && r.value.Some? ==> r.value.value in REGION_ORDER
  {
    if |p.completedRegions| == 0 then Some(Some("fire"))
    else if p.currentRegion !in REGION_ORDER then None
    else
      var i := IndexOf(REGION_ORDER, p.currentRegion);
      if i < |REGION_ORDER| - 1 then Some(Some(REGION_ORDER[i + 1])) else Some(None)
  }

  /** The successor follows the fixed order fire, water, earth, air, space. */
  lemma NextRegionFollowsOrder(p: Progression, i: nat)
    requires |p.completedRegions| > 0 && i + 1 < |REGION_ORDER| && p.currentRegion == REGION_ORDER[i]
    ensures GetNextRegion(p) == Some(Some(REGION_ORDER[i + 1]))
  {
    IndexOfNoDup(REGION_ORDER, i);
  }
}

=== FILE: puzzles.dfy ===
/** Elemental puzzles (puzzle_system.py): switches, gates and crystals, and
    the manager that checks completion. Elements are objects that gates
    refer to, so a level's puzzle elements form an arena (a sequence) and a
    gate lists its switches by position. Positions, sizes and colours only
    matter for drawing and are not modelled. */
module Puzzles {
  import opened Wrappers

  datatype Element =
    | Switch(requiredElement: string, activated: bool)
    | Gate(switches: seq<nat>, open: bool, activated: bool)
    | Crystal(requiredCharge: seq<string>, currentCharge: int, activated: bool)

  /** Every element starts inactive; a gate starts closed and a crystal
      uncharged. */
  function NewSwitch(required: string): (e: Element)
    ensures e.Switch? && !e.activated && e.requiredElement == required
  {
    Switch(required, false)
  }

  function NewGate(switches: seq<nat>): (e: Element)
    ensures e.Gate? && !e.activated && !e.open && e.switches == switches
  {
    Gate(switches, false, false)
  }

  function NewCrystal(required: seq<string>): (e: Element)
    ensures e.Crystal? && !e.activated && e.currentCharge == 0 && e.requiredCharge == required
  {
    Crystal(required, 0, false)
  }

  /** `interact(player)`: a switch activates, and reports True, exactly when
      the player's region is the required element; it never deactivates.
      Gates and crystals inherit the base `interact`, which does nothing
      and returns None (falsy). */
  function Interact(e: Element, region: Option<string>): (r: (Element, bool))
    ensures r.1 <==> e.Switch? && region == Some(e.requiredElement)
    ensures r.1 ==> r.0 == Switch(e.requiredElement, true)
    ensures !r.1 ==> r.0 == e
    ensures e.activated ==> r.0.activated
  {
    if e.Switch? && region == Some(e.requiredElement) then (Switch(e.requiredElement, true), true)
    else (e, false)
  }

  /** `charge(element)`: a required element adds one to the charge, repeats
      included; once the charge reaches the number of required elements
      the crystal activates, and the call reports True. */
  function Charge(c: Element, element: string): (r: (Element, bool))
    requires c.Crystal?
    ensures r.0.Crystal? && r.0.requiredCharge == c.requiredCharge
    ensures r.0.currentCharge == (if element in c.requiredCharge then c.currentCharge + 1 else c.currentCharge)
    ensures r.1 <==> element in c.requiredCharge && c.currentCharge + 1 >= |c.requiredCharge|
    ensures r.0.activated <==> c.activated || r.1
  {
    if element in c.requiredCharge then
      var n := c.currentCharge + 1;
      if n >= |c.requiredCharge| then (c.(currentCharge := n, activated := true), true)
      else (c.(currentCharge := n), false)
    else (c, false)
  }

  /** Charging `n` times with one required element. */
  function ChargeTimes(c: Element, element: string, n: nat): (r: Element)
    requires c.Crystal?
    ensures r.Crystal? && r.requiredCharge == c.requiredCharge
  {
    if n == 0 then c else Charge(ChargeTimes(c, element, n - 1), element).0
  }

  /** A required element charged `n` times into a fresh crystal leaves a
      charge of `n`, and the crystal is active exactly when `n` reaches the
      number of required elements: repeating one element is enough. */
  lemma {:induction false} RepeatedChargeActivates(required: seq<string>, element: string, n: nat)
    requires element in required
    ensures ChargeTimes(NewCrystal(required), element, n).currentCharge == n
    ensures ChargeTimes(NewCrystal(required), element, n).activated <==> n >= |required|
  {
    if n > 0 {
      RepeatedChargeActivates(required, element, n - 1);
    }
  }

  /** A crystal that requires nothing never charges and never activates. */
  lemma EmptyCrystalNeverActivates(element: string, n: nat)
    ensures !ChargeTimes(NewCrystal([]), element, n).activated
    ensures ChargeTimes(NewCrystal([]), element, n).currentCharge == 0
  {
    EmptyCrystalStays(element, n);
  }

  lemma {:induction false} EmptyCrystalStays(element: string, n: nat)
    ensures ChargeTimes(NewCrystal([]), element, n) == NewCrystal([])
  {
    if n > 0 {
      EmptyCrystalStays(element, n - 1);
    }
  }

  /** Gates refer only to elements of the arena. */
  predicate WellFormed(board: seq<Element>) {
    forall i, k :: 0 <= i < |board| && board[i].Gate? && k in board[i].switches ==> k < |board|
  }

  /** `all(switch.activated for switch in switches)`. */
  predicate AllActivated(board: seq<Element>, switches: seq<nat>)
    requires forall k :: k in switches ==> k < |board|
  {
    forall k :: k in switches ==> board[k].activated
  }

  /** `update()` of one element: a gate opens exactly when all of its
      switches are activated; other elements do nothing. */
  function UpdateElement(board: seq<Element>, i: nat): (r: seq<Element>)
    requires WellFormed(board) && i < |board|
    ensures |r| == |board| && WellFormed(r)
    ensures board[i].Gate? ==> r[i] == board[i].(open := AllActivated(board, board[i].switches))
    ensures !board[i].Gate? ==> r[i] == board[i]
    ensures forall j :: 0 <= j < |board| && j != i ==> r[j] == board[j]
    ensures forall j :: 0 <= j < |board| ==> r[j].activated == board[j].activated
  {
    if board[i].Gate? then board[i := board[i].(open := AllActivated(board, board[i].switches))]
    else board
  }

  /** `PuzzleManager.update`: every managed element updates, in order. No
      update changes an `activated` flag, so each gate reads the switches
      as they were. */
  function UpdateAll(board: seq<Element>, puzzles: seq<nat>): (r: seq<Element>)
    requires WellFormed(board) && forall p :: p in puzzles ==> p < |board|
    ensures |r| == |board| && WellFormed(r)
    ensures forall j :: 0 <= j < |board| ==> r[j].activated == board[j].activated
    ensures forall j :: 0 <= j < |board| && j !in puzzles ==> r[j] == board[j]
    ensures forall j :: 0 <= j < |board| && j in puzzles && board[j].Gate? ==>
              r[j] == board[j].(open := AllActivated(board, board[j].switches))
    decreases |puzzles|
  {
    if |puzzles| == 0 then board
    else
      assert puzzles[0] in puzzles;
      assert forall p :: p in puzzles[1..] ==> p in puzzles;
      var b1 := UpdateElement(board, puzzles[0]);
      assert forall j :: 0 <= j < |board| && board[j].Gate? ==>
               AllActivated(b1, board[j].switches) == AllActivated(board, board[j].switches);
      UpdateAll(b1, puzzles[1..])
  }

  /** A gate with no switches opens at its first update. */
  lemma GateWithoutSwitchesOpens(board: seq<Element>, i: nat)
    requires WellFormed(board) && i < |board| && board[i].Gate? && board[i].switches == []
    ensures UpdateElement(board, i)[i].open
  {
  }

  /** `check_completion()`: every managed element is activated (true for
      none). */
  function CheckCompletion(board: seq<Element>, puzzles: seq<nat>): (r: bool)
    requires forall p :: p in puzzles ==> p < |board|
    ensures puzzles == [] ==> r
    ensures r <==> forall p :: p in puzzles ==> board[p].activated
  {
    forall p :: p in puzzles ==> board[p].activated
  }

  /** No operation activates a gate (it opens, which is a different flag),
      so a manager that holds a gate never reports completion. */
  lemma GateBlocksCompletion(board: seq<Element>, puzzles: seq<nat>, g: nat, region: Option<string>)
    requires WellFormed(board) && forall p :: p in puzzles ==> p < |board|
    requires g in puzzles && board[g].Gate? && !board[g].activated
    ensures !CheckCompletion(board, puzzles)
    ensures !Interact(board[g], region).0.activated
    ensures !CheckCompletion(UpdateAll(board, puzzles), puzzles)
  {
    var r := UpdateAll(board, puzzles);
    assert r[g].activated == board[g].activated;
  }
}

=== FILE: scene_node.dfy ===
/** The scene tree (aether/scene/node.py). Nodes are objects with identity,
    so a scene is an arena: a map from node ids to nodes, where parent and
    child links are ids. */
module SceneNode {
  import opened Wrappers
  import opened Lists

  datatype Node = Node(name: string, parent: Option<nat>, children: seq<nat>,
                       enabled: bool, visible: bool, x: real, y: real, z: int)

  type Scene = map<nat, Node>

  /** `Node(name)`: a detached, enabled, visible node at the origin. */
  function NewNode(name: string := "Node"): (n: Node)
    ensures n.name == name && n.parent == None && n.children == []
    ensures n.enabled && n.visible
    ensures n.x == 0.0 && n.y == 0.0 && n.z == 0
  {
    Node(name, None, [], true, true, 0.0, 0.0, 0)
  }

  /** `parent.add_child(child)`: the child's parent link is set and the
      child is appended to the parent's list. A previous parent keeps its
      own (now stale) entry for the child. The self case `p == c` is not
      excluded: it makes the node its own parent and child. */
  function AddChild(sc: Scene, p: nat, c: nat): (r: Scene)
    requires p in sc && c in sc
    ensures r.Keys == sc.Keys
    ensures r[c].parent == Some(p)
    ensures r[p].children == sc[p].children + [c]
    ensures p != c ==> r[c] == sc[c].(parent := Some(p)) && r[p] == sc[p].(children := sc[p].children + [c])
    ensures forall n :: n in sc && n != p && n != c ==> r[n] == sc[n]
  {
    var sc1 := sc[c := sc[c].(parent := Some(p))];
    sc1[p := sc1[p].(children := sc1[p].children + [c])]
  }

  /** `parent.remove_child(child)`: when the child is listed, its first
      occurrence goes and its parent link is cleared; otherwise nothing
      changes. */
  function RemoveChild(sc: Scene, p: nat, c: nat): (r: Scene)
    requires p in sc && c in sc
    ensures c !in sc[p].children ==> r == sc
    ensures c in sc[p].children ==>
              r.Keys == sc.Keys && r[c].parent == None
              && r[p].children == RemoveFirst(sc[p].children, c)
              && (forall n :: n in sc && n != p && n != c ==> r[n] == sc[n])
    ensures c in sc[p].children && p != c ==>
              r[c] == sc[c].(parent := None) && r[p] == sc[p].(children := RemoveFirst(sc[p].children, c))
  {
    if c in sc[p].children then
      var sc1 := sc[p := sc[p].(children := RemoveFirst(sc[p].children, c))];
      sc1[c := sc1[c].(parent := None)]
    else sc
  }

  /** Removing a child just added to a parent that did not list it, and
      that had no parent before, gives back the original scene. */
  lemma RemoveUndoesAdd(sc: Scene, p: nat, c: nat)
    requires p in sc && c in sc && p != c
    requires c !in sc[p].children && sc[c].parent == None
    ensures RemoveChild(AddChild(sc, p, c), p, c) == sc
  {
    var x := sc[c].(parent := Some(p));
    var y := sc[p].(children := sc[p].children + [c]);
    var a: Scene := sc[c := x][p := y];
    AddChildWrites(sc, p, c);
    assert a[c] == x && a[p] == y;
    RemoveAfterAdd(a, p, c, sc[p]);
    assert x.(parent := None) == sc[c];
    RestoreTwo(sc, p, c, x, y);
  }

  /** `add_child` between two distinct nodes writes exactly their two
      entries. */
  lemma AddChildWrites(sc: Scene, p: nat, c: nat)
    requires p in sc && c in sc && p != c
    ensures AddChild(sc, p, c)
         == sc[c := sc[c].(parent := Some(p))][p := sc[p].(children := sc[p].children + [c])]
  {
  }

  /** Removing a child that the parent lists last, and nowhere before,
      gives the parent its earlier entry back and clears the child's
      parent link. */
  lemma RemoveAfterAdd(a: Scene, p: nat, c: nat, np: Node)
    requires p in a && c in a && p != c
    requires c !in np.children && a[p] == np.(children := np.children + [c])
    ensures RemoveChild(a, p, c) == a[p := np][c := a[c].(parent := None)]
  {
    UnlistLast(np, c);
    RemoveChildWrites(a, p, c, np);
  }

  /** Dropping the child appended last gives the parent back. */
  lemma UnlistLast(n: Node, c: nat)
    requires c !in n.children
    ensures var m := n.(children := n.children + [c]);
      m.(children := RemoveFirst(m.children, c)) == n
  {
    RemoveLast(n.children, c);
  }

  /** `remove_child` of a listed child writes the parent's new entry and
      clears the child's parent link. */
  lemma RemoveChildWrites(sc: Scene, p: nat, c: nat, np: Node)
    requires p in sc && c in sc && p != c && c in sc[p].children
    requires sc[p].(children := RemoveFirst(sc[p].children, c)) == np
    ensures RemoveChild(sc, p, c) == sc[p := np][c := sc[c].(parent := None)]
  {
  }

  /** Writing two keys and then writing their old values back restores
      the map. */
  lemma RestoreTwo(sc: Scene, p: nat, c: nat, x: Node, y: Node)
    requires p in sc && c in sc && p != c
    ensures sc[c := x][p := y][p := sc[p]][c := sc[c]] == sc
  {
  }

  /** Removing the first occurrence of a value appended to a sequence
      without it gives the sequence back. */
  lemma RemoveLast(s: seq<nat>, c: nat)
    requires c !in s
    ensures RemoveFirst(s + [c], c) == s
  {
    assert IndexOf(s + [c], c) == |s| by {
      assert forall j :: 0 <= j < |s| ==> (s + [c])[j] == s[j];
    }
    var r := RemoveFirst(s + [c], c);
    assert r[..|s|] == (s + [c])[..|s|] == s;
  }

  /** Re-parenting leaves the node listed under its old parent too. */
  lemma StaleChildLink(sc: Scene, q: nat, p: nat, c: nat)
    requires p in sc && c in sc && q in sc
    requires q != p && q != c && c in sc[q].children
    ensures AddChild(sc, p, c)[c].parent == Some(p)
    ensures c in AddChild(sc, p, c)[q].children
  {
  }

  /** The `while p:` loop of `global_position`: add the offsets of the
      ancestors, starting at `p`, to the running sum. Each step spends one
      unit of fuel; running out of fuel, or reaching an id outside the
      scene, yields `None`. */
  function Walk(sc: Scene, p: Option<nat>, gx: real, gy: real, fuel: nat): (r: Option<(real, real)>)
    decreases fuel
  {
    match p
    case None => Some((gx, gy))
    case Some(id) =>
      if fuel == 0 || id !in sc then None
      else Walk(sc, sc[id].parent, gx + sc[id].x, gy + sc[id].y, fuel - 1)
  }

  /** `node.global_position()`, with as much fuel as there are nodes: an
      acyclic chain of ancestors has fewer links than that; a cycle never
      ends, and yields `None` here. */
  function GlobalPosition(sc: Scene, n: nat): (r: Option<(real, real)>)
    requires n in sc
  {
    Walk(sc, sc[n].parent, sc[n].x, sc[n].y, |sc|)
  }

  /** The walk only adds to the starting sum: its result is the starting
      sum plus what a walk from zero yields. */
  lemma {:induction false} WalkShift(sc: Scene, p: Option<nat>, gx: real, gy: real, fuel: nat)
    ensures Walk(sc, p, gx, gy, fuel).Some? == Walk(sc, p, 0.0, 0.0, fuel).Some?
    ensures Walk(sc, p, gx, gy, fuel).Some? ==>
              Walk(sc, p, gx, gy, fuel).value
              == (gx + Walk(sc, p, 0.0, 0.0, fuel).value.0, gy + Walk(sc, p, 0.0, 0.0, fuel).value.1)
    decreases fuel
  {
    match p
    case None =>
    case Some(id) =>
      if fuel > 0 && id in sc {
        var nd := sc[id];
        WalkShift(sc, nd.parent, gx + nd.x, gy + nd.y, fuel - 1);
        WalkShift(sc, nd.parent, nd.x, nd.y, fuel - 1);
      }
  }

  /** Extra fuel does not change a walk that already reached a root. */
  lemma {:induction false} WalkFuel(sc: Scene, p: Option<nat>, gx: real, gy: real, fuel: nat, more: nat)
    requires fuel <= more && Walk(sc, p, gx, gy, fuel).Some?
    ensures Walk(sc, p, gx, gy, more) == Walk(sc, p, gx, gy, fuel)
    decreases fuel
  {
    match p
    case None =>
    case Some(id) =>
      WalkFuel(sc, sc[id].parent, gx + sc[id].x, gy + sc[id].y, fuel - 1, more - 1);
  }

  /** A node without a parent sits at its own offset. */
  lemma RootAtOwnOffset(sc: Scene, n: nat)
    requires n in sc && sc[n].parent == None
    ensures GlobalPosition(sc, n) == Some((sc[n].x, sc[n].y))
  {
  }

  /** A child's global position is its own offset plus its parent's global
      position. */
  lemma ChildGlobalPosition(sc: Scene, c: nat, p: nat)
    requires c in sc && p in sc && sc[c].parent == Some(p)
    requires GlobalPosition(sc, c).Some?
    ensures GlobalPosition(sc, p).Some?
    ensures GlobalPosition(sc, c).value
            == (sc[c].x + GlobalPosition(sc, p).value.0, sc[c].y + GlobalPosition(sc, p).value.1)
  {
    var n := |sc|;
    var xc, yc := sc[c].x, sc[c].y;
    var xp, yp := sc[p].x, sc[p].y;
    var q := sc[p].parent;
    assert GlobalPosition(sc, c) == Walk(sc, q, xc + xp, yc + yp, n - 1);
    WalkShift(sc, q, xc + xp, yc + yp, n - 1);
    WalkShift(sc, q, xp, yp, n - 1);
    WalkFuel(sc, q, xp, yp, n - 1, n);
  }

  /** A node that is its own parent (what `n.add_child(n)` builds) has no
      global position: the walk never reaches a root. */
  lemma SelfParentNeverEnds(sc: Scene, n: nat)
    requires n in sc && sc[n].parent == Some(n)
    ensures GlobalPosition(sc, n) == None
  {
    SelfLoopWalk(sc, n, sc[n].x, sc[n].y, |sc|);
  }

  lemma {:induction false} SelfLoopWalk(sc: Scene, n: nat, gx: real, gy: real, fuel: nat)
    requires n in sc && sc[n].parent == Some(n)
    ensures Walk(sc, Some(n), gx, gy, fuel) == None
    decreases fuel
  {
    if fuel > 0 {
      SelfLoopWalk(sc, n, gx + sc[n].x, gy + sc[n].y, fuel - 1);
    }
  }
}

=== FILE: settings.dfy ===
/** The constants of settings.py that the modelled core reads. */
module Settings {
  import opened Wrappers

  const SCREEN_WIDTH: int := 1200
  const SCREEN_HEIGHT: int := 800
  const TILE_SIZE: int := 64

  const PLAYER_SPEED: int := 6
  const PLAYER_JUMP_STRENGTH: real := -16.0
  const GRAVITY: real := 0.8
  const MAX_FALL_SPEED: real := 16.0
  /** Coyote window, in frames. */
  const COYOTE_TIME: int := 8

  const MELEE_ATTACK_DAMAGE: int := 25
  const MELEE_ATTACK_RANGE: int := 60
  /** Milliseconds. */
  const MELEE_ATTACK_COOLDOWN: int := 500
  const RANGED_ATTACK_COOLDOWN: int := 300

  const MAX_ENERGY: int := 100
  const RANGED_ATTACK_ENERGY_COST: int := 15
  const ENERGY_REGEN_RATE: int := 1
  const ENERGY_REGEN_COOLDOWN: int := 0

  const LEVELS_PER_REGION: int := 5
  const FRAGMENTS_NEEDED: int := LEVELS_PER_REGION

  /** The five elements; also the region names. */
  const ELEMENTS: seq<string> := ["earth", "fire", "water", "air", "space"]

  /** `ELEMENT_WEAKNESSES.get(region)`: the table maps each region to a
      single region name, stored as a string. */
  function ElementWeakness(region: string): (w: Option<string>)
    ensures w.Some? <==> region in ELEMENTS
  {
    if region == "earth" then Some("air")
    else if region == "fire" then Some("water")
    else if region == "water" then Some("earth")
    else if region == "air" then Some("fire")
    else if region == "space" then Some("space")
    else None
  }
}

=== FILE: state_manager.dfy ===
/** The game-state manager (archive/game_state_manager.py): the current and
    previous state and a per-state data dictionary. States are the string
    constants of `GameState` in settings.py; a data dictionary is a map
    from strings to strings, truthy when non-empty. */
module StateManager {
  import opened Wrappers

  const MENU: string := "menu"
  const REGION_SELECT: string := "region_select"
  const PLAYING: string := "playing"
  const INVENTORY: string := "inventory"
  const PAUSED: string := "paused"
  const GAME_OVER: string := "game_over"
  const VICTORY: string := "victory"

  type Data = map<string, string>

  datatype Manager = Manager(current: string, previous: Option<string>, data: map<string, Data>)

  /** Python truthiness of an optional state: `None` and `""` are falsy. */
  predicate Truthy(s: Option<string>) {
    s.Some? && s.value != ""
  }

  /** `GameStateManager()`: in the menu, nowhere to go back to, no data. */
  function NewManager(): (m: Manager)
    ensures m.current == MENU && m.previous == None && m.data == map[]
  {
    Manager(MENU, None, map[])
  }

  /** `change_state(new_state, data)`: the old state becomes the previous
      one; data is stored under the new state only when it is truthy. */
  function ChangeState(m: Manager, newState: string, data: Option<Data> := None): (r: Manager)
    ensures r.current == newState && r.previous == Some(m.current)
    ensures data.Some? && |data.value| > 0 ==> r.data == m.data[newState := data.value]
    ensures data.None? || |data.value| == 0 ==> r.data == m.data
  {
    var stored := if data.Some? && |data.value| > 0 then m.data[newState := data.value] else m.data;
    Manager(newState, Some(m.current), stored)
  }

  /** `state or self.current_state`. */
  function Target(m: Manager, state: Option<string>): (s: string)
    ensures Truthy(state) ==> s == state.value
    ensures !Truthy(state) ==> s == m.current
  {
    if Truthy(state) then state.value else m.current
  }

  /** `get_state_data(state)`: the stored data, or `{}`. */
  function GetStateData(m: Manager, state: Option<string> := None): (d: Data)
    ensures Target(m, state) in m.data ==> d == m.data[Target(m, state)]
    ensures Target(m, state) !in m.data ==> d == map[]
  {
    var s := Target(m, state);
    if s in m.data then m.data[s] else map[]
  }

  /** `clear_state_data(state)`: the entry goes if present. */
  function ClearStateData(m: Manager, state: Option<string> := None): (r: Manager)
    ensures r.current == m.current && r.previous == m.previous
    ensures r.data.Keys == m.data.Keys - {Target(m, state)}
    ensures forall s :: s in r.data ==> r.data[s] == m.data[s]
  {
    var s := Target(m, state);
    if s in m.data then m.(data := m.data - {s}) else m
  }

  /** `go_back()`: swaps current and previous when previous is truthy. */
  function GoBack(m: Manager): (r: Manager)
    ensures Truthy(m.previous) ==> r.current == m.previous.value && r.previous == Some(m.current)
    ensures !Truthy(m.previous) ==> r == m
    ensures r.data == m.data
  {
    if Truthy(m.previous) then m.(current := m.previous.value, previous := Some(m.current)) else m
  }

  /** Going back twice restores the pair, whenever the current state is a
      non-empty string (every `GameState` is). */
  lemma GoBackTwice(m: Manager)
    requires m.current != ""
    ensures GoBack(GoBack(m)) == m
  {
  }

  /** Going back right after a change returns to the state left. */
  lemma GoBackUndoesChange(m: Manager, s: string)
    requires m.current != ""
    ensures GoBack(ChangeState(m, s)).current == m.current
    ensures GoBack(ChangeState(m, s)).previous == Some(s)
  {
  }

  /** Stored data is read back under the state it was stored for. */
  lemma DataRoundTrip(m: Manager, s: string, d: Data)
    requires s != "" && |d| > 0
    ensures GetStateData(ChangeState(m, s, Some(d))) == d
    ensures GetStateData(ChangeState(m, s, Some(d)), Some(s)) == d
  {
  }

  /** After clearing, the state's data reads as `{}`. */
  lemma ClearThenGet(m: Manager, state: Option<string>)
    ensures GetStateData(ClearStateData(m, state), state) == map[]
  {
  }

  /** Passing no state, or the empty string, reads and clears the current
      state's data, even when the current state is itself the empty string. */
  lemma FalsyStateMeansCurrent(m: Manager, state: Option<string>)
    requires !Truthy(state)
    ensures GetStateData(m, state) == GetStateData(m, Some(m.current))
    ensures ClearStateData(m, state) == ClearStateData(m, Some(m.current))
  {
  }

  /** Changing state without data keeps earlier data reachable by name. */
  lemma ChangeKeepsOldData(m: Manager, s: string, t: string)
    requires t != ""
    ensures GetStateData(ChangeState(m, s), Some(t)) == GetStateData(m, Some(t))
  {
  }
}

=== FILE: tutorial_level.dfy ===
/** The tutorial level file (levels/tutorial_level.py): the layout grid
    the legacy level loads by default, the `SpriteEnemy` patrol, and the
    one puzzle script with behaviour. */
module TutorialLevel {
  import opened Geometry
  import P = Player

  /** X platform, L lava, W wind, N energy, P player start, E enemy,
      F fragment, A ability orb, B boss, T transition point. Rows have
      unequal lengths, as in the source. */
  const TUTORIAL_LEVEL: seq<string> := [
    "                                                              ",
    "                                                              ",
    "               F                                              ",
    "            XXXXX                                             ",
    "  P      L                    E            A                 ",
    "XXXXX         XXX       XXXXX     XXXXX         XXXXX   T   ",
    "    X         X           X          X             X         ",
    "    X    E    X     F     X     E    X       A     X    XXX  ",
    "    XXX       XXX         XXX        XXX           XXX  X    ",
    "L                     A                   W              X    ",
    "XXXXXXXXX    XXXXXXXXXXXXXXXXXXXX    XXXXXXX                X    ",
    "                                   X                      X    ",
    "                                  X                      X    ",
    "XXXXXXXXXXXXXXXXXXXXXXXXXXXXXXXXXXXXXXXXXXXXXX      B   X    ",
    "XXXXXXXXXXXXXXXXXXXXXXXXXXXXXXXXXXXXXXXXXXXXXXXXXXXXXXXXXXXXXX"
  ]

  const SPRITE_SIZE: int := 32
  const SPRITE_SPEED: int := 2
  /** Half the patrol span around the spawn column. */
  const SPRITE_REACH: int := 50

  /** A patrolling sprite; `lo`/`hi` are the boundaries fixed at construction. */
  datatype SpriteEnemy = SpriteEnemy(rect: Rect, speed: int, direction: int, lo: int, hi: int)

  function NewSpriteEnemy(x: int, y: int): (e: SpriteEnemy)
    ensures e.rect == Rect(x, y, SPRITE_SIZE, SPRITE_SIZE) && e.direction == 1
    ensures e.lo == x - SPRITE_REACH && e.hi == x + SPRITE_REACH
  {
    SpriteEnemy(Rect(x, y, SPRITE_SIZE, SPRITE_SIZE), SPRITE_SPEED, 1, x - SPRITE_REACH, x + SPRITE_REACH)
  }

  /** Step by `speed * direction`; reverse when touching either boundary. */
  function UpdateSprite(e: SpriteEnemy): (r: SpriteEnemy)
    ensures r.rect == e.rect.(x := e.rect.x + e.speed * e.direction)
    ensures r.lo == e.lo && r.hi == e.hi && r.speed == e.speed
    ensures (r.rect.Left() <= e.lo || r.rect.Right() >= e.hi) ==> r.direction == -e.direction
    ensures !(r.rect.Left() <= e.lo || r.rect.Right() >= e.hi) ==> r.direction == e.direction
  {
    var moved := e.rect.(x := e.rect.x + e.speed * e.direction);
    var d := if moved.Left() <= e.lo || moved.Right() >= e.hi then -e.direction else e.direction;
    e.(rect := moved, direction := d)
  }

  /** The states a freshly built sprite can reach: direction is +1 or -1,
      the sprite stays between its boundaries on an even offset from the
      left one, and at either end it already points back inside. */
  predicate Patrolling(e: SpriteEnemy) {
    && e.speed == SPRITE_SPEED && e.rect.w == SPRITE_SIZE
    && e.hi == e.lo + 2 * SPRITE_REACH
    && (e.direction == 1 || e.direction == -1)
    && e.lo <= e.rect.x <= e.hi - SPRITE_SIZE
    && (e.rect.x - e.lo) % 2 == 0
    && (e.rect.x == e.lo ==> e.direction == 1)
    && (e.rect.x == e.hi - SPRITE_SIZE ==> e.direction == -1)
  }

  lemma NewSpritePatrolling(x: int, y: int)
    ensures Patrolling(NewSpriteEnemy(x, y))
  {
  }

  /** The patrol invariant is kept by every update, so the sprite never
      leaves its boundaries and its direction stays in {1, -1}. */
  lemma UpdateKeepsPatrolling(e: SpriteEnemy)
    requires Patrolling(e)
    ensures Patrolling(UpdateSprite(e))
  {
  }

  /** `wind_puzzle_1`: air-dash across the gap when the ability is usable.
      A usable, rested dash records `now` and, in the air, sets the speed to
      8 in the facing direction; otherwise nothing changes. Only the
      horizontal speed and the cooldowns are ever touched. */
  function WindPuzzle1(p: P.Player, now: int): (r: P.Player)
    ensures P.CanUseAbility(p.kit, "air_dash") && P.AbilityReady(p.kit, "air_dash", now) ==>
      && r.kit.abilityCooldowns == p.kit.abilityCooldowns["air_dash" := now]
      && (!p.body.onGround ==> r.body.vx == (if p.body.facingRight then 8.0 else -8.0))
      && (p.body.onGround ==> r.body.vx == p.body.vx)
    ensures !(P.CanUseAbility(p.kit, "air_dash") && P.AbilityReady(p.kit, "air_dash", now)) ==> r == p
    ensures r == p.(body := p.body.(vx := r.body.vx),
                    kit := p.kit.(abilityCooldowns := r.kit.abilityCooldowns))
  {
    if P.CanUseAbility(p.kit, "air_dash") then P.ActivateAbility(p, "air_dash", now) else p
  }

  /** Solving the puzzle twice in the same instant is solving it once: the
      dash just recorded is still cooling down. */
  lemma WindPuzzle1Idempotent(p: P.Player, now: int)
    ensures WindPuzzle1(WindPuzzle1(p, now), now) == WindPuzzle1(p, now)
  {
  }
}

=== FILE: wrappers.dfy ===
/** Optional values, used where the source returns `None` or raises on a
    missing key / out-of-range index. */
module Wrappers {

  datatype Option<+T> = None | Some(value: T) {

    /** The value, or `default` when absent. */
    function GetOr(default: T): T {
      match this
      case Some(v) => v
      case None => default
    }
  }
}
